=== FILE: README.md ===
# note-ai-agent in Dafny

A Dafny model of the core of note-ai-agent. This web app walks a writer through four stages: input, title, outline, body. At the end a server endpoint turns the chosen title and outline into a full note article, with a header image and inline illustrations.

The model covers these parts:

- **Types, Article**: the article record, its defaults, and the setters of the article context, including `resetFromStage`.
- **Wizard, TabNav**: the wizard's generate, reset and button logic, and the tab bar's access rule.
- **OutlineEditor**: the outline editor's row operations.
- **History**: the saved-projects history.
- **ReferenceImage**: the reference-image picker.
- **BodyPreview**: the finished-article view.
- **DebugEnv**: the environment diagnostic endpoint.
- **BodyEndpoint**: the body-generation endpoint from request to response. It is split into smaller modules:
  - **BodyText**: the outline text and cutting the model's answer into its five pieces.
  - **ModelFallback**: the fallback walk over text models.
  - **ImagePrompt**: sanitising image prompts, the Google-then-Pollinations image fallback, and data URLs.
  - **InlineImages, Replacement**: inline images placed under matching `##` headings.

Strings are `seq<char>`, and each `char` stands for one UTF-16 code unit. Everything outside the program becomes a parameter:

- the model calls
- the image-analysis call
- `encodeURIComponent`
- the random seed
- the storage outcome
- ids and clocks

`src/types/index.ts` declares an `ArticleData` without `hashtags`, `referenceImage`, `generatedImageUrl`, `generatedImageModel` or `completedStages`, although the context, the view and the picker read and write them. The model's `ArticleData` includes them. The four value fields are `Option`s, because they can be absent; `completedStages` is a sequence that defaults to empty. The source's default record has no such field; the third Findings row says what that does to the resets.

## Model

| member | source | states |
|---|---|---|
| Types.StageIndex | src/types/index.ts:10 | every stage has a position in the order input, title, outline, body |
| Types.NextStage | src/App.tsx:136-148 | every stage but the body has a successor, and the successor is exactly one position later |
| Types.DefaultIsFresh | src/types/index.ts:58-86 | the default article is on the input stage, in free mode, idle, with nothing generated and 5000 characters asked for |
| Types.WordCountOptionsWellFormed | src/types/index.ts:129-134 | the default word count is one of the offered options, and the options are strictly increasing |
| Types.LabelsDistinct | src/types/index.ts:114-126 | no two writing styles and no two audience levels share a label |
| Types.StageOrderIsEnumeration | src/components/common/TabNav.tsx:22-24 | the stage order lists each stage exactly once |
| Article.AgreeEverywhere | src/contexts/ArticleContext.tsx:46-112 | two articles that agree on every field are equal, so the per-field frame below is complete |
| Article.SetterFrame | src/contexts/ArticleContext.tsx:46-112 | every setter writes its own field with the given value and leaves every other field as it was; resetAll gives the defaults and loadArticle the loaded data |
| Article.UpdateStrategy | src/contexts/ArticleContext.tsx:50-55 | the chosen strategy key takes the value, every other key keeps its value, and nothing outside the strategy changes |
| Article.UpdateSettings | src/contexts/ArticleContext.tsx:57-62 | exactly one basic setting changes, to the given value |
| Article.SetBody | src/contexts/ArticleContext.tsx:76-83 | the body is replaced; an empty or missing description keeps the old one; missing hashtags fall back to the old ones, then to none; nothing else changes |
| Article.ResetFromStage | src/contexts/ArticleContext.tsx:114-149 | every reset empties the body, the description and the tags; a reset from the outline stage or earlier also empties the outline; no stage at or after the reset stage stays completed |
| Article.ResetInputIsDefault | src/contexts/ArticleContext.tsx:119-120 | a reset from the input stage yields the default article whatever came before |
| Article.ResetLaterStage | src/contexts/ArticleContext.tsx:121-144 | a later-stage reset empties the body, description and hashtags; it also empties the outline from the outline stage back and the titles at the title stage; every other field is kept; the title reset leaves exactly `[input]` completed, whatever was completed before; the outline and body resets keep exactly the completed stages before them |
| Article.ResetsNested | src/contexts/ArticleContext.tsx:118-145 | the earlier the stage, the more fields its reset clears |
| Article.ResetIdempotent | src/contexts/ArticleContext.tsx:114-149 | resetting twice from one stage is the same as resetting once |
| Article.ResetCompletedAsWritten | src/contexts/ArticleContext.tsx:118-145 | as written, the outline and body resets throw `Cannot read properties of undefined (reading 'filter')` exactly when the record has no completed-stage list; the input reset leaves the list absent and the title reset writes `[input]` |
| Article.LaterResetOfDefaultThrows | src/contexts/ArticleContext.tsx:130-144 | as written, an outline or body reset of the default article, or of one just reset from the input stage, throws |
| Article.ResetCompletedCorrected | src/contexts/ArticleContext.tsx:121-144 | where the list is present the corrected reset leaves the same completed stages as the code as written; the corrected one reads a missing list as empty and never throws |
| OutlineEditor.Merge | src/components/generation/OutlineEditor.tsx:22 | every field the patch names is taken from the patch, and every other field is kept |
| OutlineEditor.UpdateSection | src/components/generation/OutlineEditor.tsx:20-24 | only the edited row changes, and it becomes the merge of the old row and the patch |
| OutlineEditor.AddSection | src/components/generation/OutlineEditor.tsx:26-36 | the new section sits right after the given row, or at the end when that is past the end; the rows before and after keep their order; editing moves to the row after the given one |
| OutlineEditor.RemoveSection | src/components/generation/OutlineEditor.tsx:38-42 | a single-row outline is never emptied; otherwise exactly the given row is dropped; an index past the end changes nothing |
| OutlineEditor.MoveSection | src/components/generation/OutlineEditor.tsx:44-56 | the row trades places with its neighbour, or nothing changes at the edges; the rows are a permutation of the old ones |
| OutlineEditor.MoveUpThenDown | src/components/generation/OutlineEditor.tsx:44-56 | moving a row up and then down again restores the outline |
| OutlineEditor.RemoveKeepsOrder | src/components/generation/OutlineEditor.tsx:40 | removing a row keeps the others in their order, one shorter |
| OutlineEditor.AddThenRemove | src/components/generation/OutlineEditor.tsx:26-42 | removing the section just added restores the outline |
| Wizard.CanGenerate | src/App.tsx:170-181 | the button is never enabled without a caption; on the input stage it is enabled exactly when the know-how has a character other than whitespace |
| Wizard.ButtonText | src/App.tsx:157-168 | the button has a caption exactly when the wizard is not on the body stage |
| Wizard.MarkCompleted | src/App.tsx:67-70 | adding a stage to the completed list keeps every earlier stage, adds the new one, adds nothing else and never duplicates |
| Wizard.MarkCompletedAppends | src/App.tsx:67-70 | a stage already done leaves the list unchanged; a new stage is appended at the end |
| Wizard.Finish | src/App.tsx:64-79 | a generation always ends idle; a stored reply moves to the next stage and marks it completed; a failed one changes nothing else |
| Wizard.GenerateTitles | src/App.tsx:55-80 | blank know-how (after trimming) does nothing; a reply stores the proposed titles, moves to the title stage, marks it completed and ends idle, and no other field changes; without a reply only the busy flag goes back |
| Wizard.GenerateOutline | src/App.tsx:82-107 | no chosen title does nothing; a reply stores the returned outline, moves to the outline stage, marks it completed and ends idle, and no other field changes; without a reply only the busy flag goes back |
| Wizard.GenerateBody | src/App.tsx:109-134 | an empty outline does nothing; a reply is stored as `setBody` stores the markdown and description without hashtags, the stage moves to the body and is marked completed, and no other field changes; without a reply only the busy flag goes back |
| Wizard.GenerateClick | src/App.tsx:136-148 | a disabled button does nothing; a successful step moves to the next stage, marks it completed, and changes no article field besides the ones its step stores, the stage and the busy flag; a failed one only stops the busy flag |
| Wizard.GenerateStoresReply | src/App.tsx:63-134 | a successful step stores exactly what the endpoint answered; a non-empty description replaces the old one and an empty one keeps it |
| Wizard.BodyStepStoresReply | src/App.tsx:109-134 | the body step stores the reply's markdown; a non-empty description replaces the old one and an empty one keeps it |
| Wizard.HandleReset | src/App.tsx:150-155 | after confirmation the article is the default and only the input stage is completed; otherwise nothing changes |
| TabNav.AccessRules | src/components/common/TabNav.tsx:19-28 | free mode opens every tab; step mode opens the input tab, the current tab, earlier tabs and completed tabs, and no other |
| TabNav.AccessMonotone | src/components/common/TabNav.tsx:19-28 | moving forward or completing more stages never closes a tab |
| History.HistoryTitle | src/hooks/useHistory.ts:32 | the chosen title, else the first proposal marked as a draft, else the untitled placeholder; never empty |
| History.Save | src/hooks/useHistory.ts:24-46 | a stored save puts the new entry first and keeps the newest 50 in order; a failed write changes nothing and reports false |
| History.Delete | src/hooks/useHistory.ts:48-56 | after a stored delete no entry has the id, and every other entry is still there |
| History.DeleteIdempotent | src/hooks/useHistory.ts:50 | deleting the same id twice is deleting it once |
| History.DeletePreservesOrder | src/hooks/useHistory.ts:50 | deleting distributes over concatenation, so the survivors keep their order |
| History.DeleteAbsent | src/hooks/useHistory.ts:50 | deleting an id no entry has changes nothing |
| History.Clear | src/hooks/useHistory.ts:58-65 | a clear that reaches storage empties the list; one that fails keeps it |
| BodyText.RenderSections | api/generate-body.ts:47-48 | one heading-and-summary block per section, in order |
| BodyText.FirstUnrenderable | api/generate-body.ts:47-48 | the first section whose level makes the `#` count negative, with every section before it renderable; none exactly when every level renders |
| BodyText.RenderOutline | api/generate-body.ts:47-49 | the outline text exists exactly when every level is at least -1; otherwise the failure is V8's `Invalid count value: <n>` naming the negative count of the first bad section; an empty outline gives empty text |
| BodyText.RenderDecode | api/generate-body.ts:48 | a rendered section can be read back into the same level, heading and summary |
| BodyText.Hashtags | api/generate-body.ts:205 | every tag found starts with `#` and has no whitespace or further `#` |
| BodyText.HashtagsOfJoined | api/generate-body.ts:205 | tags written out with spaces between them are found again, in order |
| BodyText.HashtagsNeedHash | api/generate-body.ts:205 | text without `#` yields no tags |
| BodyText.AssignParts | api/generate-body.ts:194-220 | each of the five pieces is the trimmed part at its position, or empty when the answer has fewer parts |
| BodyText.SplitResponse | api/generate-body.ts:194-220 | the article, description, header-image prompt and inline prompts come back trimmed, and every tag is a `#` followed by characters that are neither whitespace nor `#` |
| BodyText.SplitWithoutDivider | api/generate-body.ts:194-220 | an answer without the divider is all article, with nothing else |
| BodyText.SplitFiveParts | api/generate-body.ts:194-207 | five trimmed divider-free parts joined by the divider come back as the five pieces |
| BodyText.SplitResponseRoundTrip | api/generate-body.ts:194-220 | formatting pieces into an answer and splitting the answer returns the same pieces |
| ModelFallback.LastErrorNone | api/generate-body.ts:173-185 | no error is kept exactly when no model threw |
| ModelFallback.LastErrorSome | api/generate-body.ts:173-185 | the error kept is the message of a model that threw, and no later model threw |
| ModelFallback.LastErrorStep | api/generate-body.ts:176-184 | each model asked replaces the kept error with its own when it throws, and leaves it alone when it returns |
| ModelFallback.TryModels | api/generate-body.ts:152-190 | the search stops at the first model that answers with non-empty text; otherwise it asks every model; it fails with the last thrown message exactly when no model answered and one threw; it yields empty text exactly when every model answered empty |
| Replacement.TokenLength | api/generate-body.ts:324 | every replacement-template token is at least one character and fits in the template |
| Replacement.Expand | api/generate-body.ts:324 | a template without `$` is inserted literally |
| Replacement.ExpandAppend | api/generate-body.ts:324 | expanding a template splits at any point not inside a `$` pattern |
| Replacement.ExpandLiteralPrefix | api/generate-body.ts:324 | a `$`-free prefix is copied through unchanged |
| InlineImages.KeyPromptAt | api/generate-body.ts:306 | a match at a position exists exactly when a colon follows a non-empty colon-free key there with a non-empty rest of the line |
| InlineImages.KeyPrompt | api/generate-body.ts:306 | a line has no match exactly when no start position gives one; otherwise the pair is the match at the leftmost start that gives one, as `line.match` takes it |
| InlineImages.KeyPromptOfLine | api/generate-body.ts:306 | a colon-free key, a colon and a one-line prompt are matched as that key and that prompt |
| InlineImages.Request | api/generate-body.ts:306-311 | a line asks for an image exactly when it matches and its trimmed prompt is longer than five characters |
| InlineImages.StripHashes | api/generate-body.ts:319 | a leading `##` and the whitespace after it are removed, and nothing else |
| InlineImages.FindH2 | api/generate-body.ts:319 | the first `H2` (any case) at or after a position, or none |
| InlineImages.StripH2 | api/generate-body.ts:319 | a text without `H2` is unchanged; otherwise at least the two characters of the first `H2` are removed |
| InlineImages.TargetHeader | api/generate-body.ts:319 | the heading text is never longer than the key; a key with neither a leading `##` nor an `H2` names itself |
| InlineImages.TargetHeaderOfKey | api/generate-body.ts:319 | a key `p H2 gap t`, where `p` neither starts with `##` nor holds `H2`, the gap is whitespace and `t` does not start with whitespace, names `p t` |
| InlineImages.TargetHeaderOfHeading | api/generate-body.ts:319 | a key written as `##`, spaces and a title yields the title |
| InlineImages.HeadingMatchAt | api/generate-body.ts:320-321 | the heading pattern matches at a position exactly when `##`, optional whitespace and the heading start there; the match runs to the end of the line |
| InlineImages.FindHeading | api/generate-body.ts:321-323 | the leftmost heading match, or none exactly when no position matches |
| Replacement.ExpandCapture | api/generate-body.ts:324 | `$1` is replaced by the text the heading pattern matched, its single group spanning the whole match |
| InlineImages.ExpandBetween | api/generate-body.ts:324 | the literal text of the template around `$1` is copied through, the pattern expanded in place |
| InlineImages.ExpandImageTemplate | api/generate-body.ts:324 | the replacement puts the matched heading back, followed by a blank line and the image link |
| InlineImages.InjectImage | api/generate-body.ts:323-324 | the article changes exactly when the heading is found; when neither heading nor URL holds a `$`, the image link is placed right after the heading line and the text around it is kept |
| InlineImages.PlaceImage | api/generate-body.ts:306-326 | a line places an image exactly when it asks for one and the heading its key names is found; the article is then the one the replacement gives for that heading and the URL made for the line's prompt |
| InlineImages.PlaceImageAfterHeading | api/generate-body.ts:319-324 | when neither the heading nor the URL holds a `$`, the line's image link goes right after the heading's line and the rest of the article is kept |
| InlineImages.FoldLines | api/generate-body.ts:302-333 | for any way of placing, the loop places at most one image per line and three in all, and leaves the article alone when it places none |
| InlineImages.FoldGrowth | api/generate-body.ts:323-326 | when every placement lengthens the article by at least 8 characters, the loop's article is at least 8 longer per image |
| InlineImages.FoldCount | api/generate-body.ts:306-326 | when only requesting lines can place images, the loop places no more images than there are requesting lines |
| InlineImages.FoldNone | api/generate-body.ts:302-333 | below the cap, the loop places no image exactly when no line places one on the article as it is |
| InlineImages.FoldFirst | api/generate-body.ts:302-333 | below the cap, the first line that places an image decides the rest: the loop goes on from the next line with that image placed and one more counted |
| InlineImages.RunLines | api/generate-body.ts:302-333 | the loop with its break at three images computes exactly the fold over the lines |
| InlineImages.InjectFold | api/generate-body.ts:302-333 | the endpoint's loop places at most three images, no more than the lines ask for, adds at least 8 characters per image, and leaves the article alone when it places none |
| InlineImages.InjectFoldNone | api/generate-body.ts:302-326 | no inline image is placed exactly when no line both asks for one and names a heading found in the article |
| InlineImages.InjectFoldFirst | api/generate-body.ts:302-326 | the first line that asks and names a found heading gets its image under that heading, and the loop goes on from the next line with one image counted |
| InlineImages.InjectLines | api/generate-body.ts:296-333 | the loop's result is the fold over the lines: at most three images, no more than the lines ask for, the article changed exactly when one is placed, at least 8 characters added per image |
| InlineImages.InlineResult | api/generate-body.ts:294-334 | no inline prompts leave the article alone; otherwise the article and count are the loop's over the prompt lines, at most three images, no more than the lines ask for |
| InlineImages.InjectInlineImages | api/generate-body.ts:294-334 | the article and image count are exactly the inline result: the loop over the prompt lines, or the article untouched when there are no inline prompts |
| ImagePrompt.FirstAlternative | api/generate-body.ts:62 | the alternation tries the banned words in order and takes the first that matches here, ignoring case |
| ImagePrompt.StripWords | api/generate-body.ts:62 | removing banned words never lengthens the text |
| ImagePrompt.StripWordsCopies | api/generate-body.ts:62 | a stretch at whose every position no banned word matches is copied through unchanged |
| ImagePrompt.StripWordsDrops | api/generate-body.ts:62 | a banned word matched at the front is dropped whole and the rest is processed on its own |
| ImagePrompt.StripWordsFree | api/generate-body.ts:62 | text free of banned words is left unchanged |
| ImagePrompt.StripsEachWord | api/generate-body.ts:62 | with the longer word tried first, each banned word on its own is removed completely, whatever its case |
| ImagePrompt.PhotographyLeavesGraphy | api/generate-body.ts:225 | with the words in the order written, `photography` becomes `graphy` |
| ImagePrompt.SafeSubject | api/generate-body.ts:225-226 | the subject is the title, or a non-empty text no longer than the prompt |
| ImagePrompt.SafeSubjectOfFree | api/generate-body.ts:225-226 | a non-empty prompt without banned words is its own subject |
| ImagePrompt.SafeSubjectOfWord | api/generate-body.ts:225-226 | a prompt that is just one banned word, in any case, falls back to the title |
| ImagePrompt.SafeSubjectAsWritten | api/generate-body.ts:225-226 | with the words in the order written, the subject is the title or a non-empty text no longer than the prompt |
| ImagePrompt.SubjectOrderMatters | api/generate-body.ts:225-226 | for the prompt `photography`, the code as written makes the subject `graphy`, while the corrected order falls back to the title |
| ImagePrompt.CollapseNewlines | api/generate-body.ts:66-67 | the result has no line breaks; text without line breaks is unchanged |
| ImagePrompt.CollapseRun | api/generate-body.ts:66-67 | a run of line breaks at the front becomes one space, whatever its length |
| ImagePrompt.CollapseAppend | api/generate-body.ts:66-67 | text that does not end in a line break collapses independently of what follows it |
| ImagePrompt.CollapseAround | api/generate-body.ts:66-67 | each run of line breaks between two texts becomes exactly one space, and the texts on either side collapse on their own |
| ImagePrompt.Clean | api/generate-body.ts:66-67 | the sanitised text is a line-break-free prefix of the collapsed text, of exactly the limit's length or the whole collapsed text when shorter |
| ImagePrompt.CleanKeepsShortLine | api/generate-body.ts:66-67 | a short one-line text passes sanitising unchanged |
| Strings.DecimalString | api/generate-body.ts:81 | the seed is written with one or more decimal digits |
| Strings.DecimalStringValue | api/generate-body.ts:81 | the digits read back as the number written, with a leading zero only for 0 |
| ImagePrompt.MixPrompt | api/generate-body.ts:72-77 | the fallback description is one line whenever the description and subject put into it are |
| ImagePrompt.PollinationsUrlOf | api/generate-body.ts:81 | the URL is the Pollinations prompt path and the encoded prompt, then `?`, then the query for the seed |
| ImagePrompt.PollinationsUrlParts | api/generate-body.ts:81 | for an encoded prompt without `?`, the URL splits at `?` into the path with the prompt and the query; the query splits at `&` into width, height, nologo, seed and model; the seed parameter reads back as the seed |
| ImagePrompt.PollinationsUrl | api/generate-body.ts:61-82 | a URL is made exactly when the description can be encoded, and it is the Pollinations URL of the encoded description and the seed |
| ImagePrompt.DataUrlPayload | api/generate-body.ts:23 | the payload read from a data URL contains no comma |
| ImagePrompt.DataUrlMime | api/generate-body.ts:24 | the type read from a data URL contains no colon or semicolon |
| ImagePrompt.DataUrlPayloadOf | api/generate-body.ts:23 | the payload read from a data URL built from a comma-free type and payload is that payload |
| ImagePrompt.DataUrlMimeOf | api/generate-body.ts:24 | the type read from a data URL built from a type without `:` or `;` is that type |
| ImagePrompt.DataUrlRoundTrip | api/generate-body.ts:23-24 | splitting a data URL built from a type and a payload gives back that type and that payload |
| ImagePrompt.FirstImage | api/generate-body.ts:247-256 | the first part that carries non-empty image data, every earlier part having none or empty data; none when no part carries data |
| ImagePrompt.TryImageModels | api/generate-body.ts:237-262 | the Google fallback yields an image exactly when some model returns one |
| ImagePrompt.GooglePromptNamesSubject | api/generate-body.ts:233-235 | the Google prompt starts with its style instruction followed by the subject |
| ImagePrompt.ImagePrompts | api/generate-body.ts:224-235 | the Google prompt begins with its style instruction and the safe subject; the fallback description built as at lines 66-77 is always a single line, since both texts put into it are sanitised |
| ImagePrompt.GenerateImage | api/generate-body.ts:224-276 | a Google image when one is returned; otherwise the Pollinations URL of the encoded description and the seed, labelled flux; otherwise an empty URL labelled failed |
| ImagePrompt.GoogleResultIsDataUrl | api/generate-body.ts:250-253 | a Google image's URL is a data URL whose type and payload read back as returned |
| BodyEndpoint.OutlineSectionsAsWritten | api/generate-body.ts:47 | reading `outline.sections` succeeds only for an object that has sections |
| BodyEndpoint.WizardOutlineRejected | src/App.tsx:117 | the bare outline array the wizard sends always fails |
| BodyEndpoint.OutlineSections | api/generate-body.ts:47 | the sections are read from a bare array as well as from an object with sections, agreeing wherever the code as written succeeds |
| BodyEndpoint.WizardOutlineAccepted | src/App.tsx:117 | the wizard's outline reaches the outline text when its levels can be rendered |
| BodyEndpoint.EffectiveWordCount | api/generate-body.ts:84 | a missing or zero word count becomes 2500, and any other is kept |
| BodyEndpoint.ReferenceDescription | api/generate-body.ts:18-44 | no reference image means no description; otherwise the analysis of the image's type and payload, or empty when it fails |
| BodyEndpoint.InlineImageUrl | api/generate-body.ts:316-317 | each inline prompt gets the URL of the image generated for it, with the same reference description and title |
| BodyEndpoint.EyecatchBasePrompt | api/generate-body.ts:281 | the header-image prompt is never empty, and the model's prompt is used when it gave one |
| BodyEndpoint.ErrorMessage | api/generate-body.ts:350-352 | the error returned is never empty, and a non-empty message is passed on unchanged |
| BodyEndpoint.AskModels | api/generate-body.ts:152-190 | the text models fail as a whole exactly when none answered with text and one threw; a non-empty answer is the text of the first model in `modelsToTry` that returned non-empty text, every earlier model having answered empty or thrown; the answer is empty exactly when every model returned empty text |
| BodyEndpoint.PromptFor | api/generate-body.ts:7-58 | the prompt inputs exist exactly when the outline is read and every level renders; a missing outline or one without sections fails with its TypeError, a bad level with its RangeError; otherwise title, know-how, outline text, word count and reference description come from the request |
| BodyEndpoint.Respond | api/generate-body.ts:193-349 | the response carries the split description and tags and the header image; its article is the split article with the images the inline loop places for the inline prompts; its character count is its length |
| BodyEndpoint.Succeed | api/generate-body.ts:192-349 | once the models answered, the response is assembled from the answer with the header image made from the answer's header-image prompt, and each inline prompt's image made with the reference description and the title |
| BodyEndpoint.AnswerPrompt | api/generate-body.ts:152-349 | the request fails with a non-empty message exactly when every text model failed; otherwise a non-empty answer is the first model's non-empty text, the answer is empty exactly when every model returned empty text, and the response is assembled from it |
| BodyEndpoint.GenerateBody | api/generate-body.ts:4-353 | an outline that cannot be read or rendered, or every text model failing, ends in a non-empty error; otherwise a non-empty answer is the text of the first model that returned non-empty text, and the response is assembled from it with the header image and the inline images the loop places |
| ReferenceImage.HandleFileChange | src/components/input/ReferenceImageInput.tsx:11-31 | no file does nothing; a non-image or a file over 5 MiB alerts and changes nothing; an accepted file is stored as the reference image and nothing else changes |
| ReferenceImage.SizeLimitInclusive | src/components/input/ReferenceImageInput.tsx:20 | a file of exactly 5 MiB is accepted, one byte more is refused |
| ReferenceImage.HandleClear | src/components/input/ReferenceImageInput.tsx:33-38 | clearing sets the reference image to empty and changes nothing else |
| BodyPreview.CopyText | src/components/generation/BodyPreview.tsx:38-48 | the copied text is the article, then the rule and the description when there is one |
| BodyPreview.DownloadText | src/components/generation/BodyPreview.tsx:50-53 | the download starts with the article and is longer exactly when there is a description |
| BodyPreview.DownloadMatchesCopy | src/components/generation/BodyPreview.tsx:40-53 | downloaded and copied text are the same |
| BodyPreview.DownloadFilename | src/components/generation/BodyPreview.tsx:58 | the file is named after the title, or `article`, and ends in `.md` |
| BodyPreview.Preview | src/components/generation/BodyPreview.tsx:29-67 | nothing is offered until there is a body; the count is the body's length; copy and download agree and start with the body |
| BodyPreview.GradeTone | src/components/generation/BodyPreview.tsx:83-99 | `S` grades are emerald, other `A` grades blue, the rest yellow |
| BodyPreview.GettersFollowTone | src/components/generation/BodyPreview.tsx:83-99 | each colour getter gives the class of the grade's tone |
| BodyPreview.GettersAgree | src/components/generation/BodyPreview.tsx:83-99 | two grades share a bar colour exactly when they share a background and a score colour, exactly when they share a tone |
| BodyPreview.ToneClassesDistinct | src/components/generation/BodyPreview.tsx:83-99 | different tones differ in every class |
| DebugEnv.LessTotal | api/debug-env.ts:5 | any two different names are ordered one way or the other |
| DebugEnv.LessTransitive | api/debug-env.ts:5 | the code-unit order is transitive |
| DebugEnv.Insert | api/debug-env.ts:5 | inserting a new name into a sorted list keeps it sorted and adds exactly that name |
| DebugEnv.SortedUnique | api/debug-env.ts:5 | two sorted lists with the same names are the same list, so the sorted order is unique |
| DebugEnv.SortedKeys | api/debug-env.ts:5 | every variable name once, in code-unit order |
| DebugEnv.ShownValue | api/debug-env.ts:10-14 | a sensitive name shows `***HIDDEN***`; any other shows the first ten code units of the value, or all of a shorter one, followed by `...` |
| DebugEnv.Entries | api/debug-env.ts:9-16 | one entry per name, in order, marked present, with the shown value |
| DebugEnv.Diagnose | api/debug-env.ts:4-24 | the report lists every variable exactly once in sorted order, counts them, and shows each value as redacted |
| DebugEnv.SecretsDoNotShow | api/debug-env.ts:9-16 | environments that differ only in the values of sensitive names give identical reports |
| DebugEnv.SensitiveWordHidden | api/debug-env.ts:10 | a name holding `KEY`, `SECRET`, `PASSWORD` or `TOKEN` anywhere, in any case, is hidden |

## Left out

- Strings are UTF-16 code units with no surrogate pairs. `length`, `slice` and `substring` are exact for such text; astral characters are not modelled.
- Case-insensitive matching folds ASCII letters only. This is exact for the banned words, `KEY|SECRET|PASSWORD|TOKEN` and `H2`. A heading containing non-ASCII letters with case variants is matched without folding those letters.
- The wording of the model prompts in `api/generate-body.ts`, lines 86-150 and 233-235, is not modelled. Their inputs are: title, outline text, know-how, word count and reference description.
- `encodeURIComponent` is a parameter that may fail. A failure is the catch at lines 272-274.
- `Math.random` is a single seed parameter. The same seed serves every image of one request.
- The two-second delay between inline images (line 314) is left out; it does not affect the result.
- The Google SDK, the HTTP calls and the vision analysis of the reference image are parameters. Logging is left out.
- The API-key check at lines 8-12 is left out. It lists the environment keys that mention gemini or api when no key is set. The model starts from a configured key.
- The request's `settings` and `strategy` only feed prompt wording, apart from the word count. They are not modelled.
- `localStorage`, `crypto.randomUUID` and `Date.now` in `src/hooks/useHistory.ts` are parameters. So is whether the storage call throws. Loading the history on start is left out.
- History.Save: `JSON.parse(JSON.stringify(data))` is taken to be the identity on the article. It drops `undefined` fields, and the model does not show that.
- The `FileReader` in `src/components/input/ReferenceImageInput.tsx` is not modelled. The data URL it produces comes in with the chosen file. Resetting the file input's value on clear is a DOM effect and is left out.
- The quality scores in `src/components/generation/BodyPreview.tsx` are constants; only the colour getters are modelled. The clipboard, the `Blob` download, the copied-flag timer and the rendering are left out.
- `alert` and `confirm` dialogs are left out. Confirmation is a parameter of Wizard.HandleReset, and the picker's alerts are part of its result.
- The wizard passes only the markdown and description of a body reply to `setBody`. The hashtags and images the endpoint returns are not stored, and the model follows the code there.
- The API-level types of the title and outline endpoints are context only. The wizard sees their replies as optional values.
- The guide modal, the header, the accordion and the other presentational components are not part of this model.
- Article.ResetFromStage: reads a record without a completed-stage list as one with an empty list, so the outline and body resets succeed where the code as written throws `Cannot read properties of undefined (reading 'filter')` (third Findings row, Article.ResetCompletedAsWritten). The wizard itself only ever resets from the input stage (src/App.tsx:152).
- ImagePrompt.StripWords: its own contract is a length bound. What the replace keeps and drops is stated by ImagePrompt.StripWordsCopies, ImagePrompt.StripWordsDrops and ImagePrompt.StripsEachWord.
- ImagePrompt.SafeSubject: removes the banned words with `photography` tried before `photo`, the corrected order of the second Findings row. The code as written is ImagePrompt.SafeSubjectAsWritten, and ImagePrompt.SubjectOrderMatters shows where the two differ.
- ImagePrompt.ImagePrompts: builds both prompts from the corrected subject, so a prompt containing `photography` gives other prompts than the code as written.
- BodyEndpoint.InlineImageUrl: makes each inline image from the corrected subject, as ImagePrompt.ImagePrompts does.
- BodyEndpoint.PromptFor: reads the outline with the corrected BodyEndpoint.OutlineSections of the first Findings row. The bare array the wizard sends reaches the prompt, where the code as written throws `Cannot read properties of undefined (reading 'map')` at line 47 (BodyEndpoint.WizardOutlineRejected).
- BodyEndpoint.Succeed: its images come from the corrected subject, as ImagePrompt.ImagePrompts does.
- BodyEndpoint.AnswerPrompt: its images come from the corrected subject, as ImagePrompt.ImagePrompts does.
- BodyEndpoint.GenerateBody: follows BodyEndpoint.PromptFor in accepting the bare outline array, and its images come from the corrected subject.

## Findings

| source | as written | input that shows it | evidently intended | confidence | as-written member | corrected member |
|---|---|---|---|---|---|---|
| src/App.tsx:117 and api/generate-body.ts:47 | the wizard sends `outline` as the bare array of sections, and the endpoint reads `outline.sections.map`, which is a TypeError on an array | any body request from the wizard, e.g. an outline of one section | the endpoint reads the sections the wizard sends | not executed | BodyEndpoint.WizardOutlineRejected | BodyEndpoint.WizardOutlineAccepted |
| api/generate-body.ts:62 and api/generate-body.ts:225 | the alternation lists `photo` before `photography`, and it takes the first alternative that matches, so `photography` loses only `photo` | the image prompt `photography` | every banned word is removed whole | not executed | ImagePrompt.PhotographyLeavesGraphy | ImagePrompt.StripsEachWord |
| src/types/index.ts:74-86 and src/contexts/ArticleContext.tsx:136 | the default article has no `completedStages`, nothing in the app gives it one except the title reset, and the outline and body resets call `prev.completedStages.filter`, a TypeError on `undefined` | `resetFromStage('outline')` on the default article | the completed stages before the reset stage are kept, none when there were none | not executed | Article.LaterResetOfDefaultThrows | Article.ResetFromStage |

=== FILE: article.dfy ===
/**
 * The article context: the setters every component calls and the partial
 * resets that discard whatever was derived from a stage onwards.
 */
module Article {
  import opened Wrappers
  import opened Types
  import Seqs

  /** The fields of `ArticleData`, to say which ones an update may touch. */
  datatype Field =
    | Knowhow | Strategy | Settings | GeneratedTitles | SelectedTitle | OutlineF
    | BodyF | MetaDescription | Hashtags | GeneratedImageUrl | GeneratedImageModel
    | ReferenceImage | CompletedStages | CurrentStage | IsStepMode | IsGenerating

  /** `a` and `b` agree on every field outside `touched`. */
  predicate AgreeExcept(a: ArticleData, b: ArticleData, touched: set<Field>) {
    && (Knowhow !in touched ==> a.knowhow == b.knowhow)
    && (Strategy !in touched ==> a.strategy == b.strategy)
    && (Settings !in touched ==> a.settings == b.settings)
    && (GeneratedTitles !in touched ==> a.generatedTitles == b.generatedTitles)
    && (SelectedTitle !in touched ==> a.selectedTitle == b.selectedTitle)
    && (OutlineF !in touched ==> a.outline == b.outline)
    && (BodyF !in touched ==> a.body == b.body)
    && (MetaDescription !in touched ==> a.metaDescription == b.metaDescription)
    && (Hashtags !in touched ==> a.hashtags == b.hashtags)
    && (GeneratedImageUrl !in touched ==> a.generatedImageUrl == b.generatedImageUrl)
    && (GeneratedImageModel !in touched ==> a.generatedImageModel == b.generatedImageModel)
    && (ReferenceImage !in touched ==> a.referenceImage == b.referenceImage)
    && (CompletedStages !in touched ==> a.completedStages == b.completedStages)
    && (CurrentStage !in touched ==> a.currentStage == b.currentStage)
    && (IsStepMode !in touched ==> a.isStepMode == b.isStepMode)
    && (IsGenerating !in touched ==> a.isGenerating == b.isGenerating)
  }

  /** Agreeing outside every field is equality. */
  lemma AgreeEverywhere(a: ArticleData, b: ArticleData)
    requires AgreeExcept(a, b, {})
    ensures a == b
  {
  }

  // ---------------------------------------------------------------------------
  // Plain setters
  // ---------------------------------------------------------------------------

  /** The context's one-field setters, and the whole-record `resetAll`/`loadArticle`. */
  datatype Setter =
    | SetKnowhow(knowhow: string)
    | SetGeneratedTitles(titles: seq<string>)
    | SetSelectedTitle(title: string)
    | SetOutline(outline: seq<OutlineSection>)
    | SetGeneratedImageUrl(url: string)
    | SetReferenceImage(image: string)
    | SetCurrentStage(stage: GenerationStage)
    | SetIsStepMode(stepMode: bool)
    | SetIsGenerating(generating: bool)
    | SetCompletedStages(stages: seq<GenerationStage>)
    | ResetAll
    | LoadArticle(data: ArticleData)

  /** The one field a setter writes (all of them for the whole-record ones). */
  function Writes(s: Setter): set<Field> {
    match s
    case SetKnowhow(_) => {Knowhow}
    case SetGeneratedTitles(_) => {GeneratedTitles}
    case SetSelectedTitle(_) => {SelectedTitle}
    case SetOutline(_) => {OutlineF}
    case SetGeneratedImageUrl(_) => {GeneratedImageUrl}
    case SetReferenceImage(_) => {ReferenceImage}
    case SetCurrentStage(_) => {CurrentStage}
    case SetIsStepMode(_) => {IsStepMode}
    case SetIsGenerating(_) => {IsGenerating}
    case SetCompletedStages(_) => {CompletedStages}
    case ResetAll | LoadArticle(_) =>
      {Knowhow, Strategy, Settings, GeneratedTitles, SelectedTitle, OutlineF,
       BodyF, MetaDescription, Hashtags, GeneratedImageUrl, GeneratedImageModel,
       ReferenceImage, CompletedStages, CurrentStage, IsStepMode, IsGenerating}
  }

  function Apply(d: ArticleData, s: Setter): ArticleData {
    match s
    case SetKnowhow(k) => d.(knowhow := k)
    case SetGeneratedTitles(t) => d.(generatedTitles := t)
    case SetSelectedTitle(t) => d.(selectedTitle := t)
    case SetOutline(o) => d.(outline := o)
    case SetGeneratedImageUrl(u) => d.(generatedImageUrl := Some(u))
    case SetReferenceImage(i) => d.(referenceImage := Some(i))
    case SetCurrentStage(st) => d.(currentStage := st)
    case SetIsStepMode(m) => d.(isStepMode := m)
    case SetIsGenerating(g) => d.(isGenerating := g)
    case SetCompletedStages(st) => d.(completedStages := st)
    case ResetAll => DefaultArticleData
    case LoadArticle(data) => data
  }

  /** Every setter stores its argument and leaves every field it does not name alone. */
  lemma SetterFrame(d: ArticleData, s: Setter)
    ensures AgreeExcept(d, Apply(d, s), Writes(s))
    ensures s.SetKnowhow? ==> Apply(d, s).knowhow == s.knowhow
    ensures s.SetGeneratedTitles? ==> Apply(d, s).generatedTitles == s.titles
    ensures s.SetSelectedTitle? ==> Apply(d, s).selectedTitle == s.title
    ensures s.SetOutline? ==> Apply(d, s).outline == s.outline
    ensures s.SetGeneratedImageUrl? ==> Apply(d, s).generatedImageUrl == Some(s.url)
    ensures s.SetReferenceImage? ==> Apply(d, s).referenceImage == Some(s.image)
    ensures s.SetCurrentStage? ==> Apply(d, s).currentStage == s.stage
    ensures s.SetIsStepMode? ==> Apply(d, s).isStepMode == s.stepMode
    ensures s.SetIsGenerating? ==> Apply(d, s).isGenerating == s.generating
    ensures s.SetCompletedStages? ==> Apply(d, s).completedStages == s.stages
    ensures s.ResetAll? ==> Apply(d, s) == DefaultArticleData
    ensures s.LoadArticle? ==> Apply(d, s) == s.data
  {
  }

  // ---------------------------------------------------------------------------
  // Keyed updates of the two settings records
  // ---------------------------------------------------------------------------

  datatype StrategyKey = TitleKey | TargetKey | ConceptKey | StrengthKey | StructureKey | OtherInstructionsKey

  /** `strategy[key]`. */
  function StrategyGet(s: StrategySettings, k: StrategyKey): string {
    match k
    case TitleKey => s.title
    case TargetKey => s.target
    case ConceptKey => s.concept
    case StrengthKey => s.strength
    case StructureKey => s.structure
    case OtherInstructionsKey => s.otherInstructions
  }

  /** `updateStrategy(key, value)`: only `strategy[key]` changes, to `value`. */
  function UpdateStrategy(d: ArticleData, key: StrategyKey, value: string): (r: ArticleData)
    ensures StrategyGet(r.strategy, key) == value
    ensures forall k :: k != key ==> StrategyGet(r.strategy, k) == StrategyGet(d.strategy, k)
    ensures AgreeExcept(d, r, {Strategy})
  {
    var s := d.strategy;
    var s' := match key
      case TitleKey => s.(title := value)
      case TargetKey => s.(target := value)
      case ConceptKey => s.(concept := value)
      case StrengthKey => s.(strength := value)
      case StructureKey => s.(structure := value)
      case OtherInstructionsKey => s.(otherInstructions := value);
    d.(strategy := s')
  }

  /** The keyed writes `updateSettings` receives from the settings form, one per field. */
  datatype SettingsUpdate =
    | StyleUpdate(style: WritingStyle)
    | AudienceUpdate(audience: AudienceLevel)
    | WordCountUpdate(wordCount: int)
    | ImageThemeUpdate(imageTheme: string)

  /** `updateSettings(key, value)`: only `settings[key]` changes, to `value`. */
  function UpdateSettings(d: ArticleData, u: SettingsUpdate): (r: ArticleData)
    ensures AgreeExcept(d, r, {Settings})
    ensures u.StyleUpdate? ==> r.settings == d.settings.(style := u.style)
    ensures u.AudienceUpdate? ==> r.settings == d.settings.(audience := u.audience)
    ensures u.WordCountUpdate? ==> r.settings == d.settings.(wordCount := u.wordCount)
    ensures u.ImageThemeUpdate? ==> r.settings == d.settings.(imageTheme := u.imageTheme)
  {
    var s := d.settings;
    var s' := match u
      case StyleUpdate(v) => s.(style := v)
      case AudienceUpdate(v) => s.(audience := v)
      case WordCountUpdate(v) => s.(wordCount := v)
      case ImageThemeUpdate(v) => s.(imageTheme := v);
    d.(settings := s')
  }

  // ---------------------------------------------------------------------------
  // setBody
  // ---------------------------------------------------------------------------

  /**
   * `setBody(body, metaDescription?, hashtags?)`. An empty or missing
   * description keeps the previous one (JavaScript `||`); missing hashtags keep
   * the previous ones, or become `[]` when there were none.
   */
  function SetBody(d: ArticleData, body: string, meta: Option<string>, tags: Option<seq<string>>): (r: ArticleData)
    ensures AgreeExcept(d, r, {BodyF, MetaDescription, Hashtags})
    ensures r.body == body
    ensures (meta.Some? && meta.value != "") ==> r.metaDescription == meta.value
    ensures (meta.None? || meta.value == "") ==> r.metaDescription == d.metaDescription
    ensures r.hashtags.Some?
    ensures tags.Some? ==> r.hashtags == tags
    ensures tags.None? && d.hashtags.Some? ==> r.hashtags == d.hashtags
    ensures tags.None? && d.hashtags.None? ==> r.hashtags == Some([])
  {
    d.(body := body,
       metaDescription := if meta.Some? && meta.value != "" then meta.value else d.metaDescription,
       hashtags := Some(if tags.Some? then tags.value else d.hashtags.GetOr([])))
  }

  /** `setBody` neither reads nor writes the busy flag. */
  lemma SetBodyIgnoresBusy(d: ArticleData, body: string, meta: Option<string>, tags: Option<seq<string>>, busy: bool)
    ensures SetBody(d.(isGenerating := busy), body, meta, tags) == SetBody(d, body, meta, tags).(isGenerating := busy)
  {
  }

  // ---------------------------------------------------------------------------
  // resetFromStage
  // ---------------------------------------------------------------------------

  /** The generated fields a reset from `stage` empties (for `Input`: everything). */
  function Cleared(stage: GenerationStage): set<Field> {
    match stage
    case Input => Writes(ResetAll)
    case Title => {GeneratedTitles, SelectedTitle, OutlineF, BodyF, MetaDescription, Hashtags, CompletedStages}
    case Outline => {OutlineF, BodyF, MetaDescription, Hashtags, CompletedStages}
    case Body => {BodyF, MetaDescription, Hashtags, CompletedStages}
  }

  function IsInputOrTitle(s: GenerationStage): bool { s == Input || s == Title }

  function IsNotBody(s: GenerationStage): bool { s != Body }

  /**
   * `resetFromStage(stage)`: forget what the stage and the ones after it
   * produced. Every reset empties the body, its description and its tags;
   * a reset from the outline stage or earlier empties the outline too; only
   * stages before the reset stage stay completed.
   */
  function ResetFromStage(d: ArticleData, stage: GenerationStage): (r: ArticleData)
    ensures r.body == "" && r.metaDescription == "" && (r.hashtags.None? || r.hashtags == Some([]))
    ensures StageIndex(stage) <= StageIndex(Outline) ==> r.outline == []
    ensures forall i :: 0 <= i < |r.completedStages| ==> StageIndex(r.completedStages[i]) < StageIndex(stage)
  {
    match stage
    case Input => DefaultArticleData
    case Title =>
      d.(generatedTitles := [], selectedTitle := "", outline := [], body := "",
         metaDescription := "", hashtags := Some([]), completedStages := [Input])
    case Outline =>
      d.(outline := [], body := "", metaDescription := "", hashtags := Some([]),
         completedStages := Seqs.Filter(d.completedStages, IsInputOrTitle))
    case Body =>
      d.(body := "", metaDescription := "", hashtags := Some([]),
         completedStages := Seqs.Filter(d.completedStages, IsNotBody))
  }

  /** A reset from the first stage is the default article, whatever came before. */
  lemma ResetInputIsDefault(d: ArticleData)
    ensures ResetFromStage(d, Input) == DefaultArticleData
    ensures IsFresh(ResetFromStage(d, Input))
  {
  }

  /**
   * A later-stage reset empties the fields derived from that stage on, keeps
   * the inputs and every earlier result, and keeps only completed stages
   * strictly before it.
   */
  lemma ResetLaterStage(d: ArticleData, stage: GenerationStage)
    requires stage != Input
    ensures var r := ResetFromStage(d, stage);
      && AgreeExcept(d, r, Cleared(stage))
      && r.body == "" && r.metaDescription == "" && r.hashtags == Some([])
      && (StageIndex(stage) <= StageIndex(Outline) ==> r.outline == [])
      && (stage == Title ==> r.generatedTitles == [] && r.selectedTitle == "" && r.completedStages == [Input])
      && (forall i :: 0 <= i < |r.completedStages| ==> StageIndex(r.completedStages[i]) < StageIndex(stage))
      && (forall i :: 0 <= i < |d.completedStages| && StageIndex(d.completedStages[i]) < StageIndex(stage)
            ==> d.completedStages[i] in r.completedStages)
  {
  }

  /** The later the stage, the fewer fields its reset clears. */
  lemma ResetsNested()
    ensures Cleared(Body) <= Cleared(Outline) <= Cleared(Title) <= Cleared(Input)
  {
  }

  /** What V8 throws for `undefined.filter(...)`. */
  const FilterOfUndefined := "Cannot read properties of undefined (reading 'filter')"

  /**
   * The completed-stage list `resetFromStage` leaves, as the code is written.
   * `None` is a record without the field, which the default article is: the
   * input reset gives such a record back, the title reset writes `[Input]`,
   * and the outline and body resets call `filter` on the field, which throws
   * when it is missing.
   */
  function ResetCompletedAsWritten(prev: Option<seq<GenerationStage>>, stage: GenerationStage)
    : (r: Result<Option<seq<GenerationStage>>>)
    ensures r.Failure? <==> prev.None? && StageIndex(stage) >= StageIndex(Outline)
    ensures r.Failure? ==> r.error == FilterOfUndefined
    ensures stage == Input ==> r == Success(None)
    ensures stage == Title ==> r == Success(Some([Input]))
  {
    match stage
    case Input => Success(None)
    case Title => Success(Some([Input]))
    case Outline =>
      if prev.None? then Failure(FilterOfUndefined) else Success(Some(Seqs.Filter(prev.value, IsInputOrTitle)))
    case Body =>
      if prev.None? then Failure(FilterOfUndefined) else Success(Some(Seqs.Filter(prev.value, IsNotBody)))
  }

  /** As written, an outline or body reset of the default article, or of one just reset from the input stage, throws. */
  lemma LaterResetOfDefaultThrows(stage: GenerationStage)
    requires stage == Outline || stage == Body
    ensures ResetCompletedAsWritten(None, stage) == Failure(FilterOfUndefined)
    ensures ResetCompletedAsWritten(None, Input).Success?
    ensures ResetCompletedAsWritten(ResetCompletedAsWritten(None, Input).value, stage).Failure?
  {
  }

  /**
   * Where the field is present the code as written and the corrected reset
   * agree; the corrected reset reads a missing list as the empty one, so it
   * never throws.
   */
  lemma ResetCompletedCorrected(d: ArticleData, stage: GenerationStage)
    ensures stage != Input ==>
      ResetCompletedAsWritten(Some(d.completedStages), stage) == Success(Some(ResetFromStage(d, stage).completedStages))
    ensures stage == Input ==> ResetFromStage(d, stage).completedStages == []
  {
  }

  /** Resetting twice from the same stage is resetting once. */
  lemma ResetIdempotent(d: ArticleData, stage: GenerationStage)
    ensures ResetFromStage(ResetFromStage(d, stage), stage) == ResetFromStage(d, stage)
  {
    match stage
    case Input =>
    case Title =>
    case Outline => Seqs.FilterIdempotent(d.completedStages, IsInputOrTitle);
    case Body => Seqs.FilterIdempotent(d.completedStages, IsNotBody);
  }
}

=== FILE: body_endpoint.dfy ===
/**
 * The body endpoint from request to response: the outline read from the
 * request, the text models asked in turn, the answer cut into its pieces,
 * the header image, and the inline images placed under the headings. Model
 * calls, the reference-image analysis, URI encoding and the random seed are
 * parameters.
 */
module BodyEndpoint {
  import opened Wrappers
  import opened Types
  import opened Strings
  import opened BodyText
  import opened ModelFallback
  import opened ImagePrompt
  import opened InlineImages

  // ---------------------------------------------------------------------------
  // The outline in the request
  // ---------------------------------------------------------------------------

  /** The `outline` field of the request body as JSON: absent, an array, or an object with or without `sections`. */
  datatype OutlinePayload = Missing | AsArray(items: seq<OutlineSection>) | AsObject(sections: Option<seq<OutlineSection>>)

  const SectionsOfUndefined := "Cannot read properties of undefined (reading 'sections')"
  const MapOfUndefined := "Cannot read properties of undefined (reading 'map')"

  /**
   * `outline.sections.map(...)` as written: a TypeError unless the outline is
   * an object with a `sections` array. An array has no `sections` property.
   */
  function OutlineSectionsAsWritten(o: OutlinePayload): (r: Result<seq<OutlineSection>>)
    ensures r.Success? <==> o.AsObject? && o.sections.Some?
    ensures r.Success? ==> r.value == o.sections.value
  {
    match o
    case Missing => Failure(SectionsOfUndefined)
    case AsArray(_) => Failure(MapOfUndefined)
    case AsObject(None) => Failure(MapOfUndefined)
    case AsObject(Some(sections)) => Success(sections)
  }

  /** The wizard sends its outline as a bare array, which the code as written always rejects. */
  lemma WizardOutlineRejected(sections: seq<OutlineSection>)
    ensures OutlineSectionsAsWritten(AsArray(sections)) == Failure(MapOfUndefined)
  {
  }

  /** The sections read from the outline, accepting the bare array the wizard sends as well as `{ sections }`. */
  function OutlineSections(o: OutlinePayload): (r: Result<seq<OutlineSection>>)
    ensures r.Success? <==> o.AsArray? || (o.AsObject? && o.sections.Some?)
    ensures o.AsArray? ==> r == Success(o.items)
    ensures OutlineSectionsAsWritten(o).Success? ==> r == OutlineSectionsAsWritten(o)
  {
    match o
    case AsArray(items) => Success(items)
    case _ => OutlineSectionsAsWritten(o)
  }

  /** The wizard's outline, sent as it is, reaches the prompt. */
  lemma WizardOutlineAccepted(sections: seq<OutlineSection>)
    requires Renderable(sections)
    ensures OutlineSections(AsArray(sections)) == Success(sections)
    ensures RenderOutline(sections).Success?
  {
  }

  // ---------------------------------------------------------------------------
  // The request and the response
  // ---------------------------------------------------------------------------

  const DefaultWordCount: int := 2500

  /** `settings?.wordCount || 2500`: a missing or zero count means the default. */
  function EffectiveWordCount(requested: Option<int>): (r: int)
    ensures r != 0
    ensures requested.Some? && requested.value != 0 ==> r == requested.value
    ensures requested.None? || requested.value == 0 ==> r == DefaultWordCount
  {
    if requested.Some? && requested.value != 0 then requested.value else DefaultWordCount
  }

  /** What the request carries that the endpoint reads; `referenceImage` is a data URL or absent. */
  datatype BodyRequest = BodyRequest(
    knowhow: string,
    selectedTitle: string,
    outline: OutlinePayload,
    wordCount: Option<int>,
    referenceImage: Option<string>)

  /** What the prompt for the text models is built from; its wording is not modelled. */
  datatype PromptInputs = PromptInputs(
    title: string,
    outlineText: string,
    knowhow: string,
    wordCount: int,
    referenceDescription: string)

  /**
   * The calls the endpoint makes to the outside: the text model for a prompt
   * and a model name; the image analysis for a type and a payload (`None`
   * when it throws); the image models; `encodeURIComponent`; the seeds.
   */
  datatype Services = Services(
    generate: (PromptInputs, string) -> Attempt,
    describe: (Option<string>, Option<string>) -> Option<string>,
    google: (string, string) -> ImageReply,
    encode: string -> Option<string>,
    seed: nat)

  datatype BodyResponse = BodyResponse(
    markdown: string,
    metaDescription: string,
    hashtags: seq<string>,
    actualWordCount: nat,
    generatedImageUrl: string,
    generatedImageModel: string)

  /** The style description of the reference image, or empty when there is none or its analysis fails. */
  function ReferenceDescription(referenceImage: Option<string>, describe: (Option<string>, Option<string>) -> Option<string>): (r: string)
    ensures referenceImage.None? || referenceImage.value == "" ==> r == ""
    ensures referenceImage.Some? && referenceImage.value != "" ==>
              r == describe(DataUrlMime(referenceImage.value), DataUrlPayload(referenceImage.value)).GetOr("")
  {
    if referenceImage.None? || referenceImage.value == "" then ""
    else describe(DataUrlMime(referenceImage.value), DataUrlPayload(referenceImage.value)).GetOr("")
  }

  const DefaultEyecatchPrompt := "minimalist flat design illustration blog header soft colors"

  /** The image for a prompt, as `generateImage` (api/generate-body.ts:224-276) makes it for this request. */
  function ImageFor(prompt: string, refDesc: string, isEyecatch: bool, title: string, svc: Services): ImageResult {
    var prompts := ImagePrompts(prompt, refDesc, isEyecatch, title);
    GenerateImage(prompts.0, prompts.1, svc.google, svc.encode, svc.seed)
  }

  /** The URL `generateImage` gives for an inline image's prompt (api/generate-body.ts:316-317). */
  function InlineUrl(refDesc: string, title: string, svc: Services, prompt: string): string {
    ImageFor(prompt, refDesc, false, title, svc).url
  }

  /** The inline-image URLs as the function the injection loop calls. */
  function InlineImageUrl(refDesc: string, title: string, svc: Services): (r: string -> string)
    ensures forall prompt :: r(prompt) == InlineUrl(refDesc, title, svc, prompt)
  {
    (prompt: string) => InlineUrl(refDesc, title, svc, prompt)
  }

  /** `eyecatchPrompt || 'minimalist flat design ...'`: the prompt the header image is made from. */
  function EyecatchBasePrompt(eyecatchPrompt: string): (r: string)
    ensures r != ""
    ensures eyecatchPrompt != "" ==> r == eyecatchPrompt
  {
    if eyecatchPrompt == "" then DefaultEyecatchPrompt else eyecatchPrompt
  }

  /** The header image (api/generate-body.ts:281-290). */
  function EyecatchImage(eyecatchPrompt: string, refDesc: string, title: string, svc: Services): ImageResult {
    ImageFor(EyecatchBasePrompt(eyecatchPrompt), refDesc, true, title, svc)
  }

  /** `e.message || 'Generation failed'`. */
  function ErrorMessage(message: string): (r: string)
    ensures r != ""
    ensures message != "" ==> r == message
  {
    if message == "" then "Generation failed" else message
  }

  /** The text models for one prompt. */
  function Generator(svc: Services, inputs: PromptInputs): string -> Attempt {
    (model: string) => svc.generate(inputs, model)
  }

  /** The text models end the request with an error: none answered and at least one threw. */
  predicate AllModelsFailed(generate: string -> Attempt) {
    && (forall i :: 0 <= i < |ModelsToTry| ==> !Succeeded(generate(ModelsToTry[i])))
    && LastError(Outcomes(ModelsToTry, generate)).Some?
  }

  /** `text` is what the first text model with a non-empty answer returned: every model before it answered empty or threw. */
  predicate FirstAnswer(generate: string -> Attempt, text: string) {
    exists i :: 0 <= i < |ModelsToTry| && generate(ModelsToTry[i]) == Returned(text)
                && forall j :: 0 <= j < i ==> !Succeeded(generate(ModelsToTry[j]))
  }

  /** The walk down the text models, for one prompt: the answer, or the error the request ends with. */
  method AskModels(generate: string -> Attempt) returns (r: Fallback)
    ensures r.AllFailed? <==> AllModelsFailed(generate)
    ensures r.AllFailed? ==> r.message != ""
    ensures r.Answer? && r.text != "" ==> FirstAnswer(generate, r.text)
    ensures r == Answer("") <==> forall i :: 0 <= i < |ModelsToTry| ==> generate(ModelsToTry[i]) == Returned("")
  {
    var tried;
    r, tried := TryModels(ModelsToTry, generate);
  }

  /**
   * The prompt inputs for a request: a failure when its outline cannot be
   * read or rendered. The reference image is analysed first, and its
   * description goes into the prompt.
   */
  function PromptFor(req: BodyRequest, describe: (Option<string>, Option<string>) -> Option<string>): (r: Result<PromptInputs>)
    ensures r.Success? <==> OutlineSections(req.outline).Success? && Renderable(OutlineSections(req.outline).value)
    ensures OutlineSections(req.outline).Failure? ==> r == Failure(OutlineSections(req.outline).error)
    ensures r.Success? ==> && r.value.title == req.selectedTitle && r.value.knowhow == req.knowhow
                           && r.value.outlineText == RenderOutline(OutlineSections(req.outline).value).value
                           && r.value.wordCount == EffectiveWordCount(req.wordCount)
                           && r.value.referenceDescription == ReferenceDescription(req.referenceImage, describe)
  {
    var sections := OutlineSections(req.outline);
    if sections.Failure? then Failure(sections.error)
    else
      var outlineText := RenderOutline(sections.value);
      if outlineText.Failure? then Failure(outlineText.error)
      else Success(PromptInputs(req.selectedTitle, outlineText.value, req.knowhow,
                                EffectiveWordCount(req.wordCount), ReferenceDescription(req.referenceImage, describe)))
  }

  /**
   * A response assembled from a model's answer, a header image and the URL
   * an inline prompt gets: the description and tags cut from the answer, the
   * header image, and the article cut from the answer with the inline images
   * the loop places, its character count being its length.
   */
  predicate Assembled(answer: string, image: ImageResult, imageUrl: string -> string, resp: BodyResponse) {
    var parts := SplitResponse(answer);
    && resp.markdown == InlineResult(parts.markdown, parts.inlinePromptsText, imageUrl).0
    && resp.metaDescription == parts.metaDescription
    && resp.hashtags == parts.hashtags
    && resp.actualWordCount == |resp.markdown|
    && |resp.markdown| >= |parts.markdown|
    && (parts.inlinePromptsText == "" ==> resp.markdown == parts.markdown)
    && resp.generatedImageUrl == image.url
    && resp.generatedImageModel == image.model
  }

  /**
   * The response built from a model's answer, given the header image and the
   * inline-image URL for a prompt: the pieces of the answer, and the article
   * with the inline images placed in it.
   */
  method Respond(answer: string, image: ImageResult, imageUrl: string -> string) returns (resp: BodyResponse)
    ensures Assembled(answer, image, imageUrl, resp)
  {
    var parts := SplitResponse(answer);
    var markdown, count := InjectInlineImages(parts.markdown, parts.inlinePromptsText, imageUrl);
    resp := BodyResponse(markdown, parts.metaDescription, parts.hashtags, |markdown|, image.url, image.model);
  }

  /**
   * The response to a request whose text models answered `answer`: the
   * answer's pieces with the header image made from its header-image prompt,
   * and the inline images `generateImage` makes for its inline prompts.
   */
  predicate Responded(req: BodyRequest, svc: Services, answer: string, resp: BodyResponse) {
    var refDesc := ReferenceDescription(req.referenceImage, svc.describe);
    Assembled(answer, EyecatchImage(SplitResponse(answer).eyecatchPrompt, refDesc, req.selectedTitle, svc),
              InlineImageUrl(refDesc, req.selectedTitle, svc), resp)
  }

  /** The success path of the endpoint, once the text models have answered. */
  method Succeed(req: BodyRequest, svc: Services, answer: string) returns (resp: BodyResponse)
    ensures Responded(req, svc, answer, resp)
  {
    var refDesc := ReferenceDescription(req.referenceImage, svc.describe);
    var image := EyecatchImage(SplitResponse(answer).eyecatchPrompt, refDesc, req.selectedTitle, svc);
    resp := Respond(answer, image, InlineImageUrl(refDesc, req.selectedTitle, svc));
  }

  /** The endpoint once the prompt inputs are known: ask the text models, then assemble the response. */
  method AnswerPrompt(req: BodyRequest, svc: Services, inputs: PromptInputs) returns (r: Result<BodyResponse>, answer: string)
    ensures r.Failure? <==> AllModelsFailed(Generator(svc, inputs))
    ensures r.Failure? ==> r.error != ""
    ensures r.Success? && answer != "" ==> FirstAnswer(Generator(svc, inputs), answer)
    ensures r.Success? && answer == "" <==> forall i :: 0 <= i < |ModelsToTry| ==> svc.generate(inputs, ModelsToTry[i]) == Returned("")
    ensures r.Success? ==> Responded(req, svc, answer, r.value)
  {
    answer := "";
    var outcome := AskModels(Generator(svc, inputs));
    if outcome.AllFailed? {
      return Failure(ErrorMessage(outcome.message)), answer;
    }
    answer := outcome.text;
    var resp := Succeed(req, svc, answer);
    r := Success(resp);
  }

  /**
   * The endpoint. `answer` is the text the response was cut from, empty when
   * every model answered with empty text. A thrown error becomes a failure
   * carrying its message.
   */
  method GenerateBody(req: BodyRequest, svc: Services) returns (r: Result<BodyResponse>, answer: string)
    ensures PromptFor(req, svc.describe).Failure? ==> r == Failure(ErrorMessage(PromptFor(req, svc.describe).error))
    ensures PromptFor(req, svc.describe).Success? ==>
              (r.Failure? <==> AllModelsFailed(Generator(svc, PromptFor(req, svc.describe).value)))
    ensures r.Failure? ==> r.error != ""
    ensures r.Success? ==> PromptFor(req, svc.describe).Success?
    ensures r.Success? && answer != "" ==> FirstAnswer(Generator(svc, PromptFor(req, svc.describe).value), answer)
    ensures r.Success? ==> Responded(req, svc, answer, r.value)
  {
    var inputs := PromptFor(req, svc.describe);
    if inputs.Failure? {
      return Failure(ErrorMessage(inputs.error)), "";
    }
    r, answer := AnswerPrompt(req, svc, inputs.value);
  }
}

=== FILE: body_preview.dfy ===
/**
 * The finished-article view: the text it copies and downloads, the file
 * name, the character count, and the colour classes of the quality grades.
 */
module BodyPreview {
  import opened Wrappers
  import opened Strings
  import opened Types

  /** What goes between the article and its description in copied and downloaded text. */
  const MetaSeparator := "\n\n---\n\n"

  /** The copied text: the article, then the description below a rule when there is one. */
  function CopyText(body: string, metaDescription: string): (r: string)
    ensures metaDescription == "" ==> r == body
    ensures metaDescription != "" ==>
              && |r| == |body| + |MetaSeparator| + |metaDescription|
              && r[..|body|] == body
              && r[|body|..|body| + |MetaSeparator|] == MetaSeparator
              && r[|body| + |MetaSeparator|..] == metaDescription
  {
    if metaDescription == "" then body else body + MetaSeparator + metaDescription
  }

  /** The downloaded file's contents, composed on their own. */
  function DownloadText(body: string, metaDescription: string): (r: string)
    ensures StartsWith(r, body)
    ensures metaDescription == "" <==> |r| == |body|
  {
    if metaDescription == "" then body else body + MetaSeparator + metaDescription
  }

  /** Downloaded text and copied text are the same for the same article. */
  lemma DownloadMatchesCopy(body: string, metaDescription: string)
    ensures DownloadText(body, metaDescription) == CopyText(body, metaDescription)
  {
  }

  /** `${selectedTitle || 'article'}.md`. */
  function DownloadFilename(selectedTitle: string): (r: string)
    ensures selectedTitle == "" ==> r == "article.md"
    ensures selectedTitle != "" ==> |r| == |selectedTitle| + 3 && r[..|selectedTitle|] == selectedTitle
    ensures r[|r| - 3..] == ".md"
  {
    (if selectedTitle == "" then "article" else selectedTitle) + ".md"
  }

  /** What the view offers for an article: nothing until it has a body. */
  datatype Exports = Exports(copyText: string, downloadText: string, filename: string, characterCount: nat)

  /** The view's exports, `None` while the body is empty and the view only shows a hint. */
  function Preview(d: ArticleData): (r: Option<Exports>)
    ensures r.None? <==> d.body == ""
    ensures r.Some? ==> r.value.characterCount == |d.body|
    ensures r.Some? ==> r.value.copyText == r.value.downloadText
    ensures r.Some? ==> StartsWith(r.value.copyText, d.body) && r.value.characterCount <= |r.value.copyText|
  {
    if d.body == "" then None
    else
      DownloadMatchesCopy(d.body, d.metaDescription);
      Some(Exports(CopyText(d.body, d.metaDescription), DownloadText(d.body, d.metaDescription),
                   DownloadFilename(d.selectedTitle), |d.body|))
  }

  // ---------------------------------------------------------------------------
  // Grade colours
  // ---------------------------------------------------------------------------

  /** The three colour families of the grades. */
  datatype Tone = Emerald | Blue | Yellow

  /** `S` grades are emerald, `A` grades blue, everything else yellow. */
  function GradeTone(grade: string): (r: Tone)
    ensures r == Emerald <==> StartsWith(grade, "S")
    ensures r == Blue <==> !StartsWith(grade, "S") && StartsWith(grade, "A")
    ensures r == Yellow <==> !StartsWith(grade, "S") && !StartsWith(grade, "A")
  {
    if StartsWith(grade, "S") then Emerald else if StartsWith(grade, "A") then Blue else Yellow
  }

  /** `getBarColor` (src/components/generation/BodyPreview.tsx:83-87): the score bar's gradient for a grade. */
  function BarColor(grade: string): string {
    if StartsWith(grade, "S") then "bg-gradient-to-r from-emerald-400 to-emerald-500"
    else if StartsWith(grade, "A") then "bg-gradient-to-r from-blue-400 to-blue-500"
    else "bg-gradient-to-r from-yellow-400 to-yellow-500"
  }

  /** `getBgColor` (src/components/generation/BodyPreview.tsx:89-93): the score card's colours for a grade. */
  function BgColor(grade: string): string {
    if StartsWith(grade, "S") then "bg-emerald-50 border-emerald-100 text-emerald-700"
    else if StartsWith(grade, "A") then "bg-blue-50 border-blue-100 text-blue-700"
    else "bg-yellow-50 border-yellow-100 text-yellow-700"
  }

  /** `getScoreColor` (src/components/generation/BodyPreview.tsx:95-99): the score text's colour for a grade. */
  function ScoreColor(grade: string): string {
    if StartsWith(grade, "S") then "text-emerald-600"
    else if StartsWith(grade, "A") then "text-blue-600"
    else "text-yellow-600"
  }

  /** The classes of a tone, in the order bar, background, score. */
  function ToneClasses(t: Tone): (string, string, string) {
    match t
    case Emerald => ("bg-gradient-to-r from-emerald-400 to-emerald-500", "bg-emerald-50 border-emerald-100 text-emerald-700", "text-emerald-600")
    case Blue => ("bg-gradient-to-r from-blue-400 to-blue-500", "bg-blue-50 border-blue-100 text-blue-700", "text-blue-600")
    case Yellow => ("bg-gradient-to-r from-yellow-400 to-yellow-500", "bg-yellow-50 border-yellow-100 text-yellow-700", "text-yellow-600")
  }

  /** Each getter gives the class of the grade's tone. */
  lemma GettersFollowTone(grade: string)
    ensures ToneClasses(GradeTone(grade)) == (BarColor(grade), BgColor(grade), ScoreColor(grade))
  {
  }

  /** The three getters agree: two grades share a bar colour exactly when they share the other two. */
  lemma GettersAgree(g1: string, g2: string)
    ensures BarColor(g1) == BarColor(g2) <==> GradeTone(g1) == GradeTone(g2)
    ensures BgColor(g1) == BgColor(g2) <==> GradeTone(g1) == GradeTone(g2)
    ensures ScoreColor(g1) == ScoreColor(g2) <==> GradeTone(g1) == GradeTone(g2)
  {
    GettersFollowTone(g1);
    GettersFollowTone(g2);
    if GradeTone(g1) != GradeTone(g2) {
      ToneClassesDistinct(GradeTone(g1), GradeTone(g2));
    }
  }

  /** Different tones differ in every class. */
  lemma ToneClassesDistinct(t1: Tone, t2: Tone)
    requires t1 != t2
    ensures ToneClasses(t1).0 != ToneClasses(t2).0
    ensures ToneClasses(t1).1 != ToneClasses(t2).1
    ensures ToneClasses(t1).2 != ToneClasses(t2).2
  {
    assert |ToneClasses(Emerald).0| == 48 && |ToneClasses(Blue).0| == 42 && |ToneClasses(Yellow).0| == 46;
    assert |ToneClasses(Emerald).1| == 49 && |ToneClasses(Blue).1| == 40 && |ToneClasses(Yellow).1| == 46;
    assert |ToneClasses(Emerald).2| == 16 && |ToneClasses(Blue).2| == 13 && |ToneClasses(Yellow).2| == 15;
  }
}

=== FILE: body_text.dfy ===
/**
 * The text handling of the body endpoint: the outline rendered into the
 * prompt, and the model's answer cut into article, description, hashtags and
 * image prompts.
 */
module BodyText {
  import opened Wrappers
  import opened Types
  import opened Strings

  // ---------------------------------------------------------------------------
  // Outline to prompt text
  // ---------------------------------------------------------------------------

  /** `'#'.repeat(n)` throws a RangeError for a negative count. */
  predicate Renderable(sections: seq<OutlineSection>) {
    forall i :: 0 <= i < |sections| ==> sections[i].level >= -1
  }

  /** One section: a markdown heading one level deeper than `level`, then the summary in parentheses. */
  function RenderSection(s: OutlineSection): string
    requires s.level >= -1
  {
    Repeat('#', s.level + 1) + " " + s.heading + "\n(" + s.summary + ")"
  }

  function RenderSections(sections: seq<OutlineSection>): (r: seq<string>)
    requires Renderable(sections)
    ensures |r| == |sections|
    ensures forall i :: 0 <= i < |r| ==> r[i] == RenderSection(sections[i])
  {
    if |sections| == 0 then [] else [RenderSection(sections[0])] + RenderSections(sections[1..])
  }

  const SectionSeparator := "\n\n"

  /** The first section whose level gives `repeat` a negative count. */
  function FirstUnrenderable(sections: seq<OutlineSection>): (r: Option<nat>)
    ensures r.None? <==> Renderable(sections)
    ensures r.Some? ==> && r.value < |sections| && sections[r.value].level < -1
                        && forall j :: 0 <= j < r.value ==> sections[j].level >= -1
  {
    if |sections| == 0 then None
    else if sections[0].level < -1 then Some(0)
    else match FirstUnrenderable(sections[1..])
      case None => None
      case Some(i) => Some(i + 1)
  }

  /** The message of the RangeError `repeat` throws for a negative count, as V8 words it. */
  function CountError(count: int): string {
    "Invalid count value: " + IntString(count)
  }

  /**
   * The outline text of the prompt, or the RangeError that ends the request:
   * the sections are rendered in order, so the first bad level names the count.
   */
  function RenderOutline(sections: seq<OutlineSection>): (r: Result<string>)
    ensures r.Success? <==> Renderable(sections)
    ensures |sections| == 0 && r.Success? ==> r.value == ""
    ensures r.Failure? ==> exists i :: && 0 <= i < |sections| && sections[i].level < -1
                                       && (forall j :: 0 <= j < i ==> sections[j].level >= -1)
                                       && r.error == CountError(sections[i].level + 1)
  {
    match FirstUnrenderable(sections)
    case None => Success(Join(RenderSections(sections), SectionSeparator))
    case Some(i) => Failure(CountError(sections[i].level + 1))
  }

  function IsHash(c: char): bool { c == '#' }
  function IsNotNewline(c: char): bool { c != '\n' }

  /**
   * Reads a rendered section back: the run of `#` gives the level, the rest
   * of that line the heading, and the parenthesised remainder the summary.
   */
  function DecodeSection(t: string): Option<OutlineSection> {
    var n := ScanWhile(t, 0, IsHash);
    if n < |t| && t[n] == ' ' then
      var e := ScanWhile(t, n + 1, IsNotNewline);
      if e + 3 <= |t| && t[e + 1] == '(' && t[|t| - 1] == ')' then
        Some(OutlineSection(n - 1, t[n + 1..e], t[e + 2..|t| - 1]))
      else None
    else None
  }

  /** A text laid out as hashes, a space, a line and a parenthesised remainder decodes into those parts. */
  lemma DecodeLayout(t: string, n: nat, e: nat)
    requires n < |t| && ScanWhile(t, 0, IsHash) == n && t[n] == ' '
    requires ScanWhile(t, n + 1, IsNotNewline) == e && e + 3 <= |t|
    requires t[e + 1] == '(' && t[|t| - 1] == ')'
    ensures DecodeSection(t) == Some(OutlineSection(n - 1, t[n + 1..e], t[e + 2..|t| - 1]))
  {
  }

  /** Where each part of `hashes heading\n(summary)` sits in the rendered text. */
  lemma SectionLayout(hashes: string, heading: string, summary: string)
    ensures var t := hashes + " " + heading + "\n(" + summary + ")";
      var e := |hashes| + 1 + |heading|;
      && |t| == e + 3 + |summary|
      && (forall k :: 0 <= k < |hashes| ==> t[k] == hashes[k])
      && t[|hashes|] == ' ' && t[e] == '\n' && t[e + 1] == '(' && t[|t| - 1] == ')'
      && (forall k :: |hashes| + 1 <= k < e ==> t[k] == heading[k - |hashes| - 1])
      && t[|hashes| + 1..e] == heading && t[e + 2..|t| - 1] == summary
  {
    var t := hashes + " " + heading + "\n(" + summary + ")";
    var e := |hashes| + 1 + |heading|;
    assert t[|hashes| + 1..e] == heading;
    assert t[e + 2..|t| - 1] == summary;
  }

  /** Rendering loses nothing: a section whose heading is one line is read back exactly. */
  lemma RenderDecode(s: OutlineSection)
    requires s.level >= -1 && '\n' !in s.heading
    ensures DecodeSection(RenderSection(s)) == Some(s)
  {
    var t := RenderSection(s);
    var n := s.level + 1;
    SectionLayout(Repeat('#', n), s.heading, s.summary);
    var e := n + 1 + |s.heading|;
    ScanWhileAt(t, 0, IsHash, n);
    ScanWhileAt(t, n + 1, IsNotNewline, e);
    DecodeLayout(t, n, e);
    assert OutlineSection(n - 1, t[n + 1..e], t[e + 2..|t| - 1]) == s;
  }

  // ---------------------------------------------------------------------------
  // Hashtags: every match of /#[^\s#]+/g
  // ---------------------------------------------------------------------------

  function IsTagChar(c: char): bool { !IsWhitespace(c) && c != '#' }

  /** `#` followed by at least one character that is neither whitespace nor `#`. */
  predicate ValidTag(t: string) {
    |t| >= 2 && t[0] == '#' && forall i :: 1 <= i < |t| ==> IsTagChar(t[i])
  }

  /** `text.match(/#[^\s#]+/g) || []`. */
  function Hashtags(s: string): (r: seq<string>)
    ensures forall i :: 0 <= i < |r| ==> ValidTag(r[i])
    decreases |s|
  {
    if |s| == 0 then []
    else if s[0] == '#' && |s| > 1 && IsTagChar(s[1]) then
      var e := ScanWhile(s, 1, IsTagChar);
      [s[..e]] + Hashtags(s[e..])
    else Hashtags(s[1..])
  }

  /** A tag followed by a space is found whole, and scanning resumes after it. */
  lemma HashtagsCons(t: string, rest: string)
    requires ValidTag(t)
    ensures Hashtags(t + " " + rest) == [t] + Hashtags(rest)
  {
    var s := t + " " + rest;
    assert s[|t|] == ' ';
    assert forall k :: 1 <= k < |t| ==> s[k] == t[k];
    assert ScanWhile(s, 1, IsTagChar) == |t|;
    assert s[..|t|] == t;
    assert s[|t|..][1..] == rest;
  }

  /** A tag on its own is found whole. */
  lemma HashtagsSingle(t: string)
    requires ValidTag(t)
    ensures Hashtags(t) == [t]
  {
    assert ScanWhile(t, 1, IsTagChar) == |t|;
    assert t[..|t|] == t;
  }

  /** Space-separated tags are extracted exactly, in order. */
  lemma {:induction false} HashtagsOfJoined(tags: seq<string>)
    requires forall i :: 0 <= i < |tags| ==> ValidTag(tags[i])
    ensures Hashtags(Join(tags, " ")) == tags
    decreases |tags|
  {
    if |tags| == 1 {
      HashtagsSingle(tags[0]);
    } else if |tags| > 1 {
      HashtagsOfJoined(tags[1..]);
      HashtagsCons(tags[0], Join(tags[1..], " "));
      assert tags == [tags[0]] + tags[1..];
    }
  }

  /** Text without `#` has no hashtags. */
  lemma {:induction false} HashtagsNeedHash(s: string)
    requires '#' !in s
    ensures Hashtags(s) == []
    decreases |s|
  {
    if |s| > 0 {
      assert s[1..] == s[1..] && '#' !in s[1..];
      HashtagsNeedHash(s[1..]);
    }
  }

  // ---------------------------------------------------------------------------
  // The divider split
  // ---------------------------------------------------------------------------

  const Divider := "[[SECTION_DIVIDER]]"

  lemma DividerBorderFree()
    ensures BorderFree(Divider)
  {
    forall k | 0 < k < |Divider| ensures Divider[k..] != Divider[..|Divider| - k] {
      if k == 1 {
        assert Divider[k..][1] != Divider[..|Divider| - k][1];
      } else {
        assert Divider[k] != '[';
        assert Divider[k..][0] != Divider[..|Divider| - k][0];
      }
    }
  }

  /** The five pieces the body prompt asks for, in order. */
  datatype BodyParts = BodyParts(
    markdown: string,
    metaDescription: string,
    hashtags: seq<string>,
    eyecatchPrompt: string,
    inlinePromptsText: string)

  /**
   * Fills the pieces from however many parts the answer had: the article is
   * always the first part; every later piece is set when its part is present
   * and stays empty otherwise; parts past the fifth are ignored.
   */
  function AssignParts(parts: seq<string>): (r: BodyParts)
    requires |parts| >= 1
    ensures r.markdown == Trim(parts[0])
    ensures r.metaDescription == if |parts| >= 2 then Trim(parts[1]) else ""
    ensures r.hashtags == if |parts| >= 3 then Hashtags(Trim(parts[2])) else []
    ensures r.eyecatchPrompt == if |parts| >= 4 then Trim(parts[3]) else ""
    ensures r.inlinePromptsText == if |parts| >= 5 then Trim(parts[4]) else ""
  {
    var markdown := Trim(parts[0]);
    if |parts| >= 5 then
      BodyParts(markdown, Trim(parts[1]), Hashtags(Trim(parts[2])), Trim(parts[3]), Trim(parts[4]))
    else if |parts| >= 4 then
      BodyParts(markdown, Trim(parts[1]), Hashtags(Trim(parts[2])), Trim(parts[3]), "")
    else if |parts| == 3 then
      BodyParts(markdown, Trim(parts[1]), Hashtags(Trim(parts[2])), "", "")
    else if |parts| == 2 then
      BodyParts(markdown, Trim(parts[1]), [], "", "")
    else
      BodyParts(markdown, "", [], "", "")
  }

  /** `text.split('[[SECTION_DIVIDER]]')` and the assignment of its parts. */
  function SplitResponse(text: string): (r: BodyParts)
    ensures Trimmed(r.markdown) && Trimmed(r.metaDescription) && Trimmed(r.eyecatchPrompt) && Trimmed(r.inlinePromptsText)
    ensures forall i :: 0 <= i < |r.hashtags| ==> ValidTag(r.hashtags[i])
  {
    AssignParts(Split(text, Divider))
  }

  /** An answer without any divider is all article. */
  lemma SplitWithoutDivider(text: string)
    requires !Contains(text, Divider)
    ensures SplitResponse(text) == BodyParts(Trim(text), "", [], "", "")
  {
    SplitNone(text, Divider);
  }

  /** Five trimmed parts without the divider, joined by it, are taken apart into exactly those parts. */
  lemma SplitFiveParts(parts: seq<string>)
    requires |parts| == 5
    requires Trimmed(parts[0]) && Trimmed(parts[1]) && Trimmed(parts[2]) && Trimmed(parts[3]) && Trimmed(parts[4])
    requires !Contains(parts[0], Divider) && !Contains(parts[1], Divider) && !Contains(parts[2], Divider)
    requires !Contains(parts[3], Divider) && !Contains(parts[4], Divider)
    ensures SplitResponse(Join(parts, Divider)) == BodyParts(parts[0], parts[1], Hashtags(parts[2]), parts[3], parts[4])
  {
    DividerBorderFree();
    assert forall k :: 0 <= k < |parts| ==> !Contains(parts[k], Divider) by {
      forall k | 0 <= k < |parts| ensures !Contains(parts[k], Divider) {
        if k == 0 {} else if k == 1 {} else if k == 2 {} else if k == 3 {} else {}
      }
    }
    SplitJoin(parts, Divider);
    AssignTrimmedParts(parts);
  }

  /** The five pieces as the texts the prompt asks the model to separate, hashtags space-separated. */
  function Pieces(p: BodyParts): (r: seq<string>)
    ensures |r| == 5
    ensures r[0] == p.markdown && r[1] == p.metaDescription && r[2] == Join(p.hashtags, " ")
    ensures r[3] == p.eyecatchPrompt && r[4] == p.inlinePromptsText
  {
    [p.markdown, p.metaDescription, Join(p.hashtags, " "), p.eyecatchPrompt, p.inlinePromptsText]
  }

  /** An answer in the requested format: the pieces joined by the divider. */
  function FormatAnswer(p: BodyParts): string {
    Join(Pieces(p), Divider)
  }

  /** Pieces the answer format can carry: no edge whitespace, no divider, well-formed tags. */
  predicate Formattable(p: BodyParts) {
    && Trimmed(p.markdown) && Trimmed(p.metaDescription) && Trimmed(p.eyecatchPrompt) && Trimmed(p.inlinePromptsText)
    && (forall i :: 0 <= i < |p.hashtags| ==> ValidTag(p.hashtags[i]))
    && !Contains(p.markdown, Divider) && !Contains(p.metaDescription, Divider) && !Contains(p.eyecatchPrompt, Divider)
    && !Contains(p.inlinePromptsText, Divider) && !Contains(Join(p.hashtags, " "), Divider)
  }

  /** An answer in the requested five-part format is taken apart into exactly its pieces. */
  lemma SplitResponseRoundTrip(p: BodyParts)
    requires Formattable(p)
    ensures SplitResponse(FormatAnswer(p)) == p
  {
    var parts := Pieces(p);
    assert Trimmed(parts[2]) && Hashtags(parts[2]) == p.hashtags by {
      TagsTrimmed(p.hashtags);
      HashtagsOfJoined(p.hashtags);
    }
    SplitFiveParts(parts);
  }

  /** Five parts without edge whitespace are taken over as they are. */
  lemma AssignTrimmedParts(parts: seq<string>)
    requires |parts| == 5
    requires forall k :: 0 <= k < 5 ==> Trimmed(parts[k])
    ensures AssignParts(parts) == BodyParts(parts[0], parts[1], Hashtags(parts[2]), parts[3], parts[4])
  {
    TrimTrimmed(parts[0]);
    TrimTrimmed(parts[1]);
    TrimTrimmed(parts[2]);
    TrimTrimmed(parts[3]);
    TrimTrimmed(parts[4]);
  }

  /** Space-joined tags have no edge whitespace. */
  lemma {:induction false} TagsTrimmed(tags: seq<string>)
    requires forall i :: 0 <= i < |tags| ==> ValidTag(tags[i])
    ensures Trimmed(Join(tags, " "))
    ensures |tags| > 0 ==> |Join(tags, " ")| >= 2
    ensures |tags| > 0 ==> Join(tags, " ")[0] == '#'
    ensures |tags| > 0 ==> IsTagChar(Join(tags, " ")[|Join(tags, " ")| - 1])
    decreases |tags|
  {
    if |tags| > 1 {
      TagsTrimmed(tags[1..]);
      var rest := Join(tags[1..], " ");
      assert Join(tags, " ") == tags[0] + " " + rest;
    }
  }
}

=== FILE: debug_env.dfy ===
/**
 * The environment diagnostic endpoint: every variable name in sorted order,
 * each with its value hidden when the name looks secret and cut short
 * otherwise. The environment is a parameter.
 */
module DebugEnv {
  import opened Strings

  // ---------------------------------------------------------------------------
  // `Array.prototype.sort` on strings: UTF-16 code-unit order
  // ---------------------------------------------------------------------------

  /** `a` sorts before `b`: a proper prefix, or smaller at the first difference. */
  predicate Less(a: string, b: string)
    decreases |a|
  {
    |b| > 0 && (|a| == 0 || a[0] < b[0] || (a[0] == b[0] && Less(a[1..], b[1..])))
  }

  lemma {:induction false} LessIrreflexive(a: string)
    ensures !Less(a, a)
    decreases |a|
  {
    if |a| > 0 {
      LessIrreflexive(a[1..]);
    }
  }

  lemma {:induction false} LessTransitive(a: string, b: string, c: string)
    requires Less(a, b) && Less(b, c)
    ensures Less(a, c)
    decreases |a|
  {
    if |a| > 0 && a[0] == b[0] && b[0] == c[0] {
      LessTransitive(a[1..], b[1..], c[1..]);
    }
  }

  lemma {:induction false} LessTotal(a: string, b: string)
    requires a != b
    ensures Less(a, b) || Less(b, a)
    decreases |a|
  {
    if |a| > 0 && |b| > 0 && a[0] == b[0] {
      assert a == [a[0]] + a[1..] && b == [b[0]] + b[1..];
      LessTotal(a[1..], b[1..]);
    }
  }

  lemma LessAsymmetric(a: string, b: string)
    requires Less(a, b)
    ensures !Less(b, a)
  {
    if Less(b, a) {
      LessTransitive(a, b, a);
      LessIrreflexive(a);
    }
  }

  /** Strictly increasing: sorted without repeats. */
  predicate SortedStrict(s: seq<string>) {
    forall i, j :: 0 <= i < j < |s| ==> Less(s[i], s[j])
  }

  /** A key below every element goes in front. */
  lemma PrependSorted(x: string, s: seq<string>)
    requires SortedStrict(s)
    requires forall y :: y in s ==> Less(x, y)
    ensures SortedStrict([x] + s)
  {
    var t := [x] + s;
    forall i, j | 0 <= i < j < |t| ensures Less(t[i], t[j]) {
      assert t[j] == s[j - 1];
      if i > 0 {
        assert t[i] == s[i - 1];
      }
    }
  }

  /** `x` inserted at its place in a sorted sequence that lacks it. */
  function Insert(s: seq<string>, x: string): (r: seq<string>)
    requires SortedStrict(s) && x !in s
    ensures SortedStrict(r)
    ensures |r| == |s| + 1
    ensures forall y :: y in r <==> y == x || y in s
  {
    if |s| == 0 then [x]
    else if Less(x, s[0]) then
      BelowHead(x, s);
      PrependSorted(x, s);
      [x] + s
    else
      LessTotal(x, s[0]);
      var rest := Insert(s[1..], x);
      assert forall y :: y in rest ==> Less(s[0], y) by {
        forall y | y in rest ensures Less(s[0], y) {
          if y != x {
            var j :| 1 <= j < |s| && s[j] == y;
          }
        }
      }
      PrependSorted(s[0], rest);
      assert s == [s[0]] + s[1..];
      [s[0]] + rest
  }

  /** A key below the head of a sorted sequence is below all of it. */
  lemma BelowHead(x: string, s: seq<string>)
    requires SortedStrict(s) && |s| > 0 && Less(x, s[0])
    ensures forall y :: y in s ==> Less(x, y)
  {
    forall y | y in s ensures Less(x, y) {
      var j :| 0 <= j < |s| && s[j] == y;
      if j > 0 {
        LessTransitive(x, s[0], y);
      }
    }
  }

  /** Two strictly sorted sequences with the same elements are the same sequence. */
  lemma {:induction false} SortedUnique(s: seq<string>, t: seq<string>)
    requires SortedStrict(s) && SortedStrict(t)
    requires forall y :: y in s <==> y in t
    ensures s == t
    decreases |s|
  {
    assert |s| > 0 ==> s[0] in t;
    assert |t| > 0 ==> t[0] in s;
    if |s| > 0 && |t| > 0 {
      if s[0] != t[0] {
        assert t[0] in s;
        var j :| 0 <= j < |s| && s[j] == t[0];
        assert s[0] in t;
        var k :| 0 <= k < |t| && t[k] == s[0];
        assert Less(s[0], t[0]) by { assert j > 0; }
        assert Less(t[0], s[0]) by { assert k > 0; }
        LessAsymmetric(s[0], t[0]);
      }
      assert s == [s[0]] + s[1..] && t == [t[0]] + t[1..];
      forall y ensures y in s[1..] <==> y in t[1..] {
        if y in s[1..] {
          var j :| 1 <= j < |s| && s[j] == y;
          assert Less(s[0], y);
          LessIrreflexive(y);
          assert y in t && y != t[0];
        }
        if y in t[1..] {
          var k :| 1 <= k < |t| && t[k] == y;
          assert Less(t[0], y);
          LessIrreflexive(y);
          assert y in s && y != s[0];
        }
      }
      SortedUnique(s[1..], t[1..]);
    }
  }

  /** `Object.keys(env).sort()`: every name once, in code-unit order. */
  method SortedKeys(env: map<string, string>) returns (keys: seq<string>)
    ensures SortedStrict(keys)
    ensures forall k :: k in keys <==> k in env
    ensures |keys| == |env|
  {
    keys := [];
    var remaining := env.Keys;
    while remaining != {}
      invariant SortedStrict(keys)
      invariant remaining <= env.Keys
      invariant forall k :: k in keys <==> k in env && k !in remaining
      invariant |keys| + |remaining| == |env|
      decreases |remaining|
    {
      var k :| k in remaining;
      keys := Insert(keys, k);
      remaining := remaining - {k};
    }
  }

  // ---------------------------------------------------------------------------
  // Redaction
  // ---------------------------------------------------------------------------

  /** `/KEY|SECRET|PASSWORD|TOKEN/i`: one of the words appears in the name, ignoring case. */
  predicate IsSensitive(key: string) {
    exists i :: 0 <= i <= |key| && (StartsWithIgnoreCase(key[i..], "KEY") || StartsWithIgnoreCase(key[i..], "SECRET")
                                    || StartsWithIgnoreCase(key[i..], "PASSWORD") || StartsWithIgnoreCase(key[i..], "TOKEN"))
  }

  const Hidden := "***HIDDEN***"
  const ValuePreviewLength: nat := 10

  /** The value shown for a variable: hidden for a sensitive name, else its first ten code units and `...`. */
  function ShownValue(key: string, value: string): (r: string)
    ensures IsSensitive(key) ==> r == Hidden
    ensures !IsSensitive(key) ==>
              && |r| == 3 + (if |value| < ValuePreviewLength then |value| else ValuePreviewLength)
              && StartsWith(value, r[..|r| - 3]) && r[|r| - 3..] == "..."
  {
    if IsSensitive(key) then Hidden else Prefix(value, ValuePreviewLength) + "..."
  }

  /** One variable; `present` is the `exists` field of the response, always true. */
  datatype EnvEntry = EnvEntry(key: string, present: bool, value: string)

  datatype Diagnostic = Diagnostic(success: bool, message: string, totalKeys: nat, variables: seq<EnvEntry>)

  /** One entry per name, in the order given. */
  function Entries(keys: seq<string>, env: map<string, string>): (r: seq<EnvEntry>)
    requires forall k :: k in keys ==> k in env
    ensures |r| == |keys|
    ensures forall i :: 0 <= i < |keys| ==> r[i] == EnvEntry(keys[i], true, ShownValue(keys[i], env[keys[i]]))
  {
    if |keys| == 0 then [] else [EnvEntry(keys[0], true, ShownValue(keys[0], env[keys[0]]))] + Entries(keys[1..], env)
  }

  /** The diagnostic for an environment. */
  method Diagnose(env: map<string, string>) returns (r: Diagnostic)
    ensures r.success && r.message == "Environment Variable Diagnostic"
    ensures r.totalKeys == |r.variables| == |env|
    ensures forall i, j :: 0 <= i < j < |r.variables| ==> Less(r.variables[i].key, r.variables[j].key)
    ensures forall k :: k in env <==> exists i :: 0 <= i < |r.variables| && r.variables[i].key == k
    ensures forall i :: 0 <= i < |r.variables| ==>
              var e := r.variables[i];
              e.key in env && e.present && e.value == ShownValue(e.key, env[e.key])
  {
    var keys := SortedKeys(env);
    var entries := Entries(keys, env);
    forall k | k in env ensures exists i :: 0 <= i < |entries| && entries[i].key == k {
      var i :| 0 <= i < |keys| && keys[i] == k;
      assert entries[i].key == k;
    }
    r := Diagnostic(true, "Environment Variable Diagnostic", |keys|, entries);
  }

  /** Two environments that differ only in the values of sensitive names give the same entries. */
  lemma {:induction false} SecretsDoNotShow(keys: seq<string>, env1: map<string, string>, env2: map<string, string>)
    requires forall k :: k in keys ==> k in env1 && k in env2
    requires forall k :: k in keys && !IsSensitive(k) ==> env1[k] == env2[k]
    ensures Entries(keys, env1) == Entries(keys, env2)
    decreases |keys|
  {
    if |keys| > 0 {
      SecretsDoNotShow(keys[1..], env1, env2);
    }
  }

  /** A name holding `KEY`, `SECRET`, `PASSWORD` or `TOKEN` anywhere, in any ASCII case, has its value hidden. */
  lemma SensitiveWordHidden(before: string, word: string, after: string, value: string)
    requires || EqualsIgnoreCase(word, "KEY") || EqualsIgnoreCase(word, "SECRET")
             || EqualsIgnoreCase(word, "PASSWORD") || EqualsIgnoreCase(word, "TOKEN")
    ensures ShownValue(before + word + after, value) == Hidden
  {
    var key := before + word + after;
    assert key[|before|..][..|word|] == word;
    assert 0 <= |before| <= |key|;
  }
}

=== FILE: history.dfy ===
/**
 * The saved-projects list kept in browser storage. The id and timestamp of a
 * new entry, and whether the storage write went through, are parameters.
 */
module History {
  import opened Types
  import Seqs

  datatype HistoryItem = HistoryItem(id: string, timestamp: int, title: string, data: ArticleData)

  /** At most this many entries are kept. */
  const MaxHistory: nat := 50

  const DraftSuffix := " (案)"
  const UntitledProject := "無題のプロジェクト"

  /** The entry's title: the chosen title, else the first proposal marked as a draft, else a placeholder. */
  function HistoryTitle(d: ArticleData): (t: string)
    ensures d.selectedTitle != "" ==> t == d.selectedTitle
    ensures d.selectedTitle == "" && |d.generatedTitles| > 0 ==> t == d.generatedTitles[0] + DraftSuffix
    ensures d.selectedTitle == "" && |d.generatedTitles| == 0 ==> t == UntitledProject
    ensures t != ""
  {
    if d.selectedTitle != "" then d.selectedTitle
    else if |d.generatedTitles| > 0 then d.generatedTitles[0] + DraftSuffix
    else UntitledProject
  }

  /**
   * `saveToHistory(data)`: the new entry goes first and the list is cut to
   * fifty. When the storage write throws, the list stays as it was and the
   * call answers `false`.
   */
  function Save(history: seq<HistoryItem>, d: ArticleData, id: string, now: int, stored: bool): (r: (seq<HistoryItem>, bool))
    ensures !stored ==> r == (history, false)
    ensures stored ==> r.1
    ensures stored ==> |r.0| >= 1 && r.0[0] == HistoryItem(id, now, HistoryTitle(d), d)
    ensures stored ==> |r.0| == if |history| < MaxHistory then |history| + 1 else MaxHistory
    ensures stored ==> r.0[1..] == history[..|r.0| - 1]
  {
    if !stored then (history, false)
    else
      var all := [HistoryItem(id, now, HistoryTitle(d), d)] + history;
      var kept := if |all| <= MaxHistory then all else all[..MaxHistory];
      assert kept[1..] == history[..|kept| - 1];
      (kept, true)
  }

  predicate HasOtherId(id: string, item: HistoryItem) { item.id != id }

  /** `deleteHistoryItem(id)`: drop every entry with that id; unchanged if the write throws. */
  function Delete(history: seq<HistoryItem>, id: string, stored: bool): (r: seq<HistoryItem>)
    ensures !stored ==> r == history
    ensures stored ==> forall i :: 0 <= i < |r| ==> r[i].id != id && r[i] in history
    ensures stored ==> forall i :: 0 <= i < |history| && history[i].id != id ==> history[i] in r
  {
    if stored then Seqs.Filter(history, item => HasOtherId(id, item)) else history
  }

  /** Deleting twice is deleting once. */
  lemma DeleteIdempotent(history: seq<HistoryItem>, id: string)
    ensures Delete(Delete(history, id, true), id, true) == Delete(history, id, true)
  {
    Seqs.FilterIdempotent(history, item => HasOtherId(id, item));
  }

  /** Deletion keeps the order of what remains: it works piecewise over any split of the list. */
  lemma DeletePreservesOrder(a: seq<HistoryItem>, b: seq<HistoryItem>, id: string)
    ensures Delete(a + b, id, true) == Delete(a, id, true) + Delete(b, id, true)
  {
    Seqs.FilterAppend(a, b, item => HasOtherId(id, item));
  }

  /** Deleting an id no entry carries changes nothing. */
  lemma DeleteAbsent(history: seq<HistoryItem>, id: string)
    requires forall i :: 0 <= i < |history| ==> history[i].id != id
    ensures Delete(history, id, true) == history
  {
    Seqs.FilterAllPass(history, item => HasOtherId(id, item));
  }

  /** `clearHistory()`. */
  function Clear(history: seq<HistoryItem>, removed: bool): (r: seq<HistoryItem>)
    ensures removed ==> r == []
    ensures !removed ==> r == history
  {
    if removed then [] else history
  }
}

=== FILE: image_prompt.dfy ===
/**
 * Image generation in the body endpoint: the prompt sanitising, the image
 * models tried in turn, the fallback URL, and the `data:` URLs that carry
 * images in and out. Model replies, URI encoding and the random seed are
 * parameters.
 */
module ImagePrompt {
  import opened Wrappers
  import opened Strings

  // ---------------------------------------------------------------------------
  // `prompt.replace(/photorealistic|realistic|4k|photo|photography|cinematic/gi, "")`
  // ---------------------------------------------------------------------------

  /** The words removed from an image subject, in the order the source lists them. */
  const BannedWordsAsWritten: seq<string> := ["photorealistic", "realistic", "4k", "photo", "photography", "cinematic"]

  /** The same words with `photography` ahead of its prefix `photo`, so that it is removed whole. */
  const BannedWords: seq<string> := ["photorealistic", "realistic", "4k", "photography", "photo", "cinematic"]

  predicate NonEmptyWords(words: seq<string>) {
    forall k :: 0 <= k < |words| ==> |words[k]| > 0
  }

  /** The first alternative from `k` on, in listed order, that matches at the start of `s`. */
  function FirstAlternativeFrom(s: string, words: seq<string>, k: nat): (r: Option<nat>)
    requires k <= |words|
    ensures r.Some? ==> k <= r.value < |words| && StartsWithIgnoreCase(s, words[r.value])
    ensures r.Some? ==> forall j :: k <= j < r.value ==> !StartsWithIgnoreCase(s, words[j])
    ensures r.None? ==> forall j :: k <= j < |words| ==> !StartsWithIgnoreCase(s, words[j])
    decreases |words| - k
  {
    if k == |words| then None
    else if StartsWithIgnoreCase(s, words[k]) then Some(k)
    else FirstAlternativeFrom(s, words, k + 1)
  }

  /** The alternative a regular expression `w0|w1|...` picks at the start of `s`: the first listed that matches. */
  function FirstAlternative(s: string, words: seq<string>): (r: Option<nat>)
    ensures r.Some? ==> r.value < |words| && StartsWithIgnoreCase(s, words[r.value])
    ensures r.Some? ==> forall j :: 0 <= j < r.value ==> !StartsWithIgnoreCase(s, words[j])
    ensures r.None? ==> forall j :: 0 <= j < |words| ==> !StartsWithIgnoreCase(s, words[j])
  {
    FirstAlternativeFrom(s, words, 0)
  }

  /** No word matches anywhere in `s`. */
  predicate FreeOf(s: string, words: seq<string>) {
    forall i :: 0 <= i <= |s| ==> FirstAlternative(s[i..], words).None?
  }

  /** A global, case-insensitive replacement of the alternation by the empty string. */
  function StripWords(s: string, words: seq<string>): (r: string)
    requires NonEmptyWords(words)
    ensures |r| <= |s|
    decreases |s|
  {
    if |s| == 0 then []
    else match FirstAlternative(s, words)
      case Some(k) => StripWords(s[|words[k]|..], words)
      case None => [s[0]] + StripWords(s[1..], words)
  }

  /** Text where no word matches is left as it is. */
  lemma {:induction false} StripWordsFree(s: string, words: seq<string>)
    requires NonEmptyWords(words) && FreeOf(s, words)
    ensures StripWords(s, words) == s
    decreases |s|
  {
    if |s| > 0 {
      assert s[0..] == s;
      forall i | 0 <= i <= |s[1..]| ensures FirstAlternative(s[1..][i..], words).None? {
        assert s[1..][i..] == s[i + 1..];
      }
      StripWordsFree(s[1..], words);
    }
  }

  /** No word matches at position `i` of `s`. */
  predicate NoMatchAt(s: string, i: nat, words: seq<string>) {
    i <= |s| && FirstAlternative(s[i..], words).None?
  }

  /** No match at any position of `a` means none at any position of its tail. */
  lemma NoMatchShift(a: string, b: string, words: seq<string>)
    requires |a| > 0 && forall i :: 0 <= i < |a| ==> NoMatchAt(a + b, i, words)
    ensures forall i :: 0 <= i < |a| - 1 ==> NoMatchAt(a[1..] + b, i, words)
  {
    forall i | 0 <= i < |a| - 1 ensures NoMatchAt(a[1..] + b, i, words) {
      assert NoMatchAt(a + b, i + 1, words);
      assert (a[1..] + b)[i..] == (a + b)[i + 1..];
    }
  }

  /** Putting the head back in front of the tail's extension extends the whole. */
  lemma ConsAppend(a: string, y: string)
    requires |a| > 0
    ensures [a[0]] + (a[1..] + y) == a + y
  {
    assert a == [a[0]] + a[1..];
  }

  /** Text at none of whose positions a word matches is copied, and the scan goes on after it. */
  lemma {:induction false} StripWordsCopies(a: string, b: string, words: seq<string>)
    requires NonEmptyWords(words)
    requires forall i :: 0 <= i < |a| ==> NoMatchAt(a + b, i, words)
    ensures StripWords(a + b, words) == a + StripWords(b, words)
    decreases |a|
  {
    if |a| > 0 {
      var s := a + b;
      assert StripWords(s, words) == [a[0]] + StripWords(a[1..] + b, words) by {
        assert NoMatchAt(s, 0, words);
        assert s[0..] == s;
        StripWordsStep(s, words);
        assert s[1..] == a[1..] + b;
      }
      assert StripWords(a[1..] + b, words) == a[1..] + StripWords(b, words) by {
        NoMatchShift(a, b, words);
        StripWordsCopies(a[1..], b, words);
      }
      ConsAppend(a, StripWords(b, words));
    } else {
      assert a + b == b;
    }
  }

  /** Where no word matches at the front, the first character is kept and the scan goes on after it. */
  lemma StripWordsStep(s: string, words: seq<string>)
    requires NonEmptyWords(words) && |s| > 0 && FirstAlternative(s, words).None?
    ensures StripWords(s, words) == [s[0]] + StripWords(s[1..], words)
  {
  }

  /** The word the alternation picks at the front is dropped whole, and the scan goes on after it. */
  lemma StripWordsDrops(w: string, b: string, words: seq<string>)
    requires NonEmptyWords(words)
    requires FirstAlternative(w + b, words).Some? && |words[FirstAlternative(w + b, words).value]| == |w|
    ensures StripWords(w + b, words) == StripWords(b, words)
  {
    assert (w + b)[|w|..] == b;
  }

  /** Each word standing alone is removed whole, in any ASCII case. */
  lemma StripsEachWord(k: nat, w: string)
    requires k < |BannedWords| && EqualsIgnoreCase(w, BannedWords[k])
    ensures StripWords(w, BannedWords) == ""
  {
    var r := FirstAlternative(w, BannedWords);
    assert w[..|BannedWords[k]|] == w;
    assert r.Some?;
    var j := r.value;
    assert j <= k;
    if j < k {
      assert |BannedWords[j]| <= |w|;
      assert EqualsIgnoreCase(w[..|BannedWords[j]|], BannedWords[j]);
      PrefixWordsDiffer(j, k);
      assert false;
    }
    assert w[|BannedWords[k]|..] == [];
  }

  /** No word of the corrected list begins, ignoring case, with a word listed before it. */
  lemma PrefixWordsDiffer(j: nat, k: nat)
    requires j < k < |BannedWords|
    ensures |BannedWords[j]| > |BannedWords[k]|
            || !EqualsIgnoreCase(BannedWords[k][..|BannedWords[j]|], BannedWords[j])
  {
    var a := BannedWords[j];
    var b := BannedWords[k];
    if |a| <= |b| {
      assert AsciiLower(b[0]) != AsciiLower(a[0]);
      assert b[..|a|][0] == b[0];
    }
  }

  /** With the order as written, `photo` wins at the start of `photography` and leaves `graphy`. */
  lemma PhotographyLeavesGraphy()
    ensures StripWords("photography", BannedWordsAsWritten) == "graphy"
  {
    var s := "photography";
    assert FirstAlternative(s, BannedWordsAsWritten) == Some(3) by {
      assert !StartsWithIgnoreCase(s, BannedWordsAsWritten[0]);
      assert !StartsWithIgnoreCase(s, BannedWordsAsWritten[1]) by {
        assert AsciiLower(s[0]) != AsciiLower(BannedWordsAsWritten[1][0]);
      }
      assert !StartsWithIgnoreCase(s, BannedWordsAsWritten[2]) by {
        assert AsciiLower(s[0]) != AsciiLower(BannedWordsAsWritten[2][0]);
      }
      assert s[..5] == BannedWordsAsWritten[3];
    }
    var rest := s[5..];
    assert rest == "graphy";
    assert FreeOf(rest, BannedWordsAsWritten) by {
      forall i | 0 <= i <= |rest| ensures FirstAlternative(rest[i..], BannedWordsAsWritten).None? {
        var t := rest[i..];
        forall j | 0 <= j < |BannedWordsAsWritten| ensures !StartsWithIgnoreCase(t, BannedWordsAsWritten[j]) {
          var w := BannedWordsAsWritten[j];
          if |w| <= |t| {
            assert j == 2 || j == 3;
            assert AsciiLower(t[0]) != AsciiLower(w[0]);
          }
        }
      }
    }
    StripWordsFree(rest, BannedWordsAsWritten);
  }

  /**
   * `safeSubject`, with `photography` tried before `photo`: the prompt
   * without the banned words, or the article title when nothing is left.
   */
  function SafeSubject(prompt: string, title: string): (r: string)
    ensures r == title || (r != "" && |r| <= |prompt|)
  {
    var s := StripWords(prompt, BannedWords);
    if s == "" then title else s
  }

  /** A prompt holding no banned word is the subject as it is. */
  lemma SafeSubjectOfFree(prompt: string, title: string)
    requires prompt != "" && FreeOf(prompt, BannedWords)
    ensures SafeSubject(prompt, title) == prompt
  {
    StripWordsFree(prompt, BannedWords);
  }

  /** A prompt that is only a banned word, in any case, gives way to the title. */
  lemma SafeSubjectOfWord(k: nat, prompt: string, title: string)
    requires k < |BannedWords| && EqualsIgnoreCase(prompt, BannedWords[k])
    ensures SafeSubject(prompt, title) == title
  {
    StripsEachWord(k, prompt);
  }

  /** `safeSubject` with the words in the order the source lists them. */
  function SafeSubjectAsWritten(prompt: string, title: string): (r: string)
    ensures r == title || (r != "" && |r| <= |prompt|)
  {
    var s := StripWords(prompt, BannedWordsAsWritten);
    if s == "" then title else s
  }

  /** The two orders part on `photography`: as written it leaves `graphy`, corrected the title stands in. */
  lemma SubjectOrderMatters(title: string)
    ensures SafeSubjectAsWritten("photography", title) == "graphy"
    ensures SafeSubject("photography", title) == title
  {
    PhotographyLeavesGraphy();
    assert EqualsIgnoreCase("photography", BannedWords[3]);
    StripsEachWord(3, "photography");
  }

  // ---------------------------------------------------------------------------
  // `.replace(/[\r\n]+/g, " ").slice(0, n)`
  // ---------------------------------------------------------------------------

  function IsCrLf(c: char): bool { c == '\r' || c == '\n' }

  /** Each run of carriage returns and line feeds becomes one space. */
  function CollapseNewlines(s: string): (r: string)
    ensures forall i :: 0 <= i < |r| ==> !IsCrLf(r[i])
    ensures |r| <= |s|
    ensures (forall i :: 0 <= i < |s| ==> !IsCrLf(s[i])) ==> r == s
    decreases |s|
  {
    if |s| == 0 then []
    else if IsCrLf(s[0]) then " " + CollapseNewlines(s[ScanWhile(s, 0, IsCrLf)..])
    else [s[0]] + CollapseNewlines(s[1..])
  }

  /** A run of line breaks, followed by text that does not start with one, collapses to one space. */
  lemma CollapseRun(run: string, b: string)
    requires |run| > 0 && forall i :: 0 <= i < |run| ==> IsCrLf(run[i])
    requires |b| == 0 || !IsCrLf(b[0])
    ensures CollapseNewlines(run + b) == " " + CollapseNewlines(b)
  {
    var s := run + b;
    assert forall k :: 0 <= k < |run| ==> IsCrLf(s[k]);
    assert |run| < |s| ==> !IsCrLf(s[|run|]);
    assert ScanWhile(s, 0, IsCrLf) == |run|;
    assert s[|run|..] == b;
  }

  /** Collapsing goes part by part across a point that does not follow a line break. */
  lemma {:induction false} CollapseAppend(a: string, b: string)
    requires |a| == 0 || !IsCrLf(a[|a| - 1])
    ensures CollapseNewlines(a + b) == CollapseNewlines(a) + CollapseNewlines(b)
    decreases |a|
  {
    var s := a + b;
    if |a| == 0 {
      assert s == b;
    } else if !IsCrLf(a[0]) {
      assert s[1..] == a[1..] + b;
      CollapseAppend(a[1..], b);
    } else {
      var j := ScanWhile(a, 0, IsCrLf);
      assert j < |a|;
      assert forall k :: 0 <= k < j ==> IsCrLf(s[k]);
      assert !IsCrLf(s[j]);
      assert ScanWhile(s, 0, IsCrLf) == j;
      assert s[j..] == a[j..] + b;
      CollapseAppend(a[j..], b);
    }
  }

  /** Each run of line breaks between other text becomes exactly one space. */
  lemma CollapseAround(a: string, run: string, b: string)
    requires |a| == 0 || !IsCrLf(a[|a| - 1])
    requires |run| > 0 && forall i :: 0 <= i < |run| ==> IsCrLf(run[i])
    requires |b| == 0 || !IsCrLf(b[0])
    ensures CollapseNewlines(a + (run + b)) == CollapseNewlines(a) + (" " + CollapseNewlines(b))
  {
    CollapseAppend(a, run + b);
    CollapseRun(run, b);
  }

  const SubjectLimit: nat := 100
  const DescriptionLimit: nat := 300

  /** The sanitised text: single-line and cut to `limit` UTF-16 code units. */
  function Clean(s: string, limit: nat): (r: string)
    ensures |r| == if |CollapseNewlines(s)| < limit then |CollapseNewlines(s)| else limit
    ensures forall i :: 0 <= i < |r| ==> !IsCrLf(r[i])
    ensures StartsWith(CollapseNewlines(s), r)
  {
    var c := CollapseNewlines(s);
    var r := Prefix(c, limit);
    assert forall i :: 0 <= i < |r| ==> r[i] == c[i];
    r
  }

  /** A short single-line text passes through unchanged. */
  lemma CleanKeepsShortLine(s: string, limit: nat)
    requires |s| <= limit && forall i :: 0 <= i < |s| ==> !IsCrLf(s[i])
    ensures Clean(s, limit) == s
  {
  }

  // The fixed text of the fallback description, in phrases.
  const MixLead := "(illustration, vector art, " + "flat design:1.6), "
  const MixOutlines := ", (thick outlines, " + "bold lines:1.4)"
  const MixEyecatchTail := MixOutlines + ", simple background, " + "no photorealistic, " + "no 3d rendering, no shading"
  const MixInlineTail := MixOutlines + ", white background, " + "character focus, no text, " + "no photorealistic, no 3d"

  /** Text without a line break. */
  predicate OneLine(s: string) {
    forall i :: 0 <= i < |s| ==> !IsCrLf(s[i])
  }

  /** Text without line breaks stays so when joined. */
  lemma OneLineJoin(a: string, b: string)
    requires OneLine(a) && OneLine(b)
    ensures OneLine(a + b)
  {
    assert forall i :: |a| <= i < |a + b| ==> (a + b)[i] == b[i - |a|];
  }

  /** Text holding neither `\r` nor `\n` is one line. */
  lemma OneLineOfFree(s: string)
    requires '\r' !in s && '\n' !in s
    ensures OneLine(s)
  {
    assert forall i :: 0 <= i < |s| ==> s[i] in s;
  }

  /** The fixed pieces of the fallback description hold no line break. */
  lemma MixPiecesOneLine()
    ensures OneLine(MixLead) && OneLine(", ") && OneLine(MixEyecatchTail) && OneLine(MixInlineTail)
  {
    LeadOneLine();
    OneLineOfFree(", ");
    EyecatchTailOneLine();
    InlineTailOneLine();
  }

  lemma LeadOneLine()
    ensures OneLine(MixLead)
  {
    OneLineOfFree("(illustration, vector art, ");
    OneLineOfFree("flat design:1.6), ");
    OneLineJoin("(illustration, vector art, ", "flat design:1.6), ");
  }

  lemma OutlinesOneLine()
    ensures OneLine(MixOutlines)
  {
    OneLineOfFree(", (thick outlines, ");
    OneLineOfFree("bold lines:1.4)");
    OneLineJoin(", (thick outlines, ", "bold lines:1.4)");
  }

  lemma EyecatchPhrasesOneLine()
    ensures OneLine(", simple background, ") && OneLine("no photorealistic, ")
  {
    OneLineOfFree(", simple background, ");
    OneLineOfFree("no photorealistic, ");
  }

  lemma EyecatchTailOneLine()
    ensures OneLine(MixEyecatchTail)
  {
    OutlinesOneLine();
    EyecatchPhrasesOneLine();
    OneLineOfFree("no 3d rendering, no shading");
    OneLineJoin(MixOutlines, ", simple background, ");
    OneLineJoin(MixOutlines + ", simple background, ", "no photorealistic, ");
    OneLineJoin(MixOutlines + ", simple background, " + "no photorealistic, ", "no 3d rendering, no shading");
  }

  lemma InlinePhrasesOneLine()
    ensures OneLine(", white background, ") && OneLine("character focus, no text, ")
  {
    OneLineOfFree(", white background, ");
    OneLineOfFree("character focus, no text, ");
  }

  lemma InlineTailOneLine()
    ensures OneLine(MixInlineTail)
  {
    OutlinesOneLine();
    InlinePhrasesOneLine();
    OneLineOfFree("no photorealistic, no 3d");
    OneLineJoin(MixOutlines, ", white background, ");
    OneLineJoin(MixOutlines + ", white background, ", "character focus, no text, ");
    OneLineJoin(MixOutlines + ", white background, " + "character focus, no text, ", "no photorealistic, no 3d");
  }

  /** The image description sent to the fallback service: one line when its two inserted pieces are. */
  function MixPrompt(isEyecatch: bool, cleanDescription: string, cleanSubject: string): (r: string)
    ensures OneLine(cleanDescription) && OneLine(cleanSubject) ==> OneLine(r)
  {
    var tail := if isEyecatch then MixEyecatchTail else MixInlineTail;
    if OneLine(cleanDescription) && OneLine(cleanSubject) then
      MixPiecesOneLine();
      OneLineJoin(MixLead, cleanDescription);
      OneLineJoin(MixLead + cleanDescription, ", ");
      OneLineJoin(MixLead + cleanDescription + ", ", cleanSubject);
      OneLineJoin(MixLead + cleanDescription + ", " + cleanSubject, tail);
      MixLead + cleanDescription + ", " + cleanSubject + tail
    else
      MixLead + cleanDescription + ", " + cleanSubject + tail
  }

  const PollinationsBase: string := "https://image.pollinations.ai/prompt/"

  /** The fallback URL's query parameters: picture size, no logo, the seed, and the `flux` model. */
  function QueryParams(seed: nat): seq<string> {
    ["width=1280", "height=720", "nologo=true", "seed=" + DecimalString(seed), "model=flux"]
  }

  /** `width=1280&height=720&nologo=true&seed=<seed>&model=flux`. */
  function PollinationsQuery(seed: nat): string {
    Join(QueryParams(seed), "&")
  }

  /** The fallback service's URL for an encoded prompt and a seed. */
  function PollinationsUrlOf(encoded: string, seed: nat): (r: string)
    ensures StartsWith(r, PollinationsBase + encoded + "?")
    ensures r[|PollinationsBase + encoded + "?"|..] == PollinationsQuery(seed)
  {
    var head := PollinationsBase + encoded + "?";
    var url := head + PollinationsQuery(seed);
    assert url[..|head|] == head;
    url
  }

  lemma BaseAvoids()
    ensures '?' !in PollinationsBase
  {
  }

  /** No query parameter holds a `?` or an `&`. */
  lemma ParamsAvoid(seed: nat)
    ensures forall k :: 0 <= k < |QueryParams(seed)| ==> '?' !in QueryParams(seed)[k] && '&' !in QueryParams(seed)[k]
  {
    var params := QueryParams(seed);
    assert '?' !in params[3] && '&' !in params[3] by {
      assert params[3] == "seed=" + DecimalString(seed);
    }
  }

  /**
   * A fallback URL reads back as the encoded prompt before the `?` and the
   * five query parameters after it, the seed printed in decimal.
   */
  lemma PollinationsUrlParts(encoded: string, seed: nat)
    requires '?' !in encoded
    ensures Split(PollinationsUrlOf(encoded, seed), "?") == [PollinationsBase + encoded, PollinationsQuery(seed)]
    ensures Split(PollinationsQuery(seed), "&") == QueryParams(seed)
    ensures DigitsValue(QueryParams(seed)[3][|"seed="|..]) == seed
  {
    var params := QueryParams(seed);
    assert params[3][|"seed="|..] == DecimalString(seed);
    DecimalStringValue(seed);
    var query := PollinationsQuery(seed);
    SingleCharBorderFree('?');
    SingleCharBorderFree('&');
    ParamsAvoid(seed);
    forall k | 0 <= k < |params| ensures !Contains(params[k], "&") {
      NotContainsChar(params[k], '&');
    }
    SplitJoin(params, "&");
    JoinAvoids(params, "&", '?');
    BaseAvoids();
    NotContainsChar(PollinationsBase + encoded, '?');
    NotContainsChar(query, '?');
    SplitCons(PollinationsBase + encoded, "?", query);
    SplitNone(query, "?");
  }

  /**
   * `createPollinationsUrl` for the prompt `mix`: `None` when
   * `encodeURIComponent` throws (on a lone surrogate). `encode` is that
   * function; `seed` is the random seed.
   */
  function PollinationsUrl(mix: string, encode: string -> Option<string>, seed: nat): (r: Option<string>)
    ensures r.None? <==> encode(mix).None?
    ensures r.Some? ==> r.value == PollinationsUrlOf(encode(mix).value, seed)
  {
    var encoded := encode(mix);
    if encoded.None? then None else Some(PollinationsUrlOf(encoded.value, seed))
  }

  // ---------------------------------------------------------------------------
  // `data:` URLs
  // ---------------------------------------------------------------------------

  /** `data:<mime>;base64,<data>`. */
  function DataUrl(mime: string, data: string): string {
    "data:" + mime + ";base64," + data
  }

  /** `referenceImage.split(',')[1]`: `None` for `undefined`. */
  function DataUrlPayload(url: string): (r: Option<string>)
    ensures r.Some? ==> ',' !in r.value
  {
    var parts := Split(url, ",");
    if |parts| >= 2 then
      NoCharFromNotContains(parts[1], ',');
      Some(parts[1])
    else None
  }

  /** `referenceImage.split(';')[0].split(':')[1]`: `None` for `undefined`. */
  function DataUrlMime(url: string): (r: Option<string>)
    ensures r.Some? ==> ':' !in r.value && ';' !in r.value
  {
    var head := Split(url, ";")[0];
    var parts := Split(head, ":");
    if |parts| >= 2 then
      NoCharFromNotContains(head, ';');
      NoCharFromNotContains(parts[1], ':');
      assert forall i :: 0 <= i < |parts[1]| ==> parts[1][i] in head by {
        JoinSplit(head, ":");
        JoinElementsIn(parts, ":", 1);
      }
      Some(parts[1])
    else None
  }

  lemma NoCharFromNotContains(s: string, c: char)
    requires !Contains(s, [c])
    ensures c !in s
  {
    if c in s {
      var i :| 0 <= i < |s| && s[i] == c;
      assert OccursAt(s, [c], i);
    }
  }

  /** Every character of a joined part is in the joined text. */
  lemma {:induction false} JoinElementsIn(parts: seq<string>, sep: string, k: nat)
    requires k < |parts|
    ensures forall i :: 0 <= i < |parts[k]| ==> parts[k][i] in Join(parts, sep)
    decreases |parts|
  {
    if |parts| > 1 {
      if k == 0 {
        assert Join(parts, sep) == parts[0] + sep + Join(parts[1..], sep);
      } else {
        JoinElementsIn(parts[1..], sep, k - 1);
        assert Join(parts, sep) == parts[0] + sep + Join(parts[1..], sep);
        assert forall c :: c in Join(parts[1..], sep) ==> c in Join(parts, sep);
      }
    }
  }

  /** The payload of a data URL is what follows its only comma. */
  lemma DataUrlPayloadOf(mime: string, data: string)
    requires ',' !in mime && ',' !in data
    ensures DataUrlPayload(DataUrl(mime, data)) == Some(data)
  {
    SingleCharBorderFree(',');
    var beforeComma := "data:" + mime + ";base64";
    assert DataUrl(mime, data) == beforeComma + "," + data;
    NotContainsChar(beforeComma, ',');
    NotContainsChar(data, ',');
    SplitCons(beforeComma, ",", data);
    SplitNone(data, ",");
  }

  /** The type of a data URL is what lies between its first colon and its first semicolon. */
  lemma DataUrlMimeOf(mime: string, data: string)
    requires ';' !in mime && ':' !in mime
    ensures DataUrlMime(DataUrl(mime, data)) == Some(mime)
  {
    SingleCharBorderFree(';');
    SingleCharBorderFree(':');
    var beforeSemi := "data" + ":" + mime;
    assert DataUrl(mime, data) == beforeSemi + ";" + ("base64," + data);
    NotContainsChar(beforeSemi, ';');
    SplitCons(beforeSemi, ";", "base64," + data);
    NotContainsChar("data", ':');
    NotContainsChar(mime, ':');
    SplitCons("data", ":", mime);
    SplitNone(mime, ":");
  }

  /** A data URL is read back into its type and payload. */
  lemma DataUrlRoundTrip(mime: string, data: string)
    requires ';' !in mime && ':' !in mime && ',' !in mime
    requires ',' !in data
    ensures DataUrlMime(DataUrl(mime, data)) == Some(mime)
    ensures DataUrlPayload(DataUrl(mime, data)) == Some(data)
  {
    DataUrlPayloadOf(mime, data);
    DataUrlMimeOf(mime, data);
  }

  // ---------------------------------------------------------------------------
  // `generateImage`: the image models in turn, then the fallback URL
  // ---------------------------------------------------------------------------

  /** The image models asked first, in order. */
  const GoogleImageModels: seq<string> := ["gemini-3-pro-image-preview", "imagen-3.0-generate-001", "gemini-2.0-flash-exp"]

  /** One part of a reply; an empty `mimeType` stands for a missing one. */
  datatype InlineData = InlineData(mimeType: string, data: string)
  datatype Part = Part(inlineData: Option<InlineData>)

  /** A model's reply: the parts of its first candidate, `None` when there are none, or a thrown error. */
  datatype ImageReply = Parts(parts: Option<seq<Part>>) | ImageThrew

  datatype ImageResult = ImageResult(url: string, model: string)

  /** The first part carrying non-empty image data. */
  function FirstImage(parts: seq<Part>): (r: Option<InlineData>)
    ensures r.Some? ==> r.value.data != ""
    ensures r.Some? ==> exists i :: 0 <= i < |parts| && parts[i].inlineData == Some(r.value)
                                    && forall j :: 0 <= j < i ==> parts[j].inlineData.None? || parts[j].inlineData.value.data == ""
    ensures r.None? ==> forall i :: 0 <= i < |parts| ==> parts[i].inlineData.None? || parts[i].inlineData.value.data == ""
  {
    if |parts| == 0 then None
    else if parts[0].inlineData.Some? && parts[0].inlineData.value.data != "" then parts[0].inlineData
    else
      var r := FirstImage(parts[1..]);
      assert r.Some? ==> exists i :: 1 <= i < |parts| && parts[i].inlineData == Some(r.value)
                                      && forall j :: 0 <= j < i ==> parts[j].inlineData.None? || parts[j].inlineData.value.data == "" by {
        if r.Some? {
          var i :| 0 <= i < |parts[1..]| && parts[1..][i].inlineData == Some(r.value)
                   && forall j :: 0 <= j < i ==> parts[1..][j].inlineData.None? || parts[1..][j].inlineData.value.data == "";
          assert parts[i + 1].inlineData == Some(r.value);
          assert forall j :: 1 <= j < i + 1 ==> parts[j] == parts[1..][j - 1];
        }
      }
      r
  }

  /** The image a reply carries, if any: the first part with data among the first candidate's parts (api/generate-body.ts:246-248). */
  function ReplyImage(reply: ImageReply): Option<InlineData> {
    if reply.Parts? && reply.parts.Some? then FirstImage(reply.parts.value) else None
  }

  /** The result for an image from `model`: a data URL, with `image/png` for a missing type (api/generate-body.ts:250-254). */
  function GoogleResult(model: string, image: InlineData): ImageResult {
    var mime := if image.mimeType == "" then "image/png" else image.mimeType;
    ImageResult(DataUrl(mime, image.data), model + " (Google)")
  }

  /** The models from `models` in turn; the first that answers with an image gives the result. */
  function TryImageModels(models: seq<string>, googlePrompt: string, google: (string, string) -> ImageReply): (r: Option<ImageResult>)
    ensures r.None? <==> forall i :: 0 <= i < |models| ==> ReplyImage(google(models[i], googlePrompt)).None?
    ensures r.Some? ==> exists i :: 0 <= i < |models| && ReplyImage(google(models[i], googlePrompt)).Some?
                                    && r.value == GoogleResult(models[i], ReplyImage(google(models[i], googlePrompt)).value)
                                    && forall j :: 0 <= j < i ==> ReplyImage(google(models[j], googlePrompt)).None?
  {
    if |models| == 0 then None
    else
      var image := ReplyImage(google(models[0], googlePrompt));
      if image.Some? then Some(GoogleResult(models[0], image.value))
      else
        var r := TryImageModels(models[1..], googlePrompt, google);
        assert r.Some? ==> exists i :: 1 <= i < |models| && ReplyImage(google(models[i], googlePrompt)).Some?
                                    && r.value == GoogleResult(models[i], ReplyImage(google(models[i], googlePrompt)).value)
                                    && forall j :: 0 <= j < i ==> ReplyImage(google(models[j], googlePrompt)).None? by {
          if r.Some? {
            var i :| 0 <= i < |models[1..]| && ReplyImage(google(models[1..][i], googlePrompt)).Some?
                     && r.value == GoogleResult(models[1..][i], ReplyImage(google(models[1..][i], googlePrompt)).value)
                     && forall j :: 0 <= j < i ==> ReplyImage(google(models[1..][j], googlePrompt)).None?;
            assert models[1..][i] == models[i + 1];
            assert forall j :: 1 <= j < i + 1 ==> models[j] == models[1..][j - 1];
          }
        }
        r
  }

  const EyecatchInstruction := "Draw a high quality image. Style: minimalist, flat design, vector art, soft colors. Content: "
  const InlineInstruction := "Draw an illustration. Style: vector art, flat design, white background. Content: "

  /** `googlePrompt` (api/generate-body.ts:233-235): the text the image models are asked with. */
  function GooglePrompt(isEyecatch: bool, safeSubject: string, refDesc: string): string {
    if isEyecatch then EyecatchInstruction + safeSubject + ". Details: " + refDesc + ". No text."
    else InlineInstruction + safeSubject + ". Details: " + refDesc + "."
  }

  /** The Google prompt starts with its style instruction and the subject. */
  lemma GooglePromptNamesSubject(isEyecatch: bool, safeSubject: string, refDesc: string)
    ensures StartsWith(GooglePrompt(isEyecatch, safeSubject, refDesc),
                       (if isEyecatch then EyecatchInstruction else InlineInstruction) + safeSubject)
  {
    var head := (if isEyecatch then EyecatchInstruction else InlineInstruction) + safeSubject;
    var rest := if isEyecatch then ". Details: " + refDesc + ". No text." else ". Details: " + refDesc + ".";
    assert GooglePrompt(isEyecatch, safeSubject, refDesc) == head + rest;
    assert (head + rest)[..|head|] == head;
  }

  /**
   * `generateImage`, given the prompt for the image models and the one for
   * the fallback service: the picture of the first image model that answers
   * with image data, as a data URL; when none does, the fallback service's
   * URL; and an empty URL marked `failed` when building that URL throws.
   */
  function GenerateImage(googlePrompt: string, mix: string,
                         google: (string, string) -> ImageReply, encode: string -> Option<string>, seed: nat): (r: ImageResult)
    ensures TryImageModels(GoogleImageModels, googlePrompt, google).Some? ==> r == TryImageModels(GoogleImageModels, googlePrompt, google).value
    ensures TryImageModels(GoogleImageModels, googlePrompt, google).None? && encode(mix).Some? ==>
              r == ImageResult(PollinationsUrlOf(encode(mix).value, seed), "flux (pollinations)")
    ensures TryImageModels(GoogleImageModels, googlePrompt, google).None? && encode(mix).None? ==> r == ImageResult("", "failed")
  {
    var tried := TryImageModels(GoogleImageModels, googlePrompt, google);
    var fallback := PollinationsUrl(mix, encode, seed);
    if tried.Some? then tried.value
    else if fallback.Some? then ImageResult(fallback.value, "flux (pollinations)")
    else ImageResult("", "failed")
  }

  /** The two prompts `generateImage` builds from the raw prompt, the reference description and the article title. */
  function ImagePrompts(prompt: string, refDesc: string, isEyecatch: bool, title: string): (r: (string, string))
    ensures StartsWith(r.0, (if isEyecatch then EyecatchInstruction else InlineInstruction) + SafeSubject(prompt, title))
    ensures OneLine(r.1)
  {
    var safeSubject := SafeSubject(prompt, title);
    GooglePromptNamesSubject(isEyecatch, safeSubject, refDesc);
    (GooglePrompt(isEyecatch, safeSubject, refDesc),
     MixPrompt(isEyecatch, Clean(refDesc, DescriptionLimit), Clean(safeSubject, SubjectLimit)))
  }

  /** An image model's picture comes back as a data URL that reads back into its type and data. */
  lemma GoogleResultIsDataUrl(model: string, image: InlineData)
    requires ';' !in image.mimeType && ':' !in image.mimeType && ',' !in image.mimeType
    requires ',' !in image.data
    ensures var url := GoogleResult(model, image).url;
      && DataUrlPayload(url) == Some(image.data)
      && DataUrlMime(url) == Some(if image.mimeType == "" then "image/png" else image.mimeType)
  {
    var mime := if image.mimeType == "" then "image/png" else image.mimeType;
    DataUrlRoundTrip(mime, image.data);
  }
}

=== FILE: inline_images.dfy ===
/**
 * Illustrations placed into the article: each `header: prompt` line of the
 * answer's last part asks for one image, which goes right below the `##`
 * heading the header names. Image generation is a parameter (`imageUrl`).
 */
module InlineImages {
  import opened Wrappers
  import opened Strings
  import Replacement

  /** At most this many images are placed. */
  const MaxInlineImages: nat := 3

  /** A prompt must be longer than this to be used. */
  const MinPromptLength: nat := 5

  // ---------------------------------------------------------------------------
  // `line.match(/([^:]+):(.+)/)`
  // ---------------------------------------------------------------------------

  function IsNotColon(c: char): bool { c != ':' }
  function IsNotLineTerminator(c: char): bool { !IsLineTerminator(c) }

  /** `c` is the first colon after a non-empty run from `p`, and a non-terminator follows it. */
  predicate ColonAt(line: string, p: nat, c: nat) {
    && p < c && c + 1 < |line| && line[c] == ':'
    && (forall k :: p <= k < c ==> line[k] != ':')
    && !IsLineTerminator(line[c + 1])
  }

  /**
   * The match starting at `p`, as its two groups. `[^:]+` takes the whole
   * colon-free run (a shorter run would be followed by a non-colon), and
   * `.+` the whole run of non-terminators after the colon.
   */
  function KeyPromptAt(line: string, p: nat): (r: Option<(string, string)>)
    requires p <= |line|
    ensures r.Some? <==> exists c :: ColonAt(line, p, c)
    ensures r.Some? ==> ':' !in r.value.0 && |r.value.0| > 0 && |r.value.1| > 0
                        && (forall k :: 0 <= k < |r.value.1| ==> !IsLineTerminator(r.value.1[k]))
                        && StartsWith(line[p..], r.value.0 + ":" + r.value.1)
  {
    var e := ScanWhile(line, p, IsNotColon);
    if p < e && e + 1 < |line| && IsNotLineTerminator(line[e + 1]) then
      var f := ScanWhile(line, e + 1, IsNotLineTerminator);
      assert line[e] == ':';
      assert line[p..f] == line[p..e] + [line[e]] + line[e + 1..f];
      assert line[p..][..f - p] == line[p..f];
      assert ColonAt(line, p, e);
      Some((line[p..e], line[e + 1..f]))
    else
      ColonUnique(line, p, e);
      None
  }

  /** The colon that ends a colon-free run is the first colon after its start. */
  lemma ColonUnique(line: string, p: nat, e: nat)
    requires p <= e <= |line|
    requires forall k :: p <= k < e ==> line[k] != ':'
    requires e < |line| ==> line[e] == ':'
    ensures forall e' :: p < e' < |line| && line[e'] == ':' ==> e' == e || exists j :: p <= j < e' && line[j] == ':'
  {
  }

  /** The leftmost match at or after `p`. */
  function KeyPromptFrom(line: string, p: nat): (r: Option<(string, string)>)
    requires p <= |line|
    ensures r.None? <==> forall q :: p <= q <= |line| ==> KeyPromptAt(line, q).None?
    ensures r.Some? ==> exists q :: p <= q <= |line| && KeyPromptAt(line, q) == r
                                    && forall q' :: p <= q' < q ==> KeyPromptAt(line, q').None?
    decreases |line| - p
  {
    var here := KeyPromptAt(line, p);
    if here.Some? || p == |line| then here else KeyPromptFrom(line, p + 1)
  }

  /** `line.match(/([^:]+):(.+)/)`: the match with the leftmost start, its header run as long as it goes. */
  function KeyPrompt(line: string): (r: Option<(string, string)>)
    ensures r.None? <==> forall q :: 0 <= q <= |line| ==> KeyPromptAt(line, q).None?
    ensures r.Some? ==> exists q :: 0 <= q <= |line| && KeyPromptAt(line, q) == r
                                    && forall q' :: 0 <= q' < q ==> KeyPromptAt(line, q').None?
  {
    KeyPromptFrom(line, 0)
  }

  /** A well-formed `header: prompt` line is read back into its header and prompt. */
  lemma KeyPromptOfLine(key: string, prompt: string)
    requires |key| > 0 && ':' !in key
    requires |prompt| > 0 && forall k :: 0 <= k < |prompt| ==> !IsLineTerminator(prompt[k])
    ensures KeyPrompt(key + ":" + prompt) == Some((key, prompt))
  {
    var line := key + ":" + prompt;
    assert forall k :: 0 <= k < |key| ==> line[k] == key[k] && IsNotColon(line[k]);
    assert line[|key|] == ':';
    assert ScanWhile(line, 0, IsNotColon) == |key|;
    assert ColonAt(line, 0, |key|);
    assert forall k :: |key| < k < |line| ==> line[k] == prompt[k - |key| - 1];
    assert ScanWhile(line, |key| + 1, IsNotLineTerminator) == |line|;
    assert line[..|key|] == key;
    assert line[|key| + 1..|line|] == prompt;
  }

  /** A line that asks for an image: its trimmed header and trimmed prompt, when the prompt is long enough. */
  function Request(line: string): (r: Option<(string, string)>)
    ensures r.Some? ==> |r.value.1| > MinPromptLength && Trimmed(r.value.0) && Trimmed(r.value.1)
    ensures r.Some? <==> KeyPrompt(line).Some? && |Trim(KeyPrompt(line).value.1)| > MinPromptLength
  {
    match KeyPrompt(line)
    case None => None
    case Some((key, prompt)) =>
      var promptPart := Trim(prompt);
      if |promptPart| > MinPromptLength then Some((Trim(key), promptPart)) else None
  }

  // ---------------------------------------------------------------------------
  // `headerKey.replace(/^##\s*/, '').replace(/H2\s*/i, '')`
  // ---------------------------------------------------------------------------

  // `.replace(/^##\s*/, '')`.
  function StripHashes(s: string): (r: string)
    ensures !StartsWith(s, "##") ==> r == s
    ensures StartsWith(s, "##") ==> |r| <= |s| - 2 && (|r| == 0 || !IsWhitespace(r[0]))
    ensures StartsWith(s, "##") ==> exists w :: 2 <= w <= |s| && AllWhitespace(s[2..w]) && r == s[w..]
  {
    if StartsWith(s, "##") then
      var w := ScanWhile(s, 2, IsWhitespace);
      assert AllWhitespace(s[2..w]);
      s[w..]
    else s
  }

  /** `H2` at `i`, the `H` in either case. */
  predicate H2At(s: string, i: nat) {
    i + 2 <= |s| && AsciiLower(s[i]) == 'h' && s[i + 1] == '2'
  }

  /** The leftmost `H2` at or after `i`. */
  function FindH2(s: string, i: nat): (r: Option<nat>)
    requires i <= |s|
    ensures r.Some? ==> i <= r.value && H2At(s, r.value)
    ensures r.Some? ==> forall k :: i <= k < r.value ==> !H2At(s, k)
    ensures r.None? ==> forall k :: i <= k <= |s| ==> !H2At(s, k)
    decreases |s| - i
  {
    if H2At(s, i) then Some(i)
    else if i + 2 > |s| then None
    else FindH2(s, i + 1)
  }

  // `.replace(/H2\s*/i, '')`: the leftmost `H2` and the whitespace after it removed.
  function StripH2(s: string): (r: string)
    ensures (forall k :: 0 <= k <= |s| ==> !H2At(s, k)) ==> r == s
    ensures (exists k :: 0 <= k <= |s| && H2At(s, k)) ==> |r| <= |s| - 2
  {
    match FindH2(s, 0)
    case None => s
    case Some(i) => s[..i] + s[ScanWhile(s, i + 2, IsWhitespace)..]
  }

  /** The heading text an image request names; a header with neither a leading `##` nor an `H2` names itself. */
  function TargetHeader(headerKey: string): (r: string)
    ensures |r| <= |headerKey|
    ensures !StartsWith(headerKey, "##") && (forall k :: 0 <= k <= |headerKey| ==> !H2At(headerKey, k)) ==> r == headerKey
  {
    StripH2(StripHashes(headerKey))
  }

  /** A header `p H2 gap t` names `p t`: the first `H2` and the whitespace after it are dropped. */
  lemma TargetHeaderOfKey(p: string, h: char, gap: string, t: string)
    requires AsciiLower(h) == 'h'
    requires !StartsWith(p, "##") && forall k :: 0 <= k <= |p| ==> !H2At(p, k)
    requires AllWhitespace(gap)
    requires |t| == 0 || !IsWhitespace(t[0])
    ensures TargetHeader(p + ([h, '2'] + (gap + t))) == p + t
  {
    var s := p + ([h, '2'] + (gap + t));
    var n := |p|;
    NoLeadingHashes(p, h, gap + t);
    FirstH2After(p, h, gap + t);
    var w := ScanWhile(s, n + 2, IsWhitespace);
    assert w == n + 2 + |gap| by {
      assert forall k :: n + 2 <= k < n + 2 + |gap| ==> s[k] == gap[k - n - 2];
      if |t| > 0 {
        assert s[n + 2 + |gap|] == t[0];
      }
    }
    assert s[..n] == p;
    assert s[w..] == t;
  }

  /** A header that does not start with `##` keeps no leading `##` when `H2` follows it. */
  lemma NoLeadingHashes(p: string, h: char, rest: string)
    requires AsciiLower(h) == 'h' && !StartsWith(p, "##")
    ensures !StartsWith(p + ([h, '2'] + rest), "##")
  {
    var s := p + ([h, '2'] + rest);
    if |p| >= 2 {
      assert s[..2] == p[..2];
    } else if |p| == 1 {
      assert s[1] == h;
    } else {
      assert s[0] == h;
    }
  }

  /** The first `H2` of `p H2 rest` is the one after `p`, when `p` has none. */
  lemma FirstH2After(p: string, h: char, rest: string)
    requires AsciiLower(h) == 'h' && forall k :: 0 <= k <= |p| ==> !H2At(p, k)
    ensures FindH2(p + ([h, '2'] + rest), 0) == Some(|p|)
  {
    var s := p + ([h, '2'] + rest);
    assert s[|p|] == h && s[|p| + 1] == '2';
    forall k | 0 <= k < |p|
      ensures !H2At(s, k)
    {
      if k + 1 < |p| {
        assert !H2At(p, k);
      } else {
        assert s[k + 1] == h;
      }
    }
    assert H2At(s, |p|);
  }

  /** A header written as a level-two markdown heading names the heading's text. */
  lemma TargetHeaderOfHeading(gap: string, title: string)
    requires AllWhitespace(gap)
    requires |title| == 0 || !IsWhitespace(title[0])
    requires forall k :: 0 <= k <= |title| ==> !H2At(title, k)
    ensures TargetHeader("##" + gap + title) == title
  {
    var s := "##" + gap + title;
    assert StartsWith(s, "##");
    assert forall k :: 2 <= k < 2 + |gap| ==> s[k] == gap[k - 2];
    var w := ScanWhile(s, 2, IsWhitespace);
    assert w == 2 + |gap| by {
      if |title| > 0 {
        assert s[2 + |gap|] == title[0];
      }
    }
    assert s[w..] == title;
  }

  // ---------------------------------------------------------------------------
  // `new RegExp('(##\\s*' + escapedHeader + '[^\\n]*)', 'i')`
  // ---------------------------------------------------------------------------

  /** `##`, then `k` whitespace characters, then the header ignoring ASCII case, starting at `p`. */
  predicate HeadingAt(md: string, header: string, p: nat, k: nat) {
    && p + 2 + k + |header| <= |md|
    && md[p] == '#' && md[p + 1] == '#'
    && AllWhitespace(md[p + 2..p + 2 + k])
    && EqualsIgnoreCase(md[p + 2 + k..p + 2 + k + |header|], header)
  }

  /** Whether some gap works at `p`. */
  predicate HeadingStartsAt(md: string, header: string, p: nat) {
    exists k :: 0 <= k <= |md| && HeadingAt(md, header, p, k)
  }

  /** The greedy `\s*`: the longest gap not above `k` after which the header follows. */
  function GreedyGap(md: string, header: string, p: nat, k: nat): (r: Option<nat>)
    ensures r.Some? ==> r.value <= k && HeadingAt(md, header, p, r.value)
    ensures r.Some? ==> forall j :: r.value < j <= k ==> !HeadingAt(md, header, p, j)
    ensures r.None? ==> forall j :: 0 <= j <= k ==> !HeadingAt(md, header, p, j)
  {
    if HeadingAt(md, header, p, k) then Some(k)
    else if k == 0 then None
    else GreedyGap(md, header, p, k - 1)
  }

  /** The match at `p`, as the span `(p, q)` of the heading up to the end of its line. */
  function HeadingMatchAt(md: string, header: string, p: nat): (r: Option<(nat, nat)>)
    ensures r.Some? <==> HeadingStartsAt(md, header, p)
    ensures r.Some? ==> r.value.0 == p && p + 2 + |header| <= r.value.1 <= |md|
    ensures r.Some? ==> r.value.1 == |md| || md[r.value.1] == '\n'
  {
    if p + 2 > |md| || md[p] != '#' || md[p + 1] != '#' then None
    else
      var w := ScanWhile(md, p + 2, IsWhitespace) - (p + 2);
      GapBound(md, header, p, w);
      match GreedyGap(md, header, p, w)
      case None => None
      case Some(k) =>
        var q := ScanWhile(md, p + 2 + k + |header|, IsNotNewline);
        Some((p, q))
  }

  function IsNotNewline(c: char): bool { c != '\n' }

  /** No gap longer than the run of whitespace after `##` is all whitespace. */
  lemma GapBound(md: string, header: string, p: nat, w: nat)
    requires p + 2 + w <= |md| && (p + 2 + w == |md| || !IsWhitespace(md[p + 2 + w]))
    ensures forall j :: w < j ==> !HeadingAt(md, header, p, j)
  {
    forall j | w < j ensures !HeadingAt(md, header, p, j) {
      if p + 2 + j <= |md| {
        assert !IsWhitespace(md[p + 2..p + 2 + j][w]);
      }
    }
  }

  /** The leftmost heading match at or after `p`. */
  function FindHeadingFrom(md: string, header: string, p: nat): (r: Option<(nat, nat)>)
    ensures r.Some? ==> p <= r.value.0 && HeadingStartsAt(md, header, r.value.0)
                        && r.value.0 < r.value.1 <= |md|
                        && HeadingMatchAt(md, header, r.value.0) == r
    ensures r.Some? ==> forall j :: p <= j < r.value.0 ==> !HeadingStartsAt(md, header, j)
    ensures r.None? ==> forall j :: p <= j ==> !HeadingStartsAt(md, header, j)
    decreases |md| - p
  {
    if p + 2 > |md| then
      assert forall j :: p <= j ==> !HeadingStartsAt(md, header, j);
      None
    else
      var here := HeadingMatchAt(md, header, p);
      if here.Some? then here else FindHeadingFrom(md, header, p + 1)
  }

  /** `markdown.match(regex)`: the span of the first heading line that names the header. */
  function FindHeading(md: string, header: string): (r: Option<(nat, nat)>)
    ensures r.Some? ==> HeadingStartsAt(md, header, r.value.0) && r.value.0 < r.value.1 <= |md|
    ensures r.Some? ==> forall j :: 0 <= j < r.value.0 ==> !HeadingStartsAt(md, header, j)
    ensures r.None? <==> forall j :: 0 <= j ==> !HeadingStartsAt(md, header, j)
  {
    FindHeadingFrom(md, header, 0)
  }

  // ---------------------------------------------------------------------------
  // `markdown.replace(regex, `$1\n\n![${targetHeader}](${url})\n`)`
  // ---------------------------------------------------------------------------

  const ImageOpen := "\n\n!["
  const ImageMid := "]("
  const ImageClose := ")\n"

  /** The image line placed under a heading. */
  function ImageMarkdown(header: string, url: string): string {
    ImageOpen + (header + (ImageMid + (url + ImageClose)))
  }

  /** The replacement template: the heading line itself (`$1`), then the image line. */
  function ImageTemplate(header: string, url: string): string {
    "$1" + ImageMarkdown(header, url)
  }

  /** A `$`-free text, a template, and a `$`-free text that cannot continue a pattern expand around the template. */
  lemma ExpandBetween(c: string, x: string, d: string, m: Replacement.MatchContext)
    requires '$' !in c && '$' !in d && |d| > 0 && !Replacement.PatternChar(d[0])
    ensures Replacement.Expand(c + (x + d), m) == c + (Replacement.Expand(x, m) + d)
  {
    Replacement.ExpandAppend(x, d, m);
    Replacement.ExpandLiteralPrefix(c, x + d, m);
  }

  /** The template yields the heading line and the image line, with `$` patterns in header and URL expanded. */
  lemma ExpandImageTemplate(header: string, url: string, m: Replacement.MatchContext)
    ensures Replacement.Expand(ImageTemplate(header, url), m)
            == m.matched + ImageMarkdown(Replacement.Expand(header, m), Replacement.Expand(url, m))
  {
    assert '$' !in ImageMid && '$' !in ImageClose && '$' !in ImageOpen;
    assert ImageClose[0] == ')' && ImageMid[0] == ']' && ImageOpen[0] == '\n';
    var tail := ImageMid + (url + ImageClose);
    ExpandBetween(ImageMid, url, ImageClose, m);
    Replacement.ExpandAppend(header, tail, m);
    var line := ImageOpen + (header + tail);
    Replacement.ExpandLiteralPrefix(ImageOpen, header + tail, m);
    Replacement.ExpandAppend("$1", line, m);
    Replacement.ExpandCapture(m);
  }

  /** `markdown.replace(regex, ...)` where the regex matches; `None` where it does not. */
  function InjectImage(md: string, header: string, url: string): (r: Option<string>)
    ensures r.None? <==> FindHeading(md, header).None?
    ensures r.Some? ==> |r.value| >= |md| + 8
    ensures r.Some? && '$' !in header && '$' !in url ==>
      var q := FindHeading(md, header).value.1;
      r.value == md[..q] + ImageMarkdown(header, url) + md[q..]
  {
    match FindHeading(md, header)
    case None => None
    case Some((p, q)) =>
      var m := Replacement.MatchContext(md[..p], md[p..q], md[q..]);
      ExpandImageTemplate(header, url, m);
      var expanded := Replacement.Expand(ImageTemplate(header, url), m);
      InsertAfterSpan(md, p, q, ImageMarkdown(header, url));
      Some(md[..p] + expanded + md[q..])
  }

  /** Replacing `s[p..q]` by itself followed by `x` inserts `x` at `q`. */
  lemma InsertAfterSpan(s: string, p: nat, q: nat, x: string)
    requires p <= q <= |s|
    ensures s[..p] + (s[p..q] + x) + s[q..] == s[..q] + x + s[q..]
  {
    assert s[..p] + s[p..q] == s[..q];
  }

  /** One line of the loop: a requesting line puts its image under the heading its header names, when that heading is there. */
  function PlaceImage(md: string, line: string, imageUrl: string -> string): (r: Option<string>)
    ensures Request(line).None? ==> r.None?
    ensures Request(line).Some? ==>
      r == InjectImage(md, TargetHeader(Request(line).value.0), imageUrl(Request(line).value.1))
    ensures r.Some? <==> Request(line).Some?
                         && FindHeading(md, TargetHeader(Request(line).value.0)).Some?
  {
    match Request(line)
    case None => None
    case Some((headerKey, promptPart)) =>
      InjectImage(md, TargetHeader(headerKey), imageUrl(promptPart))
  }

  /** How many of the lines `asks` holds of. */
  function CountWhere(lines: seq<string>, asks: string -> bool): (n: nat)
    ensures n <= |lines|
  {
    if |lines| == 0 then 0
    else
      var rest := CountWhere(lines[1..], asks);
      if asks(lines[0]) then rest + 1 else rest
  }

  /** Whether a line asks for an image. */
  function Asking(): (r: string -> bool)
    ensures forall line :: r(line) == Request(line).Some?
  {
    line => Request(line).Some?
  }

  /** How many of the lines ask for an image. */
  function CountRequests(lines: seq<string>): (n: nat)
    ensures n <= |lines|
  {
    CountWhere(lines, Asking())
  }

  // ---------------------------------------------------------------------------
  // `for (const line of lines) { if (count >= MAX_INLINE_IMAGES) break; ... }`
  // ---------------------------------------------------------------------------

  /**
   * The loop over the lines for any way `place` a line has of placing an
   * image, `count` images already placed: each line places its image in turn,
   * and the loop stops once `MaxInlineImages` are placed.
   */
  function FoldLines(md: string, lines: seq<string>, count: nat, place: (string, string) -> Option<string>): (r: (string, nat))
    ensures count <= r.1 <= count + |lines|
    ensures count <= MaxInlineImages ==> r.1 <= MaxInlineImages
    ensures r.1 == count ==> r.0 == md
    decreases |lines|
  {
    if |lines| == 0 || count >= MaxInlineImages then (md, count)
    else match place(md, lines[0])
      case Some(placed) => FoldLines(placed, lines[1..], count + 1, place)
      case None => FoldLines(md, lines[1..], count, place)
  }

  /** When every placement lengthens the article by at least 8, so does every image the loop places. */
  lemma {:induction false} FoldGrowth(md: string, lines: seq<string>, count: nat, place: (string, string) -> Option<string>)
    requires forall m, line :: place(m, line).Some? ==> |place(m, line).value| >= |m| + 8
    ensures |FoldLines(md, lines, count, place).0| >= |md| + 8 * (FoldLines(md, lines, count, place).1 - count)
    decreases |lines|
  {
    if |lines| > 0 && count < MaxInlineImages {
      match place(md, lines[0])
      case Some(placed) => FoldGrowth(placed, lines[1..], count + 1, place);
      case None => FoldGrowth(md, lines[1..], count, place);
    }
  }

  /** When only lines `asks` holds of place images, the loop places no more images than there are such lines. */
  lemma {:induction false} FoldCount(md: string, lines: seq<string>, count: nat,
                                     place: (string, string) -> Option<string>, asks: string -> bool)
    requires forall m, line :: place(m, line).Some? ==> asks(line)
    ensures FoldLines(md, lines, count, place).1 <= count + CountWhere(lines, asks)
    decreases |lines|
  {
    if |lines| > 0 && count < MaxInlineImages {
      match place(md, lines[0])
      case Some(placed) => FoldCount(placed, lines[1..], count + 1, place, asks);
      case None => FoldCount(md, lines[1..], count, place, asks);
    }
  }

  /** The loop, for any placement: one pass over the lines, stopping at the cap. */
  method RunLines(markdown: string, lines: seq<string>, place: (string, string) -> Option<string>)
    returns (md: string, count: nat)
    ensures (md, count) == FoldLines(markdown, lines, 0, place)
  {
    md := markdown;
    count := 0;
    var i := 0;
    assert lines[0..] == lines;
    while i < |lines| && count < MaxInlineImages
      invariant 0 <= i <= |lines|
      invariant FoldLines(md, lines[i..], count, place) == FoldLines(markdown, lines, 0, place)
    {
      assert lines[i..][1..] == lines[i + 1..];
      var placed := place(md, lines[i]);
      if placed.Some? {
        md, count := placed.value, count + 1;
      }
      i := i + 1;
    }
  }

  /** Below the cap, no image is placed exactly when no line places one on the article as it is. */
  lemma {:induction false} FoldNone(md: string, lines: seq<string>, count: nat, place: (string, string) -> Option<string>)
    requires count < MaxInlineImages
    ensures FoldLines(md, lines, count, place).1 == count
            <==> forall k :: 0 <= k < |lines| ==> place(md, lines[k]).None?
    decreases |lines|
  {
    if |lines| > 0 && place(md, lines[0]).None? {
      FoldNone(md, lines[1..], count, place);
    }
  }

  /**
   * Below the cap, the first line that places an image on the article places
   * it, and the loop goes on from the line after it with one more image.
   */
  lemma {:induction false} FoldFirst(md: string, lines: seq<string>, k: nat, count: nat, place: (string, string) -> Option<string>)
    requires count < MaxInlineImages && k < |lines|
    requires forall j :: 0 <= j < k ==> place(md, lines[j]).None?
    requires place(md, lines[k]).Some?
    ensures FoldLines(md, lines, count, place) == FoldLines(place(md, lines[k]).value, lines[k + 1..], count + 1, place)
    decreases k
  {
    if k > 0 {
      FoldFirst(md, lines[1..], k - 1, count, place);
      assert lines[1..][k..] == lines[k + 1..];
    }
  }

  /** The placement the endpoint's loop makes, one line at a time. */
  function Placing(imageUrl: string -> string): (r: (string, string) -> Option<string>)
    ensures forall md, line :: r(md, line) == PlaceImage(md, line, imageUrl)
  {
    (md, line) => PlaceImage(md, line, imageUrl)
  }

  /** The endpoint's loop over the lines, `count` images already placed. */
  function InjectFold(md: string, lines: seq<string>, count: nat, imageUrl: string -> string): (r: (string, nat))
    ensures count <= r.1 <= count + CountRequests(lines)
    ensures count <= MaxInlineImages ==> r.1 <= MaxInlineImages
    ensures |r.0| >= |md| + 8 * (r.1 - count)
    ensures r.1 == count ==> r.0 == md
  {
    FoldGrowth(md, lines, count, Placing(imageUrl));
    FoldCount(md, lines, count, Placing(imageUrl), Asking());
    FoldLines(md, lines, count, Placing(imageUrl))
  }

  /** Below the cap, the loop places no image exactly when no line places one on the article as it is. */
  lemma InjectFoldNone(md: string, lines: seq<string>, count: nat, imageUrl: string -> string)
    requires count < MaxInlineImages
    ensures InjectFold(md, lines, count, imageUrl).1 == count
            <==> forall k :: 0 <= k < |lines| ==> PlaceImage(md, lines[k], imageUrl).None?
  {
    FoldNone(md, lines, count, Placing(imageUrl));
  }

  /**
   * Below the cap, the first line that places an image on the article as it
   * is places it, and the loop goes on from the next line with one more image.
   */
  lemma InjectFoldFirst(md: string, lines: seq<string>, k: nat, count: nat, imageUrl: string -> string)
    requires count < MaxInlineImages && k < |lines|
    requires forall j :: 0 <= j < k ==> PlaceImage(md, lines[j], imageUrl).None?
    requires PlaceImage(md, lines[k], imageUrl).Some?
    ensures InjectFold(md, lines, count, imageUrl)
            == InjectFold(PlaceImage(md, lines[k], imageUrl).value, lines[k + 1..], count + 1, imageUrl)
  {
    FoldFirst(md, lines, k, count, Placing(imageUrl));
  }

  /** With no `$` in header or URL, an image goes on the line right after the heading's line. */
  lemma PlaceImageAfterHeading(md: string, line: string, imageUrl: string -> string)
    requires Request(line).Some?
    requires FindHeading(md, TargetHeader(Request(line).value.0)).Some?
    requires '$' !in TargetHeader(Request(line).value.0) && '$' !in imageUrl(Request(line).value.1)
    ensures var header := TargetHeader(Request(line).value.0);
            var q := FindHeading(md, header).value.1;
            PlaceImage(md, line, imageUrl).value
            == md[..q] + ImageMarkdown(header, imageUrl(Request(line).value.1)) + md[q..]
  {
  }

  /** `for (const line of lines)`, breaking once `MaxInlineImages` images are placed. */
  method InjectLines(markdown: string, lines: seq<string>, imageUrl: string -> string)
    returns (md: string, count: nat)
    ensures (md, count) == InjectFold(markdown, lines, 0, imageUrl)
    ensures count <= MaxInlineImages
    ensures count <= CountRequests(lines)
    ensures count == 0 <==> md == markdown
    ensures |md| >= |markdown| + 8 * count
  {
    md, count := RunLines(markdown, lines, Placing(imageUrl));
  }

  /** The article and image count after the inline prompts: untouched when there are none. */
  function InlineResult(markdown: string, inlinePromptsText: string, imageUrl: string -> string): (r: (string, nat))
    ensures r.1 <= MaxInlineImages
    ensures inlinePromptsText == "" ==> r == (markdown, 0)
    ensures r.1 <= CountRequests(Split(inlinePromptsText, "\n"))
    ensures r.1 == 0 <==> r.0 == markdown
    ensures |r.0| >= |markdown| + 8 * r.1
  {
    if inlinePromptsText == "" then (markdown, 0)
    else InjectFold(markdown, Split(inlinePromptsText, "\n"), 0, imageUrl)
  }

  /** The inline-prompt text, when there is any, split into lines and run through the loop. */
  method InjectInlineImages(markdown: string, inlinePromptsText: string, imageUrl: string -> string)
    returns (md: string, count: nat)
    ensures (md, count) == InlineResult(markdown, inlinePromptsText, imageUrl)
    ensures count <= MaxInlineImages
    ensures inlinePromptsText == "" ==> md == markdown && count == 0
    ensures count <= CountRequests(Split(inlinePromptsText, "\n"))
    ensures count == 0 <==> md == markdown
    ensures |md| >= |markdown| + 8 * count
  {
    if inlinePromptsText == "" {
      md, count := markdown, 0;
    } else {
      md, count := InjectLines(markdown, Split(inlinePromptsText, "\n"), imageUrl);
    }
  }
}

=== FILE: model_fallback.dfy ===
/**
 * The body endpoint's walk down its list of text models: each model is asked
 * in turn until one answers with non-empty text. The model call itself is a
 * parameter, `generate`, that either returns text or throws with a message.
 */
module ModelFallback {
  import opened Wrappers

  /** The models tried, in order of preference. */
  const ModelsToTry: seq<string> := [
    "gemini-2.0-flash-exp",
    "gemini-2.0-flash",
    "gemini-2.0-flash-001",
    "gemini-1.5-flash",
    "gemini-1.5-flash-001",
    "gemini-1.5-flash-002",
    "gemini-1.5-pro",
    "gemini-1.5-pro-001",
    "gemini-1.0-pro",
    "gemini-pro"
  ]

  /** What one model call did: returned text (possibly empty), or threw. */
  datatype Attempt = Returned(text: string) | Threw(message: string)

  /** An attempt that ends the search. */
  predicate Succeeded(a: Attempt) {
    a.Returned? && a.text != ""
  }

  /** The outcome of the whole search: the text to split, or the error the request ends with. */
  datatype Fallback = Answer(text: string) | AllFailed(message: string)

  function FailureMessage(last: string): string {
    "All models failed. Last error: " + last + ". Accessing: v1beta API."
  }

  /** The attempts the models would make, in list order. */
  function Outcomes(models: seq<string>, generate: string -> Attempt): (r: seq<Attempt>)
    ensures |r| == |models|
    ensures forall i :: 0 <= i < |models| ==> r[i] == generate(models[i])
  {
    if |models| == 0 then [] else Outcomes(models[..|models| - 1], generate) + [generate(models[|models| - 1])]
  }

  /** The message of the last attempt that threw, if any did: `lastError` after the loop. */
  function LastError(outs: seq<Attempt>): Option<string> {
    if |outs| == 0 then None
    else if outs[|outs| - 1].Threw? then Some(outs[|outs| - 1].message)
    else LastError(outs[..|outs| - 1])
  }

  /** No error is kept exactly when no attempt threw. */
  lemma {:induction false} LastErrorNone(outs: seq<Attempt>)
    ensures LastError(outs).None? <==> forall i :: 0 <= i < |outs| ==> outs[i].Returned?
  {
    if |outs| > 0 && outs[|outs| - 1].Returned? {
      var prefix := outs[..|outs| - 1];
      LastErrorNone(prefix);
      assert forall i :: 0 <= i < |prefix| ==> prefix[i] == outs[i];
    }
  }

  /** The error kept is the message of an attempt that threw, with no attempt after it throwing. */
  lemma {:induction false} LastErrorSome(outs: seq<Attempt>)
    requires LastError(outs).Some?
    ensures exists i :: 0 <= i < |outs| && outs[i] == Threw(LastError(outs).value)
                        && forall j :: i < j < |outs| ==> outs[j].Returned?
  {
    var n := |outs| - 1;
    if outs[n].Threw? {
      assert outs[n] == Threw(LastError(outs).value);
    } else {
      var prefix := outs[..n];
      LastErrorSome(prefix);
      var i :| 0 <= i < n && prefix[i] == Threw(LastError(prefix).value)
               && forall j :: i < j < n ==> prefix[j].Returned?;
      assert outs[i] == prefix[i];
      assert forall j :: i < j < n ==> outs[j] == prefix[j];
      assert forall j :: i < j < |outs| ==> outs[j].Returned?;
    }
  }

  /** One more attempt: its error, if it threw, replaces the one kept. */
  lemma LastErrorStep(outs: seq<Attempt>, i: nat)
    requires i < |outs|
    ensures LastError(outs[..i + 1]) == if outs[i].Threw? then Some(outs[i].message) else LastError(outs[..i])
  {
    assert outs[..i + 1][..i] == outs[..i];
  }

  /**
   * The loop over `modelsToTry` and the failure test after it. `tried` is how many
   * models were asked: the search stops at the first non-empty answer.
   */
  method TryModels(models: seq<string>, generate: string -> Attempt) returns (r: Fallback, tried: nat)
    ensures tried <= |models|
    ensures forall i :: 0 <= i < |models| && i + 1 < tried ==> !Succeeded(generate(models[i]))
    ensures (r.Answer? && r.text != "") <==> exists i :: 0 <= i < |models| && Succeeded(generate(models[i]))
    ensures r.Answer? && r.text != "" ==> 0 < tried && generate(models[tried - 1]) == Returned(r.text)
    ensures !(r.Answer? && r.text != "") ==> tried == |models|
    ensures r.AllFailed? <==>
      (forall i :: 0 <= i < |models| ==> !Succeeded(generate(models[i])))
      && LastError(Outcomes(models, generate)).Some?
    ensures r.AllFailed? ==> r.message == FailureMessage(LastError(Outcomes(models, generate)).value)
    ensures r == Answer("") <==> forall i :: 0 <= i < |models| ==> generate(models[i]) == Returned("")
  {
    ghost var outs := Outcomes(models, generate);
    var lastError: Option<string> := None;
    var text := "";
    var i := 0;
    while i < |models| && text == ""
      invariant 0 <= i <= |models|
      invariant text == "" ==> forall k :: 0 <= k < i ==> !Succeeded(outs[k])
      invariant text != "" ==> 0 < i && outs[i - 1] == Returned(text)
                               && forall k :: 0 <= k < i - 1 ==> !Succeeded(outs[k])
      invariant lastError == LastError(outs[..i])
    {
      LastErrorStep(outs, i);
      var attempt := generate(models[i]);
      assert attempt == outs[i];
      if attempt.Returned? {
        text := attempt.text;
      } else {
        lastError := Some(attempt.message);
      }
      i := i + 1;
    }
    tried := i;
    if text == "" && lastError.Some? {
      r := AllFailed(FailureMessage(lastError.value));
    } else {
      r := Answer(text);
    }
    if text == "" {
      assert outs[..i] == outs;
      LastErrorNone(outs);
    }
  }
}

=== FILE: outline_editor.dfy ===
/**
 * The outline editor's list edits. The editor only renders (and so only
 * offers these edits) while the outline is non-empty, and passes the index of
 * the row the user acted on.
 */
module OutlineEditor {
  import opened Wrappers
  import opened Types

  /** `Partial<OutlineSection>`: the fields an edit overwrites. */
  datatype SectionPatch = SectionPatch(level: Option<int>, heading: Option<string>, summary: Option<string>)

  /** `{ ...section, ...patch }`. */
  function Merge(s: OutlineSection, p: SectionPatch): (r: OutlineSection)
    ensures r.level == p.level.GetOr(s.level)
    ensures r.heading == p.heading.GetOr(s.heading)
    ensures r.summary == p.summary.GetOr(s.summary)
  {
    OutlineSection(p.level.GetOr(s.level), p.heading.GetOr(s.heading), p.summary.GetOr(s.summary))
  }

  /** `updateSection(index, updates)`: merge the patch into one row, leave the rest. */
  function UpdateSection(outline: seq<OutlineSection>, i: nat, p: SectionPatch): (r: seq<OutlineSection>)
    requires i < |outline|
    ensures |r| == |outline|
    ensures r[i] == Merge(outline[i], p)
    ensures forall j :: 0 <= j < |r| && j != i ==> r[j] == outline[j]
  {
    outline[i := Merge(outline[i], p)]
  }

  /** The row `addSection` inserts. */
  const NewSection := OutlineSection(1, "新しいセクション", "")

  /**
   * `addSection(afterIndex)`: `splice(afterIndex + 1, 0, NewSection)` (an
   * insertion point past the end appends), and the new row opens for editing.
   */
  function AddSection(outline: seq<OutlineSection>, after: nat): (r: (seq<OutlineSection>, nat))
    ensures var (o, editing) := r;
      var at := if after + 1 <= |outline| then after + 1 else |outline|;
      && |o| == |outline| + 1
      && o[at] == NewSection
      && o[..at] == outline[..at]
      && o[at + 1..] == outline[at..]
      && editing == after + 1
  {
    var at := if after + 1 <= |outline| then after + 1 else |outline|;
    (outline[..at] + [NewSection] + outline[at..], after + 1)
  }

  /**
   * `removeSection(index)`: `filter((_, i) => i !== index)`, refused while the
   * outline has a single row.
   */
  function RemoveSection(outline: seq<OutlineSection>, i: nat): (r: seq<OutlineSection>)
    ensures |outline| <= 1 ==> r == outline
    ensures |outline| > 1 && i < |outline| ==> r == outline[..i] + outline[i + 1..]
    ensures i >= |outline| ==> r == outline
    ensures |outline| >= 1 ==> |r| >= 1
  {
    if |outline| <= 1 then outline
    else if i < |outline| then outline[..i] + outline[i + 1..]
    else outline
  }

  datatype Direction = Up | Down

  /** The destructuring swap `[a[i], a[j]] = [a[j], a[i]]`. */
  function Swap(xs: seq<OutlineSection>, i: nat, j: nat): (r: seq<OutlineSection>)
    requires i < j < |xs|
    ensures |r| == |xs|
    ensures r[i] == xs[j] && r[j] == xs[i]
    ensures forall k :: 0 <= k < |r| && k != i && k != j ==> r[k] == xs[k]
    ensures multiset(r) == multiset(xs)
  {
    var r := xs[..i] + [xs[j]] + xs[i + 1..j] + [xs[i]] + xs[j + 1..];
    assert xs == xs[..i] + [xs[i]] + xs[i + 1..j] + [xs[j]] + xs[j + 1..];
    r
  }

  /** `moveSection(index, direction)`: swap with the neighbour; the ends do not move outwards. */
  function MoveSection(outline: seq<OutlineSection>, i: nat, dir: Direction): (r: seq<OutlineSection>)
    requires i < |outline|
    ensures |r| == |outline|
    ensures multiset(r) == multiset(outline)
    ensures (dir == Up && i == 0) || (dir == Down && i == |outline| - 1) ==> r == outline
    ensures dir == Up && i > 0 ==>
      r[i - 1] == outline[i] && r[i] == outline[i - 1]
      && forall j :: 0 <= j < |r| && j != i && j != i - 1 ==> r[j] == outline[j]
    ensures dir == Down && i + 1 < |outline| ==>
      r[i + 1] == outline[i] && r[i] == outline[i + 1]
      && forall j :: 0 <= j < |r| && j != i && j != i + 1 ==> r[j] == outline[j]
  {
    match dir
    case Up => if i == 0 then outline else Swap(outline, i - 1, i)
    case Down => if i == |outline| - 1 then outline else Swap(outline, i, i + 1)
  }

  /** Moving a row up and then down again from its new place restores the outline. */
  lemma MoveUpThenDown(outline: seq<OutlineSection>, i: nat)
    requires 0 < i < |outline|
    ensures MoveSection(MoveSection(outline, i, Up), i - 1, Down) == outline
  {
    var once := Swap(outline, i - 1, i);
    assert MoveSection(outline, i, Up) == once;
    var twice := Swap(once, i - 1, i);
    assert MoveSection(once, i - 1, Down) == twice;
    assert forall j :: 0 <= j < |outline| ==> twice[j] == outline[j];
  }

  /** Removal never empties a non-empty outline, and keeps the order of the rows it keeps. */
  lemma RemoveKeepsOrder(outline: seq<OutlineSection>, i: nat)
    requires 1 < |outline| && i < |outline|
    ensures |RemoveSection(outline, i)| == |outline| - 1
    ensures forall j :: 0 <= j < i ==> RemoveSection(outline, i)[j] == outline[j]
    ensures forall j :: i < j < |outline| ==> RemoveSection(outline, i)[j - 1] == outline[j]
  {
  }

  /** Adding a row after `i` and removing it again gives back the outline. */
  lemma AddThenRemove(outline: seq<OutlineSection>, i: nat)
    requires i < |outline|
    ensures RemoveSection(AddSection(outline, i).0, i + 1) == outline
  {
    var o := AddSection(outline, i).0;
    assert o == outline[..i + 1] + [NewSection] + outline[i + 1..];
    assert o[..i + 1] + o[i + 2..] == outline;
  }
}

=== FILE: reference_image.dfy ===
/**
 * The reference-image picker: which files it takes, what it alerts for the
 * rest, and how clearing works. Reading the file is left to the browser; its
 * `data:` URL comes in with the file.
 */
module ReferenceImage {
  import opened Wrappers
  import opened Types
  import opened Strings
  import opened Article

  /** The largest accepted file, 5 MiB. */
  const MaxImageBytes: nat := 5 * 1024 * 1024

  const NotAnImageAlert := "画像ファイルを選択してください"
  const TooLargeAlert := "画像サイズは5MB以下にしてください"

  /** A chosen file: its MIME type, its size in bytes, and the data URL the reader produces for it. */
  datatype ChosenFile = ChosenFile(mimeType: string, size: nat, dataUrl: string)

  /** The state after a change, and the alert shown, if any. */
  datatype Outcome = Outcome(article: ArticleData, alert: Option<string>)

  /** A file the picker takes: an image type of at most 5 MiB. */
  predicate Acceptable(f: ChosenFile) {
    StartsWith(f.mimeType, "image/") && f.size <= MaxImageBytes
  }

  /** `handleFileChange`: a missing file does nothing; a wrong type or size alerts; otherwise the image is stored. */
  function HandleFileChange(d: ArticleData, file: Option<ChosenFile>): (r: Outcome)
    ensures file.None? ==> r == Outcome(d, None)
    ensures file.Some? && !StartsWith(file.value.mimeType, "image/") ==> r == Outcome(d, Some(NotAnImageAlert))
    ensures file.Some? && StartsWith(file.value.mimeType, "image/") && file.value.size > MaxImageBytes ==>
              r == Outcome(d, Some(TooLargeAlert))
    ensures r.article != d ==> file.Some? && Acceptable(file.value)
    ensures file.Some? && Acceptable(file.value) ==>
              r.alert.None? && r.article.referenceImage == Some(file.value.dataUrl)
              && AgreeExcept(d, r.article, {ReferenceImage})
  {
    match file
    case None => Outcome(d, None)
    case Some(f) =>
      if !StartsWith(f.mimeType, "image/") then Outcome(d, Some(NotAnImageAlert))
      else if f.size > MaxImageBytes then Outcome(d, Some(TooLargeAlert))
      else
        SetterFrame(d, SetReferenceImage(f.dataUrl));
        Outcome(Apply(d, SetReferenceImage(f.dataUrl)), None)
  }

  /** The limit is inclusive: an image of exactly 5 MiB is taken, one byte more is not. */
  lemma SizeLimitInclusive(mimeType: string, dataUrl: string)
    requires StartsWith(mimeType, "image/")
    ensures HandleFileChange(DefaultArticleData, Some(ChosenFile(mimeType, MaxImageBytes, dataUrl))).alert.None?
    ensures HandleFileChange(DefaultArticleData, Some(ChosenFile(mimeType, MaxImageBytes + 1, dataUrl))).alert == Some(TooLargeAlert)
  {
  }

  /** `handleClear`: the reference image becomes the empty string; nothing else changes. */
  function HandleClear(d: ArticleData): (r: ArticleData)
    ensures r.referenceImage == Some("")
    ensures AgreeExcept(d, r, {ReferenceImage})
  {
    SetterFrame(d, SetReferenceImage(""));
    Apply(d, SetReferenceImage(""))
  }
}

=== FILE: replacement.dfy ===
/**
 * The replacement template of `String.prototype.replace` (GetSubstitution,
 * section 22.1.3.19.1 of ECMA-262), for a pattern with exactly one capture
 * group and no named groups.
 */
module Replacement {

  /** One match: the text before it, the matched text (also capture group 1), and the text after it. */
  datatype MatchContext = MatchContext(before: string, matched: string, after: string)

  /** How many template characters the leading pattern or literal character takes. */
  function TokenLength(t: string): (n: nat)
    requires |t| > 0
    ensures 1 <= n <= |t|
  {
    if t[0] == '$' && |t| >= 2 then
      if t[1] == '$' || t[1] == '&' || t[1] == '1' || t[1] == '`' || t[1] == '\'' then 2
      else if t[1] == '0' && |t| >= 3 && t[2] == '1' then 3
      else 1
    else 1
  }

  /**
   * What the leading token stands for: `$$` is `$`, `$&`, `$1` and `$01` are
   * the match, `` $` `` the text before and `$'` the text after it. Every
   * other `$` (`$0`, `$2`, `$<`, a final `$`, ...) stands for itself.
   */
  function TokenText(t: string, m: MatchContext): (r: string)
    requires |t| > 0
    ensures TokenLength(t) == 1 ==> r == [t[0]]
  {
    if TokenLength(t) == 1 then [t[0]]
    else if t[1] == '$' then "$"
    else if t[1] == '&' || t[1] == '1' || t[1] == '0' then m.matched
    else if t[1] == '`' then m.before
    else m.after
  }

  /** The template expanded token by token. */
  function Expand(t: string, m: MatchContext): (r: string)
    ensures '$' !in t ==> r == t
    decreases |t|
  {
    if |t| == 0 then [] else TokenText(t, m) + Expand(t[TokenLength(t)..], m)
  }

  /** `$1` on its own stands for the matched text. */
  lemma ExpandCapture(m: MatchContext)
    ensures Expand("$1", m) == m.matched
  {
    assert "$1"[2..] == [];
  }

  /** The characters that can continue a `$` into a substitution pattern. */
  predicate PatternChar(c: char) {
    c == '$' || c == '&' || c == '1' || c == '`' || c == '\'' || c == '0'
  }

  /** Text appended after a token cannot change it unless it starts with a pattern character. */
  lemma TokenOfAppend(x: string, y: string, m: MatchContext)
    requires |x| > 0 && |y| > 0 && !PatternChar(y[0])
    ensures TokenLength(x + y) == TokenLength(x)
    ensures TokenText(x + y, m) == TokenText(x, m)
  {
    var t := x + y;
    assert t[0] == x[0];
    if |x| == 1 {
      assert t[1] == y[0];
    } else {
      assert t[1] == x[1];
      if |x| == 2 {
        assert t[2] == y[0];
      } else {
        assert t[2] == x[2];
      }
    }
  }

  /** A template is expanded piecewise wherever the second piece cannot continue a `$` of the first. */
  lemma {:induction false} ExpandAppend(x: string, y: string, m: MatchContext)
    requires |y| > 0 && !PatternChar(y[0])
    ensures Expand(x + y, m) == Expand(x, m) + Expand(y, m)
    decreases |x|
  {
    if |x| == 0 {
      assert x + y == y;
    } else {
      TokenOfAppend(x, y, m);
      var n := TokenLength(x);
      assert (x + y)[n..] == x[n..] + y;
      ExpandAppend(x[n..], y, m);
    }
  }

  /** Text without `$` at the front of a template is copied as it is. */
  lemma {:induction false} ExpandLiteralPrefix(c: string, t: string, m: MatchContext)
    requires '$' !in c
    ensures Expand(c + t, m) == c + Expand(t, m)
    decreases |c|
  {
    if |c| > 0 {
      assert (c + t)[0] == c[0];
      assert TokenLength(c + t) == 1;
      assert (c + t)[1..] == c[1..] + t;
      assert Expand(c + t, m) == [c[0]] + Expand(c[1..] + t, m);
      assert '$' !in c[1..];
      ExpandLiteralPrefix(c[1..], t, m);
      assert c == [c[0]] + c[1..];
    } else {
      assert c + t == t;
    }
  }
}

=== FILE: seqs.dfy ===
/** Array operations of the JavaScript runtime, on Dafny sequences. */
module Seqs {

  /** `xs.filter(p)`. */
  function Filter<T(==)>(xs: seq<T>, p: T -> bool): (r: seq<T>)
    ensures |r| <= |xs|
    ensures forall i :: 0 <= i < |r| ==> r[i] in xs && p(r[i])
    ensures forall i :: 0 <= i < |xs| && p(xs[i]) ==> xs[i] in r
  {
    if |xs| == 0 then []
    else if p(xs[0]) then [xs[0]] + Filter(xs[1..], p)
    else Filter(xs[1..], p)
  }

  /** Filtering distributes over concatenation: the kept elements stay in their order. */
  lemma {:induction false} FilterAppend<T>(a: seq<T>, b: seq<T>, p: T -> bool)
    ensures Filter(a + b, p) == Filter(a, p) + Filter(b, p)
    decreases |a|
  {
    if |a| > 0 {
      assert (a + b)[1..] == a[1..] + b;
      FilterAppend(a[1..], b, p);
    } else {
      assert a + b == b;
    }
  }

  /** A sequence whose every element passes is its own filter. */
  lemma {:induction false} FilterAllPass<T>(xs: seq<T>, p: T -> bool)
    requires forall i :: 0 <= i < |xs| ==> p(xs[i])
    ensures Filter(xs, p) == xs
    decreases |xs|
  {
    if |xs| > 0 {
      FilterAllPass(xs[1..], p);
    }
  }

  /** Filtering twice by the same predicate is filtering once. */
  lemma FilterIdempotent<T>(xs: seq<T>, p: T -> bool)
    ensures Filter(Filter(xs, p), p) == Filter(xs, p)
  {
    FilterAllPass(Filter(xs, p), p);
  }

  predicate NoDuplicates<T(==)>(xs: seq<T>) {
    forall i, j :: 0 <= i < j < |xs| ==> xs[i] != xs[j]
  }

  /**
   * `Array.from(new Set(xs))`: the first occurrence of each element, in order
   * of first appearance.
   */
  function Dedup<T(==)>(xs: seq<T>): (r: seq<T>)
    ensures NoDuplicates(r)
    ensures forall i :: 0 <= i < |r| ==> r[i] in xs
    ensures forall i :: 0 <= i < |xs| ==> xs[i] in r
    ensures |r| <= |xs|
    decreases |xs|
  {
    if |xs| == 0 then []
    else
      var init := Dedup(xs[..|xs| - 1]);
      var last := xs[|xs| - 1];
      assert xs == xs[..|xs| - 1] + [last];
      if last in init then init else init + [last]
  }

  /** A duplicate-free sequence is its own deduplication. */
  lemma {:induction false} DedupNoDuplicates<T>(xs: seq<T>)
    requires NoDuplicates(xs)
    ensures Dedup(xs) == xs
    decreases |xs|
  {
    if |xs| > 0 {
      var init := xs[..|xs| - 1];
      DedupNoDuplicates(init);
      assert xs[|xs| - 1] !in init;
      assert init + [xs[|xs| - 1]] == xs;
    }
  }
}

=== FILE: strings.dfy ===
/**
 * String primitives with JavaScript's semantics.
 *
 * A `string` is a `seq<char>` in which each `char` stands for one UTF-16 code
 * unit, so `|s|` is JavaScript's `s.length` and `s[..n]` is `s.slice(0, n)`.
 */
module Strings {
  import opened Wrappers

  // ---------------------------------------------------------------------------
  // Character classes
  // ---------------------------------------------------------------------------

  /** ECMAScript WhiteSpace and LineTerminator: what `trim()` strips and `\s` matches. */
  predicate IsWhitespace(c: char) {
    || c == '\t' || c == '\n' || c == '\U{000B}' || c == '\U{000C}' || c == '\r'
    || c == ' ' || c == '\U{00A0}' || c == '\U{1680}'
    || ('\U{2000}' <= c <= '\U{200A}')
    || c == '\U{2028}' || c == '\U{2029}' || c == '\U{202F}' || c == '\U{205F}'
    || c == '\U{3000}' || c == '\U{FEFF}'
  }

  /** ECMAScript LineTerminator: the characters a regular-expression `.` does not match. */
  predicate IsLineTerminator(c: char) {
    c == '\n' || c == '\r' || c == '\U{2028}' || c == '\U{2029}'
  }

  /** ASCII lower-casing; every other character is its own case. */
  function AsciiLower(c: char): char {
    if 'A' <= c <= 'Z' then (c as int + 32) as char else c
  }

  /**
   * Equality under a non-Unicode `/i` regular expression, restricted to ASCII
   * case pairs (exact whenever one side is ASCII).
   */
  predicate EqualsIgnoreCase(a: string, b: string) {
    |a| == |b| && forall i :: 0 <= i < |a| ==> AsciiLower(a[i]) == AsciiLower(b[i])
  }

  predicate AllWhitespace(s: string) {
    forall i :: 0 <= i < |s| ==> IsWhitespace(s[i])
  }

  // ---------------------------------------------------------------------------
  // Scanning and trimming
  // ---------------------------------------------------------------------------

  /** The end of the run of characters satisfying `p` that starts at `i`. */
  function ScanWhile(s: string, i: nat, p: char -> bool): (j: nat)
    requires i <= |s|
    ensures i <= j <= |s|
    ensures forall k :: i <= k < j ==> p(s[k])
    ensures j < |s| ==> !p(s[j])
    decreases |s| - i
  {
    if i == |s| || !p(s[i]) then i else ScanWhile(s, i + 1, p)
  }

  /** A scan stops exactly at the first position from `i` that fails `p`. */
  lemma ScanWhileAt(s: string, i: nat, p: char -> bool, j: nat)
    requires i <= j <= |s| && forall k :: i <= k < j ==> p(s[k])
    requires j < |s| ==> !p(s[j])
    ensures ScanWhile(s, i, p) == j
  {
  }

  /** The start, not below `lo`, of the run of characters satisfying `p` that ends at `j`. */
  function ScanBackWhile(s: string, lo: nat, j: nat, p: char -> bool): (i: nat)
    requires lo <= j <= |s|
    ensures lo <= i <= j
    ensures forall k :: i <= k < j ==> p(s[k])
    ensures lo < i ==> !p(s[i - 1])
  {
    if j == lo || !p(s[j - 1]) then j else ScanBackWhile(s, lo, j - 1, p)
  }

  /** No whitespace at either end: what `trim()` returns. */
  predicate Trimmed(s: string) {
    |s| == 0 || (!IsWhitespace(s[0]) && !IsWhitespace(s[|s| - 1]))
  }

  /** `String.prototype.trim`. */
  function Trim(s: string): (r: string)
    ensures Trimmed(r)
    ensures exists i, j :: 0 <= i <= j <= |s| && r == s[i..j]
                           && AllWhitespace(s[..i]) && AllWhitespace(s[j..])
  {
    var i := ScanWhile(s, 0, IsWhitespace);
    if i == |s| then
      assert AllWhitespace(s[..|s|]);
      assert s[|s|..] == [];
      []
    else
      var j := ScanBackWhile(s, i + 1, |s|, IsWhitespace);
      assert !IsWhitespace(s[i]);
      s[i..j]
  }

  /** `trim()` leaves a string without edge whitespace alone; in particular it is idempotent. */
  lemma TrimTrimmed(s: string)
    requires Trimmed(s)
    ensures Trim(s) == s
  {
    if |s| > 0 {
      assert ScanWhile(s, 0, IsWhitespace) == 0;
      assert ScanBackWhile(s, 1, |s|, IsWhitespace) == |s|;
    }
  }

  lemma TrimIdempotent(s: string)
    ensures Trim(Trim(s)) == Trim(s)
  {
    TrimTrimmed(Trim(s));
  }

  /** `s.trim()` is empty exactly when `s` is all whitespace. */
  lemma TrimEmptyIff(s: string)
    ensures Trim(s) == [] <==> AllWhitespace(s)
  {
    var i := ScanWhile(s, 0, IsWhitespace);
    if i < |s| {
      assert !IsWhitespace(s[i]);
      assert Trim(s) != [];
    }
  }

  // ---------------------------------------------------------------------------
  // Substrings, search, split and join
  // ---------------------------------------------------------------------------

  predicate StartsWith(s: string, prefix: string) {
    |prefix| <= |s| && s[..|prefix|] == prefix
  }

  /** `s` starts with `w`, ignoring ASCII case. */
  predicate StartsWithIgnoreCase(s: string, w: string) {
    |w| <= |s| && EqualsIgnoreCase(s[..|w|], w)
  }

  /** `sep` occurs in `s` at index `i`. */
  predicate OccursAt(s: string, sep: string, i: nat) {
    i + |sep| <= |s| && s[i..i + |sep|] == sep
  }

  predicate Contains(s: string, sep: string) {
    exists i: nat | i <= |s| :: OccursAt(s, sep, i)
  }

  /** `s.indexOf(sep, i)`, with `None` for -1. */
  function IndexOf(s: string, sep: string, i: nat): (r: Option<nat>)
    requires i <= |s|
    ensures r.Some? ==> i <= r.value && OccursAt(s, sep, r.value)
    ensures r.Some? ==> forall k: nat :: i <= k < r.value ==> !OccursAt(s, sep, k)
    ensures r.None? ==> forall k: nat :: i <= k ==> !OccursAt(s, sep, k)
    decreases |s| - i
  {
    if OccursAt(s, sep, i) then Some(i)
    else if i == |s| then None
    else IndexOf(s, sep, i + 1)
  }

  /** `s.slice(0, n)`: the first `n` code units, or all of `s` when it is shorter. */
  function Prefix(s: string, n: nat): (r: string)
    ensures |r| <= n && |r| <= |s|
    ensures |s| <= n ==> r == s
    ensures StartsWith(s, r)
  {
    if |s| <= n then s else s[..n]
  }

  /** `s.split(sep)` for a non-empty literal separator. */
  function Split(s: string, sep: string): (parts: seq<string>)
    requires |sep| > 0
    ensures |parts| >= 1
    ensures forall k :: 0 <= k < |parts| ==> !Contains(parts[k], sep)
    decreases |s|
  {
    var found := IndexOf(s, sep, 0);
    if found.None? then [s]
    else
      var k := found.value;
      var head := s[..k];
      assert !Contains(head, sep) by {
        forall j: nat | j + |sep| <= k ensures !OccursAt(head, sep, j) {
          assert forall t :: j <= t < j + |sep| ==> s[t] == head[t];
          assert s[j..j + |sep|] == head[j..j + |sep|];
          assert !OccursAt(s, sep, j);
        }
      }
      [head] + Split(s[k + |sep|..], sep)
  }

  /** `parts.join(sep)`. */
  function Join(parts: seq<string>, sep: string): string
  {
    if |parts| == 0 then []
    else if |parts| == 1 then parts[0]
    else parts[0] + sep + Join(parts[1..], sep)
  }

  /** Joining the parts of a split with the same separator gives back the input. */
  lemma {:induction false} JoinSplit(s: string, sep: string)
    requires |sep| > 0
    ensures Join(Split(s, sep), sep) == s
    decreases |s|
  {
    var found := IndexOf(s, sep, 0);
    if found.Some? {
      var k := found.value;
      var rest := s[k + |sep|..];
      var tail := Split(rest, sep);
      assert Split(s, sep) == [s[..k]] + tail;
      JoinSplit(rest, sep);
      assert ([s[..k]] + tail)[1..] == tail;
      assert Join([s[..k]] + tail, sep) == s[..k] + sep + Join(tail, sep);
      assert s == s[..k] + sep + rest;
    }
  }

  /** No proper prefix of `sep` is also a suffix of it, so occurrences cannot overlap. */
  predicate BorderFree(sep: string) {
    forall k :: 0 < k < |sep| ==> sep[k..] != sep[..|sep| - k]
  }

  /** A part that holds no separator splits off in front of the first separator. */
  lemma SplitCons(a: string, sep: string, b: string)
    requires |sep| > 0 && BorderFree(sep) && !Contains(a, sep)
    ensures Split(a + sep + b, sep) == [a] + Split(b, sep)
  {
    var s := a + sep + b;
    assert OccursAt(s, sep, |a|) by { assert s[|a|..|a| + |sep|] == sep; }
    forall j: nat | j < |a| ensures !OccursAt(s, sep, j) {
      if j + |sep| <= |a| {
        assert a[j..j + |sep|] == s[j..j + |sep|];
        assert !OccursAt(a, sep, j);
      } else {
        var k := |a| - j;
        assert sep[k..] != sep[..|sep| - k];
        assert s[j..j + |sep|][k..] == sep[..|sep| - k] by {
          assert s[j..j + |sep|][k..] == s[|a|..|a| + |sep| - k];
          assert s[|a|..|a| + |sep|] == sep;
        }
      }
    }
    var r := IndexOf(s, sep, 0);
    assert r == Some(|a|);
    assert s[..|a|] == a;
    assert s[|a| + |sep|..] == b;
  }

  /** A string that holds no separator splits to itself. */
  lemma SplitNone(a: string, sep: string)
    requires |sep| > 0 && !Contains(a, sep)
    ensures Split(a, sep) == [a]
  {
    assert IndexOf(a, sep, 0).None?;
  }

  /** Splitting a join of separator-free parts gives back the parts. */
  lemma {:induction false} SplitJoin(parts: seq<string>, sep: string)
    requires |sep| > 0 && BorderFree(sep) && |parts| >= 1
    requires forall k :: 0 <= k < |parts| ==> !Contains(parts[k], sep)
    ensures Split(Join(parts, sep), sep) == parts
    decreases |parts|
  {
    if |parts| == 1 {
      SplitNone(parts[0], sep);
    } else {
      SplitJoin(parts[1..], sep);
      SplitCons(parts[0], sep, Join(parts[1..], sep));
      assert parts == [parts[0]] + parts[1..];
    }
  }

  /** A character in none of the parts and not in the separator is not in their join. */
  lemma {:induction false} JoinAvoids(parts: seq<string>, sep: string, c: char)
    requires c !in sep && forall k :: 0 <= k < |parts| ==> c !in parts[k]
    ensures c !in Join(parts, sep)
    decreases |parts|
  {
    if |parts| > 1 {
      JoinAvoids(parts[1..], sep, c);
    }
  }

  /** A one-character separator cannot overlap itself. */
  lemma SingleCharBorderFree(c: char)
    ensures BorderFree([c])
  {
  }

  /** A string without the character `c` holds no occurrence of `[c]`. */
  lemma NotContainsChar(a: string, c: char)
    requires c !in a
    ensures !Contains(a, [c])
  {
    forall i: nat | i <= |a| ensures !OccursAt(a, [c], i) {
      if i < |a| {
        assert a[i..i + 1] == [a[i]];
      }
    }
  }

  /** `'#'.repeat(n)`. */
  function Repeat(c: char, n: nat): (r: string)
    ensures |r| == n
    ensures forall i :: 0 <= i < n ==> r[i] == c
  {
    if n == 0 then [] else [c] + Repeat(c, n - 1)
  }
  // ---------------------------------------------------------------------------
  // Numbers as text
  // ---------------------------------------------------------------------------

  /** The decimal digits of `n`, as a template literal prints a non-negative integer. */
  function DecimalString(n: nat): (r: string)
    ensures |r| > 0 && forall i :: 0 <= i < |r| ==> '0' <= r[i] <= '9'
  {
    var d := ('0' as int + n % 10) as char;
    if n < 10 then [d] else DecimalString(n / 10) + [d]
  }

  /** The number a string of decimal digits stands for. */
  function DigitsValue(s: string): nat
    requires forall i :: 0 <= i < |s| ==> '0' <= s[i] <= '9'
  {
    if |s| == 0 then 0 else DigitsValue(s[..|s| - 1]) * 10 + (s[|s| - 1] as int - '0' as int)
  }

  /** The digits read back as the number they print, and only zero is printed with a leading `0`. */
  lemma {:induction false} DecimalStringValue(n: nat)
    ensures DigitsValue(DecimalString(n)) == n
    ensures DecimalString(n)[0] == '0' <==> n == 0
  {
    var r := DecimalString(n);
    if n >= 10 {
      DecimalStringValue(n / 10);
      assert r[..|r| - 1] == DecimalString(n / 10);
      assert r[0] == DecimalString(n / 10)[0];
    }
  }

  /** `String(n)` for an integer: a minus sign, then the digits of its magnitude. */
  function IntString(n: int): string {
    if n >= 0 then DecimalString(n) else "-" + DecimalString(-n)
  }
}

=== FILE: tab_nav.dfy ===
/** Which stage tabs the tab bar lets the user open. */
module TabNav {
  import opened Types

  /**
   * `isTabAccessible(tab)`: everything in free mode; in step mode the tabs up
   * to the current stage and every completed stage.
   */
  predicate IsTabAccessible(isStepMode: bool, current: GenerationStage, completed: seq<GenerationStage>, tab: GenerationStage) {
    !isStepMode || StageIndex(tab) <= StageIndex(current) || tab in completed
  }

  /** The access rules of the tab bar, each stated on its own. */
  lemma AccessRules(isStepMode: bool, current: GenerationStage, completed: seq<GenerationStage>, tab: GenerationStage)
    ensures !isStepMode ==> IsTabAccessible(isStepMode, current, completed, tab)
    ensures IsTabAccessible(isStepMode, current, completed, Input)
    ensures IsTabAccessible(isStepMode, current, completed, current)
    ensures StageIndex(tab) <= StageIndex(current) ==> IsTabAccessible(isStepMode, current, completed, tab)
    ensures tab in completed ==> IsTabAccessible(isStepMode, current, completed, tab)
    ensures (isStepMode && StageIndex(current) < StageIndex(tab) && tab !in completed)
            ==> !IsTabAccessible(isStepMode, current, completed, tab)
  {
  }

  /** Moving forward, or completing more stages, never locks a tab again. */
  lemma AccessMonotone(isStepMode: bool, current: GenerationStage, current': GenerationStage,
                       completed: seq<GenerationStage>, completed': seq<GenerationStage>, tab: GenerationStage)
    requires StageIndex(current) <= StageIndex(current')
    requires forall i :: 0 <= i < |completed| ==> completed[i] in completed'
    requires IsTabAccessible(isStepMode, current, completed, tab)
    ensures IsTabAccessible(isStepMode, current', completed', tab)
  {
    if isStepMode && StageIndex(tab) > StageIndex(current) {
      var i :| 0 <= i < |completed| && completed[i] == tab;
      assert completed[i] in completed';
    }
  }
}

=== FILE: types.dfy ===
/**
 * The article record that the whole wizard threads through its stages, its
 * defaults, and the option tables the settings form offers.
 */
module Types {
  import opened Wrappers

  datatype WritingStyle = Polite | Formal | Friendly

  datatype AudienceLevel = Beginner | Intermediate | Advanced | General

  /** The four wizard stages, in the order the user walks through them. */
  datatype GenerationStage = Input | Title | Outline | Body

  /** The stage order of the tab bar and of the wizard. */
  const StageOrder: seq<GenerationStage> := [Input, Title, Outline, Body]

  /** A stage's position in `StageOrder` (`stageOrder.indexOf(stage)`). */
  function StageIndex(s: GenerationStage): (i: nat)
    ensures i < |StageOrder| && StageOrder[i] == s
  {
    match s
    case Input => 0
    case Title => 1
    case Outline => 2
    case Body => 3
  }

  /** The stage after `s`, for every stage that has one. */
  function NextStage(s: GenerationStage): (r: Option<GenerationStage>)
    ensures r.Some? <==> s != Body
    ensures r.Some? ==> StageIndex(r.value) == StageIndex(s) + 1
  {
    match s
    case Input => Some(Title)
    case Title => Some(Outline)
    case Outline => Some(Body)
    case Body => None
  }

  datatype StrategySettings = StrategySettings(
    title: string,
    target: string,
    concept: string,
    strength: string,
    structure: string,
    otherInstructions: string)

  datatype BasicSettings = BasicSettings(
    style: WritingStyle,
    audience: AudienceLevel,
    wordCount: int,
    imageTheme: string)

  /** One heading of the outline; `level` 1 is an H2 and 2 an H3. */
  datatype OutlineSection = OutlineSection(level: int, heading: string, summary: string)

  /**
   * The whole article state. `completedStages`, `hashtags`,
   * `generatedImageUrl`, `generatedImageModel` and `referenceImage` are read
   * and written by the context and the preview although the interface does not
   * declare them; the four optional ones start out undefined (`None`).
   */
  datatype ArticleData = ArticleData(
    knowhow: string,
    strategy: StrategySettings,
    settings: BasicSettings,
    generatedTitles: seq<string>,
    selectedTitle: string,
    outline: seq<OutlineSection>,
    body: string,
    metaDescription: string,
    hashtags: Option<seq<string>>,
    generatedImageUrl: Option<string>,
    generatedImageModel: Option<string>,
    referenceImage: Option<string>,
    completedStages: seq<GenerationStage>,
    currentStage: GenerationStage,
    isStepMode: bool,
    isGenerating: bool)

  const DefaultStrategy := StrategySettings("", "", "", "", "", "")

  const DefaultSettings := BasicSettings(Polite, Beginner, 5000, "")

  const DefaultArticleData := ArticleData(
    knowhow := "",
    strategy := DefaultStrategy,
    settings := DefaultSettings,
    generatedTitles := [],
    selectedTitle := "",
    outline := [],
    body := "",
    metaDescription := "",
    hashtags := None,
    generatedImageUrl := None,
    generatedImageModel := None,
    referenceImage := None,
    completedStages := [],
    currentStage := Input,
    isStepMode := false,
    isGenerating := false)

  /** A fresh article: first stage, free mode, idle, nothing generated yet. */
  predicate IsFresh(d: ArticleData) {
    && d.currentStage == Input
    && !d.isStepMode
    && !d.isGenerating
    && d.generatedTitles == []
    && d.selectedTitle == ""
    && d.outline == []
    && d.body == ""
    && d.metaDescription == ""
    && d.completedStages == []
  }

  lemma DefaultIsFresh()
    ensures IsFresh(DefaultArticleData)
    ensures DefaultArticleData.settings.wordCount == 5000
    ensures DefaultArticleData.strategy == DefaultStrategy
  {
  }

  datatype WordCountOption = WordCountOption(value: int, caption: string)

  const WordCountOptions: seq<WordCountOption> := [
    WordCountOption(1000, "1,000文字"),
    WordCountOption(3000, "3,000文字"),
    WordCountOption(5000, "5,000文字"),
    WordCountOption(10000, "10,000文字")
  ]

  predicate StrictlyIncreasing(opts: seq<WordCountOption>) {
    forall i, j :: 0 <= i < j < |opts| ==> opts[i].value < opts[j].value
  }

  /** The default word count is one the selector offers, and the offers are strictly increasing. */
  lemma WordCountOptionsWellFormed()
    ensures exists i :: 0 <= i < |WordCountOptions| && WordCountOptions[i].value == DefaultSettings.wordCount
    ensures StrictlyIncreasing(WordCountOptions)
  {
    assert WordCountOptions[2].value == DefaultSettings.wordCount;
  }

  function StyleLabel(s: WritingStyle): string {
    match s
    case Polite => "ですます調（丁寧）"
    case Formal => "である調（簡潔）"
    case Friendly => "フレンドリー"
  }

  function AudienceLabel(a: AudienceLevel): string {
    match a
    case Beginner => "初心者向け"
    case Intermediate => "中級者向け"
    case Advanced => "上級者向け"
    case General => "一般向け"
  }

  /** Each label table covers every value (by construction) and tells the values apart. */
  lemma LabelsDistinct()
    ensures forall a, b :: StyleLabel(a) == StyleLabel(b) ==> a == b
    ensures forall a, b :: AudienceLabel(a) == AudienceLabel(b) ==> a == b
  {
  }

  /** `StageOrder` lists each stage exactly once, at its own index. */
  lemma StageOrderIsEnumeration()
    ensures forall i :: 0 <= i < |StageOrder| ==> StageIndex(StageOrder[i]) == i
    ensures forall s, t :: StageIndex(s) == StageIndex(t) ==> s == t
  {
  }
}

=== FILE: wizard.dfy ===
/**
 * The wizard page: the generate button's guard, label and dispatch, the three
 * generate steps, and the reset button. The page keeps its own list of
 * completed stages next to the article record; that list is what the tab bar
 * reads.
 */
module Wizard {
  import opened Wrappers
  import opened Types
  import Strings
  import Seqs
  import Article

  datatype AppState = AppState(article: ArticleData, completedStages: seq<GenerationStage>)

  /** The page as first shown. */
  const InitialApp := AppState(DefaultArticleData, [Input])

  /**
   * `canGenerate()`: the generate button is enabled. It never is without a
   * caption, and on the input stage it is exactly when the know-how has a
   * character other than whitespace.
   */
  predicate CanGenerate(a: ArticleData): (r: bool)
    ensures r ==> ButtonText(a) != ""
    ensures a.currentStage == Input ==> (r <==> !Strings.AllWhitespace(a.knowhow))
  {
    Strings.TrimEmptyIff(a.knowhow);
    match a.currentStage
    case Input => |Strings.Trim(a.knowhow)| > 0
    case Title => |a.selectedTitle| > 0
    case Outline => |a.outline| > 0
    case Body => false
  }

  /** `getButtonText()`. */
  function ButtonText(a: ArticleData): (r: string)
    ensures r == "" <==> a.currentStage == Body
  {
    match a.currentStage
    case Input => if a.isStepMode then "タイトル案を作成する" else "記事を作成する"
    case Title => "構成案を作成する"
    case Outline => "本文を作成する"
    case Body => ""
  }

  /** `Array.from(new Set([...prev, stage]))`. */
  function MarkCompleted(done: seq<GenerationStage>, stage: GenerationStage): (r: seq<GenerationStage>)
    ensures Seqs.NoDuplicates(r)
    ensures stage in r
    ensures forall i :: 0 <= i < |done| ==> done[i] in r
    ensures forall i :: 0 <= i < |r| ==> r[i] in done || r[i] == stage
  {
    var r := Seqs.Dedup(done + [stage]);
    assert (done + [stage])[|done|] == stage;
    assert forall i :: 0 <= i < |done| ==> (done + [stage])[i] == done[i];
    r
  }

  /** On a duplicate-free list the union appends a new stage and leaves a known one alone. */
  lemma MarkCompletedAppends(done: seq<GenerationStage>, stage: GenerationStage)
    requires Seqs.NoDuplicates(done)
    ensures stage in done ==> MarkCompleted(done, stage) == done
    ensures stage !in done ==> MarkCompleted(done, stage) == done + [stage]
  {
    if stage in done {
      assert (done + [stage])[..|done|] == done;
      Seqs.DedupNoDuplicates(done);
    } else {
      Seqs.DedupNoDuplicates(done + [stage]);
    }
  }

  /** What the three endpoints answered: `None` for a failed, rejected or incomplete reply. */
  datatype BodyReply = BodyReply(markdown: string, metaDescription: string)

  datatype Replies = Replies(
    titles: Option<seq<string>>,
    outline: Option<seq<OutlineSection>>,
    body: Option<BodyReply>)

  /**
   * One generate step after its guard passed: mark busy, store the reply and
   * advance on success, and always end idle (the `finally`).
   */
  function Finish(st: AppState, stored: Option<ArticleData>, next: GenerationStage): (r: AppState)
    ensures !r.article.isGenerating
    ensures stored.Some? ==> r.article == stored.value.(currentStage := next, isGenerating := false)
    ensures stored.Some? ==> r.completedStages == MarkCompleted(st.completedStages, next)
    ensures stored.None? ==> r == AppState(st.article.(isGenerating := false), st.completedStages)
  {
    match stored
    case Some(a) =>
      AppState(
        Article.Apply(Article.Apply(a, Article.SetCurrentStage(next)), Article.SetIsGenerating(false)),
        MarkCompleted(st.completedStages, next))
    case None =>
      AppState(Article.Apply(st.article, Article.SetIsGenerating(false)), st.completedStages)
  }

  /**
   * `generateTitles()`: a reply changes the titles, the stage, the busy flag
   * and the completed list, and nothing else; without one only the busy flag
   * goes back.
   */
  function GenerateTitles(st: AppState, reply: Option<seq<string>>): (r: AppState)
    ensures Strings.Trim(st.article.knowhow) == [] ==> r == st
    ensures Strings.Trim(st.article.knowhow) != [] && reply.Some? ==>
              && r.article == st.article.(generatedTitles := reply.value, currentStage := Title, isGenerating := false)
              && r.completedStages == MarkCompleted(st.completedStages, Title)
    ensures Strings.Trim(st.article.knowhow) != [] && reply.None? ==>
              r == AppState(st.article.(isGenerating := false), st.completedStages)
  {
    if Strings.Trim(st.article.knowhow) == [] then st
    else
      var busy := Article.Apply(st.article, Article.SetIsGenerating(true));
      var stored := if reply.Some? then Some(Article.Apply(busy, Article.SetGeneratedTitles(reply.value))) else None;
      Finish(st, stored, Title)
  }

  /** `generateOutline()`: as `generateTitles()`, storing the outline. */
  function GenerateOutline(st: AppState, reply: Option<seq<OutlineSection>>): (r: AppState)
    ensures st.article.selectedTitle == "" ==> r == st
    ensures st.article.selectedTitle != "" && reply.Some? ==>
              && r.article == st.article.(outline := reply.value, currentStage := Outline, isGenerating := false)
              && r.completedStages == MarkCompleted(st.completedStages, Outline)
    ensures st.article.selectedTitle != "" && reply.None? ==>
              r == AppState(st.article.(isGenerating := false), st.completedStages)
  {
    if st.article.selectedTitle == "" then st
    else
      var busy := Article.Apply(st.article, Article.SetIsGenerating(true));
      var stored := if reply.Some? then Some(Article.Apply(busy, Article.SetOutline(reply.value))) else None;
      Finish(st, stored, Outline)
  }

  /**
   * `generateBody()`: the reply's markdown and description go through
   * `setBody`, without hashtags; besides what `setBody` writes only the stage,
   * the busy flag and the completed list change.
   */
  function GenerateBody(st: AppState, reply: Option<BodyReply>): (r: AppState)
    ensures |st.article.outline| == 0 ==> r == st
    ensures |st.article.outline| > 0 && reply.Some? ==>
              && r.article == Article.SetBody(st.article, reply.value.markdown, Some(reply.value.metaDescription), None)
                                .(currentStage := Body, isGenerating := false)
              && r.completedStages == MarkCompleted(st.completedStages, Body)
    ensures |st.article.outline| > 0 && reply.None? ==>
              r == AppState(st.article.(isGenerating := false), st.completedStages)
  {
    if |st.article.outline| == 0 then st
    else
      var busy := st.article.(isGenerating := true);  // setIsGenerating(true)
      match reply
      case None => Finish(st, None, Body)
      case Some(answer) =>
        Article.SetBodyIgnoresBusy(st.article, answer.markdown, Some(answer.metaDescription), None, true);
        Finish(st, Some(Article.SetBody(busy, answer.markdown, Some(answer.metaDescription), None)), Body)
  }

  /** Whether the reply for the current stage's step is a success. */
  predicate ReplySucceeds(stage: GenerationStage, r: Replies) {
    match stage
    case Input => r.titles.Some?
    case Title => r.outline.Some?
    case Outline => r.body.Some?
    case Body => false
  }

  /** The article fields the step of a stage stores its reply in. */
  function StepFields(stage: GenerationStage): set<Article.Field> {
    match stage
    case Input => {Article.GeneratedTitles}
    case Title => {Article.OutlineF}
    case Outline => {Article.BodyF, Article.MetaDescription, Article.Hashtags}
    case Body => {}
  }

  /**
   * `handleGenerateClick()`: run the step that belongs to the current stage.
   * A successful step writes only its own fields, the stage and the busy flag.
   */
  function GenerateClick(st: AppState, replies: Replies): (r: AppState)
    ensures !CanGenerate(st.article) ==> r == st
    ensures CanGenerate(st.article) ==> !r.article.isGenerating
    ensures CanGenerate(st.article) && ReplySucceeds(st.article.currentStage, replies) ==>
      var next := NextStage(st.article.currentStage).value;
      && r.article.currentStage == next
      && r.completedStages == MarkCompleted(st.completedStages, next)
      && Article.AgreeExcept(st.article, r.article,
                             StepFields(st.article.currentStage) + {Article.CurrentStage, Article.IsGenerating})
    ensures CanGenerate(st.article) && !ReplySucceeds(st.article.currentStage, replies) ==>
      r == AppState(st.article.(isGenerating := false), st.completedStages)
  {
    Strings.TrimEmptyIff(st.article.knowhow);
    match st.article.currentStage
    case Input => GenerateTitles(st, replies.titles)
    case Title => GenerateOutline(st, replies.outline)
    case Outline => GenerateBody(st, replies.body)
    case Body => st
  }

  /** A successful step stores exactly what the endpoint answered. */
  lemma GenerateStoresReply(st: AppState, replies: Replies)
    requires CanGenerate(st.article) && ReplySucceeds(st.article.currentStage, replies)
    ensures var a := GenerateClick(st, replies).article;
      && (st.article.currentStage == Input ==> a.generatedTitles == replies.titles.value)
      && (st.article.currentStage == Title ==> a.outline == replies.outline.value)
      && (st.article.currentStage == Outline ==> a.body == replies.body.value.markdown)
      && ((st.article.currentStage == Outline && replies.body.value.metaDescription == "")
          ==> a.metaDescription == st.article.metaDescription)
      && ((st.article.currentStage == Outline && replies.body.value.metaDescription != "")
          ==> a.metaDescription == replies.body.value.metaDescription)
  {
    match st.article.currentStage
    case Input =>
    case Title =>
    case Outline => BodyStepStoresReply(st, replies.body.value);
  }

  /** The body step stores the reply's markdown, and an empty description keeps the old one. */
  lemma BodyStepStoresReply(st: AppState, reply: BodyReply)
    requires |st.article.outline| > 0
    ensures GenerateBody(st, Some(reply)).article.body == reply.markdown
    ensures reply.metaDescription == "" ==> GenerateBody(st, Some(reply)).article.metaDescription == st.article.metaDescription
    ensures reply.metaDescription != "" ==> GenerateBody(st, Some(reply)).article.metaDescription == reply.metaDescription
  {
  }

  /** `handleReset()`: after the user confirms, back to the defaults with only the first stage done. */
  function HandleReset(st: AppState, confirmed: bool): (r: AppState)
    ensures confirmed ==> r.article == DefaultArticleData && r.completedStages == [Input]
    ensures !confirmed ==> r == st
  {
    if confirmed then AppState(Article.ResetFromStage(st.article, Input), [Input]) else st
  }
}

=== FILE: wrappers.dfy ===
/** Failure-compatible wrappers shared by every module of the model. */
module Wrappers {

  /** A value that may be absent: JavaScript's `undefined` for an optional field. */
  datatype Option<+T> = None | Some(value: T) {

    /** The wrapped value, or `default` when there is none (the `??` operator). */
    function GetOr(default: T): (r: T)
      ensures Some? ==> r == value
      ensures None? ==> r == default
    {
      match this
      case Some(v) => v
      case None => default
    }
  }

  /** The outcome of a step that can throw: a value, or the thrown error's message. */
  datatype Result<+T> = Success(value: T) | Failure(error: string)
}
